=== FILE: README.md ===
# md_to_pdf core, modelled in Dafny

md_to_pdf turns a Markdown file with YAML front matter into a PDF through pandoc and LaTeX.
This project models the logic that decides what pandoc is given, and proves properties of it:

- **ConfigManager** (`config.dfy`): how command-line arguments become a partial
  configuration (`getConfigFromArgs`), and how a template name is resolved to a `.tex` file:
  built-in first, then a custom path, then `default.tex` (`resolveTemplatePath`).
- **FrontMatterFormatter** (`frontmatter.dfy`): how document front matter is completed from
  the configuration and today's date and dumped between `---` fences (`formatFrontMatter`,
  `objectToYaml`).
- **Converter** (`converter.dfy`):
  - `{name}` / `{a.b}` template-variable substitution (`replaceTemplateVariables`);
  - the pandoc command line (`buildPandocArgs`);
  - front matter plus body, with technical preprocessing when the template is
    `technical_proposal` (`processMarkdown`).
- **TechnicalPreprocessor** (`preprocessor.dfy`): the six enhancement passes applied to
  technical documents, and the final collapse of newline runs (`processTechnicalDocument`).
- **AssetManager** (`assets.dfy`): how image paths are extracted from Markdown and HTML image
  syntax, and what `processImages` does with each path (skip URLs, report missing files,
  optimise into the cache with quality 90).
- **MarkdownValidator** (`validator.dfy`): the seven style rules and
  `validateMarkdownFile`.

Two shared modules support the rest:

- **JsText** (`js_text.dfy`) models the JavaScript string and value operations the source
  relies on: `trim`, `split`, `includes`, `parseInt`, truthiness, `path.basename`, and
  dotted-path lookup through objects.
- **Scan** (`scan.dfy`) models `String.prototype.replace` and `match` with a global regular
  expression: leftmost match first, scanning resumes after each match, and `^` in multiline
  mode.

Each regular expression of the source is written out by hand as a matcher over the rest of
the text. Its comment explains how JavaScript's backtracking resolves it. Loops in the source
are methods with loop invariants, proved against declarative functions. The line-numbered
checks of the validator are proved against a "problem at line i" predicate, in both
directions.

`TrailingDotNumberPasses` records something the validator does: its manual-numbering rule
needs a digit after every dot. So `## 1. Introduction` passes the rule, while `## 1.2 Scope`
is caught (`ManualNumberDetected`).

## Model

| member | source | states |
|---|---|---|
| `ConfigManager.GetConfigFromArgs` | md_to_pdf/src/config/configManager.js:136-161 | the configuration built step by step equals the declarative `ConfigFromArgs` of the arguments |
| `ConfigManager.ConfigFromArgsEmpty` | md_to_pdf/src/config/configManager.js:136-161 | the result is empty exactly when no recognised argument is set (truthy, or `toc` not undefined) |
| `ConfigManager.ConfigFromArgsPdfEngine` | md_to_pdf/src/config/configManager.js:140-142 | `pandoc.pdfEngine` is the argument when it is truthy and absent otherwise |
| `ConfigManager.ConfigFromArgsHighlightStyle` | md_to_pdf/src/config/configManager.js:144-146 | `markdown.highlightStyle` is the argument when it is truthy and absent otherwise |
| `ConfigManager.ConfigFromArgsToc` | md_to_pdf/src/config/configManager.js:148-150 | `output.toc` is set whenever `toc` is defined, even to `false` |
| `ConfigManager.ConfigFromArgsTocDepth` | md_to_pdf/src/config/configManager.js:152-154 | `output.tocDepth` is `parseInt` of a truthy argument (a number or NaN) and absent otherwise |
| `ConfigManager.ConfigFromArgsTemplate` | md_to_pdf/src/config/configManager.js:156-158 | `output.template` is the argument when it is truthy and absent otherwise |
| `ConfigManager.ConfigFromArgsShape` | md_to_pdf/src/config/configManager.js:136-161 | every section is an object, and holds only the five argument paths |
| `ConfigManager.SetArgPath` | md_to_pdf/src/config/configManager.js:139-158 | a guarded `_.set` of an argument path keeps the configuration within the argument paths |
| `ConfigManager.GetPathIsLookup` | md_to_pdf/src/config/configManager.js:140 | reading `ns.k` equals the generic dotted-path lookup |
| `ConfigManager.GetAfterSet` | md_to_pdf/src/config/configManager.js:140 | after `_.set(config, 'ns.k', v)`, reading `ns.k` gives `v` |
| `ConfigManager.SetKeepsOtherPaths` | md_to_pdf/src/config/configManager.js:140 | `_.set` of one path leaves every other path as it was |
| `ConfigManager.ParseIntValue` | md_to_pdf/src/config/configManager.js:153 | the result is a number exactly when the value's string form parses as an integer, and NaN otherwise |
| `ConfigManager.ParseIntValueOfDigits` | md_to_pdf/src/config/configManager.js:153 | `parseInt` gives back every integer from its decimal string (round trip) |
| `ConfigManager.ResolveTemplatePath` | md_to_pdf/src/config/configManager.js:168-185 | the path is never empty; an existing built-in wins; otherwise an existing custom path; whatever is returned exists or is the default |
| `ConfigManager.FallsBackToDefault` | md_to_pdf/src/config/configManager.js:183-184 | with neither template present, the result is `<templatesDir>/default.tex` |
| `FrontMatterFormatter.ObjectToYaml` | md_to_pdf/src/core/frontMatterFormatter.js:8-17 | empty output exactly for missing or empty data; otherwise `---\n`, the dump, then `---\n\n` |
| `FrontMatterFormatter.IsoDate` | md_to_pdf/src/core/frontMatterFormatter.js:40-42 | today's date is ten characters with dashes at positions 4 and 7 |
| `FrontMatterFormatter.IsoDateRoundTrip` | md_to_pdf/src/core/frontMatterFormatter.js:40-42 | parsing the ISO date string gives back the calendar date |
| `FrontMatterFormatter.Defaulted` | md_to_pdf/src/core/frontMatterFormatter.js:30-32 | `if (!x && fallback) x = fallback`: a present value is kept, and otherwise a present fallback is taken |
| `FrontMatterFormatter.DefaultedToTrue` | md_to_pdf/src/core/frontMatterFormatter.js:121-123 | `if (x === undefined && cond) x = true`: a set value is kept, and the result is set whenever the condition holds |
| `FrontMatterFormatter.FormatFrontMatter` | md_to_pdf/src/core/frontMatterFormatter.js:25-148 | the completed front matter satisfies `Formatted`, and the YAML is its fenced dump, never empty |
| `FrontMatterFormatter.CompleteFrontMatter` | md_to_pdf/src/core/frontMatterFormatter.js:27-144 | the copy updated field by field satisfies `Formatted` |
| `FrontMatterFormatter.DumpDated` | md_to_pdf/src/core/frontMatterFormatter.js:147 | dumping front matter that has a date gives a non-empty YAML block fenced by `---` |
| `FrontMatterFormatter.OtherPropertiesKept` | md_to_pdf/src/core/frontMatterFormatter.js:27-147 | a property the formatter neither reads nor sets reaches `yaml.dump` with the document's value |
| `FrontMatterFormatter.DatedIsNonEmpty` | md_to_pdf/src/core/frontMatterFormatter.js:147 | front matter with a date has at least one key, so `objectToYaml` cannot return `''` |
| `FrontMatterFormatter.FillDocument` | md_to_pdf/src/core/frontMatterFormatter.js:30-42 | title and author default from the configuration, the date from today; no other field changes |
| `FrontMatterFormatter.FillFonts` | md_to_pdf/src/core/frontMatterFormatter.js:45-57 | the three fonts default from `typography`; no other field changes |
| `FrontMatterFormatter.FillText` | md_to_pdf/src/core/frontMatterFormatter.js:60-77 | font size, line height and language default from `typography`, paper size from `output`; no other field changes |
| `FrontMatterFormatter.FillGeometry` | md_to_pdf/src/core/frontMatterFormatter.js:80-101 | geometry defaults from `output`; when neither sets one, unset margins default to 2.5cm left and right and 3cm top and bottom; no other field changes |
| `FrontMatterFormatter.FillNavigation` | md_to_pdf/src/core/frontMatterFormatter.js:104-118 | link colour defaults to blue; toc depth is copied only when a TOC is wanted and none is set; header includes default from the configuration |
| `FrontMatterFormatter.FillClass` | md_to_pdf/src/core/frontMatterFormatter.js:121-133 | numbering becomes true when configured and unset; document class and template default from `output` |
| `FrontMatterFormatter.FillStyling` | md_to_pdf/src/core/frontMatterFormatter.js:136-144 | colour links default to true; when `tables` is unset and table styling is configured, `tables` and `booktabs` become true; no other field changes |
| `FrontMatterFormatter.FormattedHasDate` | md_to_pdf/src/core/frontMatterFormatter.js:40-42 | the output always has a date: the document's own, or today's date, which parses back to today |
| `FrontMatterFormatter.DocumentValuesWin` | md_to_pdf/src/core/frontMatterFormatter.js:25-144 | every value the document sets is kept over the configuration |
| `FrontMatterFormatter.ConfigFillsGaps` | md_to_pdf/src/core/frontMatterFormatter.js:30-106 | a value the document lacks is taken from a truthy configuration value; link colour falls back to blue |
| `FrontMatterFormatter.GeometryOrMargins` | md_to_pdf/src/core/frontMatterFormatter.js:80-101 | the output has a geometry or all four margins, and with a geometry the margins are untouched |
| `FrontMatterFormatter.TocDepthOnlyWhenWanted` | md_to_pdf/src/core/frontMatterFormatter.js:109-111 | toc depth changes only when a TOC is wanted and the document has no depth; a document depth is kept |
| `FrontMatterFormatter.TablesWithBooktabs` | md_to_pdf/src/core/frontMatterFormatter.js:141-144 | `tables` changes exactly when table styling applies, and then both `tables` and `booktabs` are true |
| `FrontMatterFormatter.FormattingIsIdempotent` | md_to_pdf/src/core/frontMatterFormatter.js:25-148 | formatting already-formatted front matter again changes nothing |
| `FrontMatterFormatter.DefaultsSettle` | md_to_pdf/src/core/frontMatterFormatter.js:30-133 | a second pass keeps every plain defaulted field |
| `FrontMatterFormatter.LayoutSettles` | md_to_pdf/src/core/frontMatterFormatter.js:80-144 | a second pass keeps margins, TOC, numbering and table fields when the conditions they depend on are unchanged |
| `Converter.ReplaceTemplateVariables` | md_to_pdf/src/core/converter.js:16-21 | text without `{`, or substituted with no variables, is unchanged; any other text is covered by `NoPlaceholderKept` (no placeholder starts anywhere) or, at its first match, by `PlaceholderShape` and `ReplaceFirstPlaceholder` |
| `Converter.ReplaceFirstPlaceholder` | md_to_pdf/src/core/converter.js:16-21 | the first `{key}` of a text, whatever precedes it (stray braces included), becomes its resolved value, or stays when the lookup is undefined; the text before it is kept and the rest is substituted independently |
| `Converter.ReplaceFirstPlaceholderAfterText` | md_to_pdf/src/core/converter.js:16-21 | the same for a `{key}` preceded by text without any `{` |
| `Converter.NoPlaceholderKept` | md_to_pdf/src/core/converter.js:16-21 | a text in which no placeholder starts is returned unchanged, even when it holds braces such as `{ }` or `{}` |
| `Converter.PlaceholderShape` | md_to_pdf/src/core/converter.js:17 | every match of the pattern is `{`, one or more of `[a-zA-Z0-9_.]`, `}` |
| `Converter.DoubleBracesKeepOuter` | md_to_pdf/src/core/converter.js:17-20 | `{{key}}` of a defined top-level variable gives `{value}`: only the inner braces form the placeholder |
| `Converter.ReplacesDefinedVariable` | md_to_pdf/src/core/converter.js:17-20 | a defined top-level variable replaces its first placeholder by its string form, whatever precedes it |
| `Converter.KeepsUndefinedVariable` | md_to_pdf/src/core/converter.js:19 | the first placeholder of an undefined variable is left in place, whatever precedes it |
| `Converter.NoVariablesKept` | md_to_pdf/src/core/converter.js:16-21 | with no variables every placeholder stays, so the text is unchanged |
| `Converter.NoBraceKept` | md_to_pdf/src/core/converter.js:16-21 | text without `{` has no placeholder and is unchanged |
| `Converter.LookupTopLevel` | md_to_pdf/src/core/converter.js:18 | a key without dots looks up the variable itself |
| `Converter.LookupFalsyParent` | md_to_pdf/src/core/converter.js:18 | `a.b` with a falsy `a` yields `a` itself, since `obj && obj[key]` stops there |
| `Converter.LookupUndefined` | md_to_pdf/src/core/converter.js:18 | a lookup through `undefined` stays undefined |
| `Converter.ResolveNested` | md_to_pdf/src/core/converter.js:18 | `{a.k}` with a defined `a` resolves to the string form of `a[k]`, or is undefined when `a[k]` is |
| `Converter.ArrayItemResolves` | md_to_pdf/src/core/converter.js:18 | `{a.i}` reads item `i` of an array `a` |
| `Converter.StringLengthResolves` | md_to_pdf/src/core/converter.js:18 | `{a.length}` of a non-empty string gives its length |
| `Converter.ArrayLengthResolves` | md_to_pdf/src/core/converter.js:18 | `{a.length}` of an array gives its number of items, `0` for an empty one |
| `Converter.PlaceholderAt` | md_to_pdf/src/core/converter.js:17 | `{key}` with word-or-dot characters matches the placeholder pattern over its whole length |
| `Converter.WhenTruthy` | md_to_pdf/src/core/converter.js:66-68 | an option is emitted exactly when the configuration value is truthy, and then with that value |
| `Converter.BuildPandocArgs` | md_to_pdf/src/core/converter.js:30-159 | the argument list pushed step by step equals the declarative `PandocArgs` |
| `Converter.PushNumberingAndEngine` | md_to_pdf/src/core/converter.js:51-60 | the numbering and engine steps append the options `WithNumberingAndEngine` lists |
| `Converter.PushTypography` | md_to_pdf/src/core/converter.js:66-93 | the typography step appends the options `WithTypography` lists |
| `Converter.PushContent` | md_to_pdf/src/core/converter.js:96-118 | the content step appends the options `WithContent` lists |
| `Converter.PushMargins` | md_to_pdf/src/core/converter.js:121-128 | the geometry-or-margins step appends the options `WithMargins` lists |
| `Converter.PushPage` | md_to_pdf/src/core/converter.js:131-150 | the page step appends the options `WithPage` lists |
| `Converter.FailsOnlyWithoutTocDepth` | md_to_pdf/src/core/converter.js:44-47 | building fails exactly when a TOC is wanted and `tocDepth` is undefined or null (`.toString()` throws) |
| `Converter.ArgsBegin` | md_to_pdf/src/core/converter.js:34-41 | the arguments start with input, `-o`, output, then `--template path` when a template is given |
| `Converter.TemplateOnlyWhenGiven` | md_to_pdf/src/core/converter.js:38-41 | `--template` appears exactly when a template path is given, and only with that path |
| `Converter.ArgsEnd` | md_to_pdf/src/core/converter.js:153-156 | the arguments end with `--smart --standalone` |
| `Converter.TocOnlyWhenWanted` | md_to_pdf/src/core/converter.js:44-47 | `--toc` appears exactly when a TOC is wanted, together with its depth |
| `Converter.TocDepthFollowsToc` | md_to_pdf/src/core/converter.js:44-47 | `--toc` is directly followed by `--toc-depth` and the depth's string form |
| `Converter.TechnicalTemplateUnnumbered` | md_to_pdf/src/core/converter.js:51-53 | with the technical template, `numbersections=false` is set |
| `Converter.TechnicalTemplateNoFlag` | md_to_pdf/src/core/converter.js:51-57 | with the technical template, `-N` never appears |
| `Converter.NumberedFlag` | md_to_pdf/src/core/converter.js:54-57 | otherwise `-N` appears exactly when numbering is configured |
| `Converter.NumberSectionsOnlyTechnical` | md_to_pdf/src/core/converter.js:51-57 | the `numbersections` variable is set only for the technical template |
| `Converter.GeometryWhenConfigured` | md_to_pdf/src/core/converter.js:121-122 | `geometry` is set exactly when configured, and then with the configured value |
| `Converter.MarginsOtherwise` | md_to_pdf/src/core/converter.js:123-128 | without geometry all four 1in margins are set, and with geometry none is |
| `Converter.PreparedBody` | md_to_pdf/src/core/converter.js:219-226 | a technical document's body has no run of three newlines and is stable under collapsing; any other body is unchanged |
| `Converter.PreprocessedIffTechnical` | md_to_pdf/src/core/converter.js:223-226 | for a body with a triple newline, the body is changed exactly when the document is technical |
| `Converter.ProcessMarkdown` | md_to_pdf/src/core/converter.js:212-235 | the content is the formatted front matter's YAML followed by the prepared body, and starts with `---\n`; the front matter returned is the parsed data |
| `TechnicalPreprocessor.ProcessTechnicalDocument` | md_to_pdf/src/core/technicalPreprocessor.js:128-143 | the result never holds three consecutive newlines and is a fixed point of the collapse |
| `TechnicalPreprocessor.CollapseNewlines` | md_to_pdf/src/core/technicalPreprocessor.js:140 | `replace(/\n{3,}/g, '\n\n')` shortens each run of three or more newlines to two: no three newlines remain, and the other characters are the same, in order |
| `TechnicalPreprocessor.CollapseFixes` | md_to_pdf/src/core/technicalPreprocessor.js:140 | text without a triple newline is unchanged |
| `TechnicalPreprocessor.CollapseIdempotent` | md_to_pdf/src/core/technicalPreprocessor.js:140 | collapsing twice is collapsing once |
| `TechnicalPreprocessor.EnhanceTables` | md_to_pdf/src/core/technicalPreprocessor.js:11-30 | the table pass as a global replace; what it does to a table is `TableWrapped` |
| `TechnicalPreprocessor.EnhanceBlockquotes` | md_to_pdf/src/core/technicalPreprocessor.js:37-46 | the blockquote pass as a global replace; what it does is `QuoteWrapped` |
| `TechnicalPreprocessor.EnhanceBulletPoints` | md_to_pdf/src/core/technicalPreprocessor.js:53-75 | the label pass then the list-block pass; what they do is `LabelSpaced` and `ListBlockPadded` |
| `TechnicalPreprocessor.EnhanceDescriptionLists` | md_to_pdf/src/core/technicalPreprocessor.js:82-93 | the description-list pass as a global replace; what it does is `DescListPadded` |
| `TechnicalPreprocessor.EnhanceSectionHeadings` | md_to_pdf/src/core/technicalPreprocessor.js:100-105 | the heading pass as a global replace; what it does is `HeadingPadded` and `FirstLineHeadingKept` |
| `TechnicalPreprocessor.EnhanceCodeBlocks` | md_to_pdf/src/core/technicalPreprocessor.js:112-121 | the code-fence pass as a global replace; what it does is `CodeFenceTagged` |
| `TechnicalPreprocessor.TableWrapped` | md_to_pdf/src/core/technicalPreprocessor.js:11-30 | a header row, separator row and body rows get a blank line before and after, with the caption when `Table: <header>` occurs in the content |
| `TechnicalPreprocessor.QuoteWrapped` | md_to_pdf/src/core/technicalPreprocessor.js:37-46 | a blockquote opening with two bold spans gets a blank line before and after |
| `TechnicalPreprocessor.LabelSpaced` | md_to_pdf/src/core/technicalPreprocessor.js:56 | a bold label line followed by a list item gets a blank line inserted between them |
| `TechnicalPreprocessor.LabelParts` | md_to_pdf/src/core/technicalPreprocessor.js:56 | a matched label splits into label, newline and marker positions in increasing order inside the text |
| `TechnicalPreprocessor.LabelPartsOf` | md_to_pdf/src/core/technicalPreprocessor.js:56 | `**name**` with an optional colon, a newline, spaces, a marker and a space is matched, with the positions of each part |
| `TechnicalPreprocessor.LabelPartsShape` | md_to_pdf/src/core/technicalPreprocessor.js:56 | conversely, every match is `**`, a name without `*` or newline, `**`, the colon when one follows, white space ending in a newline and spaces only after it, a marker and a space |
| `TechnicalPreprocessor.ListBlockPadded` | md_to_pdf/src/core/technicalPreprocessor.js:60-74 | a list block gets blank lines around it, each line with the marker standardised, then the indentation rewritten |
| `TechnicalPreprocessor.StandardizeListLines` | md_to_pdf/src/core/technicalPreprocessor.js:63-71 | the rewrites inside a block act line by line: bullet standardisation, then re-indentation |
| `TechnicalPreprocessor.StdLineMarker` | md_to_pdf/src/core/technicalPreprocessor.js:64 | a `*` or `+` marker becomes `-` and the indentation is kept |
| `TechnicalPreprocessor.ColonPassKeeps` | md_to_pdf/src/core/technicalPreprocessor.js:67 | the colon-item rewrite puts back what it matched, so it changes nothing |
| `TechnicalPreprocessor.IndentLineAddsTwo` | md_to_pdf/src/core/technicalPreprocessor.js:70 | an indented line that is not an item gets two more spaces |
| `TechnicalPreprocessor.IndentLineKeepsItems` | md_to_pdf/src/core/technicalPreprocessor.js:70 | item lines and unindented lines are unchanged |
| `TechnicalPreprocessor.IndentLineNotIdempotent` | md_to_pdf/src/core/technicalPreprocessor.js:70 | re-indenting is not idempotent: a second pass adds two more spaces |
| `TechnicalPreprocessor.DescLineShape` | md_to_pdf/src/core/technicalPreprocessor.js:84-88 | a `term: definition` line splits into term, blanks and definition, and is rewritten to `term\n: definition` |
| `TechnicalPreprocessor.DescListPadded` | md_to_pdf/src/core/technicalPreprocessor.js:82-93 | a run of `term: definition` lines is rewritten line by line and wrapped in blank lines |
| `TechnicalPreprocessor.HeadingPadded` | md_to_pdf/src/core/technicalPreprocessor.js:100-105 | a heading line between newlines gets a blank line before and after |
| `TechnicalPreprocessor.FirstLineHeadingKept` | md_to_pdf/src/core/technicalPreprocessor.js:102 | a heading on the first line is not padded: the pattern needs a newline before it |
| `TechnicalPreprocessor.CodeFenceTagged` | md_to_pdf/src/core/technicalPreprocessor.js:112-121 | a fenced block keeps its language, or is tagged `text` when it has none; the code is unchanged |
| `AssetManager.ExtractImagePaths` | md_to_pdf/src/core/assetManager.js:10-30 | the paths pushed by the two `exec` loops are every Markdown image path, then every HTML image path |
| `AssetManager.PushMatches` | md_to_pdf/src/core/assetManager.js:17-20 | an `exec` loop appends the captured group of every match, left to right |
| `AssetManager.ImagePathsAreMatches` | md_to_pdf/src/core/assetManager.js:10-30 | there is one path per match, in order: the first word of a Markdown image path, then each HTML `src` |
| `AssetManager.MarkdownPathsAreMatches` | md_to_pdf/src/core/assetManager.js:14-20 | one Markdown path per `![...](...)` match, cut at its first space |
| `AssetManager.HtmlPathsAreMatches` | md_to_pdf/src/core/assetManager.js:23-27 | one HTML path per `<img ... src=...>` match |
| `AssetManager.NoPathsIffNoMatch` | md_to_pdf/src/core/assetManager.js:10-30 | no path is returned exactly when neither pattern matches anywhere |
| `AssetManager.ImageStartsAt` | md_to_pdf/src/core/assetManager.js:14-23 | a Markdown match starts with `![` and an HTML match with `<img` |
| `AssetManager.NoImagesNoPaths` | md_to_pdf/src/core/assetManager.js:10-30 | text with neither `![` nor `<img` gives no path |
| `AssetManager.MarkdownPathsHaveNoSpace` | md_to_pdf/src/core/assetManager.js:18 | a Markdown path never contains a space, so a title is dropped |
| `AssetManager.MarkdownImage` | md_to_pdf/src/core/assetManager.js:14 | a match starts with `![` and ends at a `)` |
| `AssetManager.MarkdownImageShape` | md_to_pdf/src/core/assetManager.js:14 | the captured group of every match is the text between a `](` and the closing `)`, without `)` or line terminators |
| `AssetManager.MarkdownImageAt` | md_to_pdf/src/core/assetManager.js:14 | `![`, alt text without `]`, `](`, a path without `)` and the `)`, all on one line, is a match capturing the path |
| `AssetManager.MarkdownImageOf` | md_to_pdf/src/core/assetManager.js:14 | `![alt](path)` captures exactly `path` and ends after its `)` |
| `AssetManager.MarkdownTitleDropped` | md_to_pdf/src/core/assetManager.js:14-18 | a document starting with `![alt](p "title")` has `p` as its first Markdown path |
| `AssetManager.HtmlImage` | md_to_pdf/src/core/assetManager.js:23 | a match starts with `<img` and ends at a `>` |
| `AssetManager.HtmlImageShape` | md_to_pdf/src/core/assetManager.js:23 | the captured group of every match is the text between the quote after a `src=` and the next quote, without quotes or line terminators |
| `AssetManager.HtmlImageAt` | md_to_pdf/src/core/assetManager.js:23 | `<img`, a line without an earlier quoted `src=`, `src=` and a quote, a value without quotes, a quote and text without `>` up to a `>` is a match capturing the value |
| `AssetManager.HtmlImageOf` | md_to_pdf/src/core/assetManager.js:23 | `<img … src="path" …>` captures exactly `path`, with either quote character |
| `AssetManager.HtmlSrcPushed` | md_to_pdf/src/core/assetManager.js:23-27 | a document starting with `<img … src="path" …>` has `path` as its first HTML path |
| `AssetManager.FirstWord` | md_to_pdf/src/core/assetManager.js:18 | `split(' ')[0]` is the longest space-free prefix |
| `AssetManager.FirstWordOf` | md_to_pdf/src/core/assetManager.js:18 | a word without spaces is its own first word, also when a space and more text follow |
| `AssetManager.Extname` | md_to_pdf/src/core/assetManager.js:101 | the extension is the base name from its last dot; it is empty exactly when the base name has no dot, has its only dot first, or is `..` |
| `AssetManager.BasenameWithout` | md_to_pdf/src/core/assetManager.js:102 | `path.basename(p, ext)` strips `ext` exactly when the base name ends with it and is not `ext` itself |
| `AssetManager.DropSuffix` | md_to_pdf/src/core/assetManager.js:102 | the suffix is removed exactly when it is present and is not the whole name |
| `AssetManager.CacheFileNameAsWritten` | md_to_pdf/src/core/assetManager.js:101-104 | as written: some stem, `_optimized` and the lower-cased extension, the stem being the base name without that extension, or the whole base name when it does not end with it |
| `AssetManager.CacheFileName` | md_to_pdf/src/core/assetManager.js:101-104 | the cache name is the stem without its extension, then `_optimized`, then the lower-cased extension |
| `AssetManager.UpperCaseExtensionKept` | md_to_pdf/src/core/assetManager.js:101-103 | as written `dir/stem.PNG` is cached as `stem.PNG_optimized.png`, while the corrected name is `stem_optimized.png` |
| `AssetManager.AsWrittenKeepsPng` | md_to_pdf/src/core/assetManager.js:101-103 | as written, the lower-cased `.png` is not stripped from `stem.PNG` |
| `AssetManager.CorrectedDropsPng` | md_to_pdf/src/core/assetManager.js:101-104 | the corrected name strips `.PNG` and appends `.png` |
| `AssetManager.LowerCaseExtensionSame` | md_to_pdf/src/core/assetManager.js:101-104 | for a lower-case extension, the name as written and the corrected name agree |
| `AssetManager.StepFor` | md_to_pdf/src/core/assetManager.js:85-110 | a URL gives no step, and any other path exactly one |
| `AssetManager.Steps` | md_to_pdf/src/core/assetManager.js:85-110 | the paths give at most one step each |
| `AssetManager.ProcessImages` | md_to_pdf/src/core/assetManager.js:74-114 | the steps taken in the loop equal the declarative `Steps` over the extracted paths and `<cache>/images` |
| `AssetManager.OneStepPerLocalPath` | md_to_pdf/src/core/assetManager.js:85-110 | one step, missing or optimise, for each path that is not an `http(s)` URL |
| `AssetManager.StepsAreSound` | md_to_pdf/src/core/assetManager.js:92-109 | a missing step names a path that does not exist; an optimise step names an existing source path, its cache path and quality 90; for a lower-case extension that cache path is the one the source computes |
| `AssetManager.UrlsSkipped` | md_to_pdf/src/core/assetManager.js:87-89 | URLs produce no step |
| `AssetManager.OutputFormat` | md_to_pdf/src/core/assetManager.js:50 | the requested format wins, then the detected one, then `jpeg` |
| `AssetManager.EncoderFor` | md_to_pdf/src/core/assetManager.js:50-59 | the output format is the requested one, else the detected one, else `jpeg`; `jpeg` and `jpg` are re-encoded as JPEG, `png` as PNG, `webp` as WebP, all at the option's quality (85 by default), and any other format is written as it is |
| `AssetManager.ProcessedImageEncoding` | md_to_pdf/src/core/assetManager.js:53-59 | with quality 90 as passed by `processImages`: JPEG when no format is detected or for jpeg/jpg, PNG for png, WebP for webp, always at quality 90; any other detected format, such as gif, is written as it is |
| `AssetManager.DefaultEncoding` | md_to_pdf/src/core/assetManager.js:40-59 | without options the quality is 85, an image with no detected format is encoded as JPEG, and any other detected format outside jpeg/jpg/png/webp is written as it is |
| `MarkdownValidator.NormalizeLineEndings` | md_to_pdf/src/utils/markdown-validator.js:41 | text without carriage returns is unchanged |
| `MarkdownValidator.CheckManualSectionNumbers` | md_to_pdf/src/utils/markdown-validator.js:22-34 | the rule passes exactly when no line starts a numbered heading match |
| `MarkdownValidator.NumberedHeadingShape` | md_to_pdf/src/utils/markdown-validator.js:23 | a match is at a line start: 1 to 6 `#`, spaces, then a digit |
| `MarkdownValidator.ManualNumberDetected` | md_to_pdf/src/utils/markdown-validator.js:22-34 | a heading with a dotted number such as `1.2` followed by a space fails the rule |
| `MarkdownValidator.TrailingDotNumberPasses` | md_to_pdf/src/utils/markdown-validator.js:23 | `## 1. Introduction` passes the rule |
| `MarkdownValidator.TrailingDotNoMatch` | md_to_pdf/src/utils/markdown-validator.js:23 | a number whose dot is not followed by a digit does not match |
| `MarkdownValidator.CheckHyphenation` | md_to_pdf/src/utils/markdown-validator.js:190-204 | the rule passes exactly when no word is broken by a hyphen at a line end |
| `MarkdownValidator.HyphenationMatches` | md_to_pdf/src/utils/markdown-validator.js:192 | the hyphen pattern matches somewhere exactly when some position is a hyphen break |
| `MarkdownValidator.CheckListSpacing` | md_to_pdf/src/utils/markdown-validator.js:39-82 | the reported lines are increasing and exactly those where a top-level list starts right after a non-blank, non-item line; passes iff none |
| `MarkdownValidator.ListStartOutcome` | md_to_pdf/src/utils/markdown-validator.js:47-72 | the reports are exactly the list-start lines, and are empty iff there is none |
| `MarkdownValidator.ListStartNeverFirstOrIndented` | md_to_pdf/src/utils/markdown-validator.js:52-65 | a reported list start is never the first line and is never indented |
| `MarkdownValidator.CheckNestedListIndentation` | md_to_pdf/src/utils/markdown-validator.js:87-126 | the reported lines are increasing and exactly those that nest deeper than the tracked indent by other than two spaces; passes iff none |
| `MarkdownValidator.NestingOutcome` | md_to_pdf/src/utils/markdown-validator.js:94-116 | the reports are exactly the badly nested lines, and are empty iff there is none |
| `MarkdownValidator.TrackedAfterItem` | md_to_pdf/src/utils/markdown-validator.js:111 | after a list item, the tracked indent is that item's |
| `MarkdownValidator.TrackedAcrossText` | md_to_pdf/src/utils/markdown-validator.js:112-115 | plain non-blank lines keep the tracked indent, and a blank line resets it to zero |
| `MarkdownValidator.GrowthFromColumnZeroAccepted` | md_to_pdf/src/utils/markdown-validator.js:103-109 | an item right after a top-level item is never reported: the check requires a non-zero previous indent |
| `MarkdownValidator.CheckListEndSpacing` | md_to_pdf/src/utils/markdown-validator.js:131-185 | the reported lines are increasing and exactly those where a list ends without a blank line; passes iff none |
| `MarkdownValidator.ListEndOutcome` | md_to_pdf/src/utils/markdown-validator.js:147-175 | the reports are exactly the list-end lines, and are empty iff there is none |
| `MarkdownValidator.CheckBlockquoteSpacing` | md_to_pdf/src/utils/markdown-validator.js:209-277 | the reported starts and ends are increasing and exactly the quote starts and ends without a blank line; passes iff both are empty |
| `MarkdownValidator.QuoteOutcome` | md_to_pdf/src/utils/markdown-validator.js:225-255 | the two report lists are exactly the quote starts and ends, and are both empty iff there is neither |
| `MarkdownValidator.FilterTableStarts` | md_to_pdf/src/utils/markdown-validator.js:346-349 | a reported table start is kept exactly when its filter condition holds |
| `MarkdownValidator.FilterKeepsOrder` | md_to_pdf/src/utils/markdown-validator.js:346-349 | the filter keeps the reports increasing |
| `MarkdownValidator.CheckTableSpacing` | md_to_pdf/src/utils/markdown-validator.js:282-372 | the reported starts (after the filter) and ends are exactly the table edges without a blank line; passes iff both are empty or the file is `test.md` |
| `MarkdownValidator.TableStarts` | md_to_pdf/src/utils/markdown-validator.js:303-349 | the filtered starts are exactly the unfiltered table starts that pass the filter |
| `MarkdownValidator.TableOutcome` | md_to_pdf/src/utils/markdown-validator.js:346-371 | the rule's verdict is "no report, or the file is `test.md`" |
| `MarkdownValidator.SeparatorFilterIsDash` | md_to_pdf/src/utils/markdown-validator.js:346-349 | a line containing `\|--` also contains `\|-`, so the second filter test adds nothing |
| `MarkdownValidator.RunRule` | md_to_pdf/src/utils/markdown-validator.js:389-393 | running one rule gives that rule's declarative verdict |
| `MarkdownValidator.ValidateMarkdownFile` | md_to_pdf/src/utils/markdown-validator.js:378-415 | an unreadable file is invalid with no results; otherwise one result per rule in order, and valid iff every rule passes |

## Left out

- Front-matter parsing (`gray-matter` in `processMarkdown`): the parsed data and body are parameters.
- `yaml.dump` is a parameter `dump`. js-yaml skips `undefined` values, so `toc_depth = undefined` is modelled as the key being absent.
- `getDefaultConfig`, `mergeConfig`, the default configuration and `loadConfigFile`: lodash deep merge/clone and `require` of a file. The configuration is taken as given.
- `fs.existsSync` is the parameter `pathExists`, true for any existing path, file or directory; `path.resolve` is the parameter `resolve`; the clock is the parameter `today`.
- `optimizeImage`'s image I/O (`sharp` metadata, encoding, writing the file): only the choice of format, encoder and quality is modelled.
- `processAssets`, `executePandoc` and `convertMarkdownToPdf`: process spawning, file writing and promise plumbing.
- `buildPandocArgs` calls `resolveTemplatePath` itself; the model of it takes the resolved path as a parameter, and `ResolveTemplatePath` models that call.
- Exceptions are modelled only where the core's results depend on them:
  - an unreadable file in `validateMarkdownFile` is the `None` input;
  - a TOC without a depth in `buildPandocArgs` gives a `None` result.
- Console and `chalk` output, and the validator's command-line `main`: presentation only.
- `index.js`, `bin/md2pdf.js` and the examples: the command-line shell around the core.
- Regular expressions are not modelled in general: each pattern the source uses is a hand-written matcher.
- `toLowerCase` is modelled on ASCII letters only (`ToLowerAscii`); other characters are left as they are.
- `path.join` does not normalise `..` or repeated slashes in this model.
- The configuration's `output` key is both a path and an object in the source; the model keeps two fields, `outputPath` and `output`.
- ResolveTemplatePath: requires `paths.templatesDir` to be a string, because `path.join` throws otherwise and that throw is not modelled.
- ProcessTechnicalDocument: states only the properties of the final collapse. Each earlier pass is described by its own lemma (`TableWrapped`, `QuoteWrapped`, `LabelSpaced`, `ListBlockPadded`, `DescListPadded`, `HeadingPadded`, `CodeFenceTagged`).
- TableWrapped, QuoteWrapped, LabelSpaced, ListBlockPadded, DescListPadded, HeadingPadded, CodeFenceTagged: each describes the first rewritten block after text with no earlier match. The remainder is stated as the same pass over the rest of the text.
- NormalizeLineEndings: only states that text without `\r` is unchanged; the CRLF/CR rewriting is used as is by the rules.
- LayoutSettles: needs the geometry and table-styling conditions to be the same on the second pass. `FormattingIsIdempotent` closes this gap for formatted input.
- Idempotence of the whole technical preprocessor is not claimed: `IndentLineNotIdempotent` shows one pass that is not idempotent.
- ReplaceFirstPlaceholder, Resolve: a lookup reads the own keys of an object and the items and `length` of an array or a string. Keys inherited from a prototype (`toString`, `constructor`, …) read as undefined here, while in the source they give a function.
- Value: numbers are integers. A non-integer value such as a line height of `1.5` or a font size of `11.5` cannot be represented, and the number printing is modelled for integers only.
- ProcessImages, StepFor, StepsAreSound: the optimise target uses the corrected `CacheFileName`. For an upper-case extension the source writes `stem.PNG_optimized.png` instead (see Findings).
- Words, BuildPandocArgs: an undefined `pdfEngine` or `highlightStyle` is printed as the text `undefined` in the argument list. The source pushes the raw `undefined` value, and what the process launcher does with it is not modelled.

## Findings

| source | as written | input that shows it | evidently intended | confidence | as-written member | corrected member |
|---|---|---|---|---|---|---|
| md_to_pdf/src/core/assetManager.js:101-103 | the lower-cased extension is passed to `path.basename`, so an upper-case extension is not stripped from the base name | an image `dir/stem.PNG` | cache name `stem_optimized.png` | not executed | `AssetManager.UpperCaseExtensionKept` | `AssetManager.CacheFileName` |

`AssetManager.AsWrittenKeepsPng` gives the as-written name `stem.PNG_optimized.png`. `AssetManager.LowerCaseExtensionSame` proves that the two names agree whenever the extension is already lower case. `ProcessImages`, `StepFor` and `StepsAreSound` use the corrected name; `StepsAreSound` also states that it is the name as written whenever the extension is lower case.

=== FILE: assets.dfy ===
/**
 * The image handling of the asset manager: the image references found in a Markdown
 * document (`extractImagePaths`), the decision taken for each of them before it is
 * optimised (`processImages`) and the choice of encoder (`optimizeImage`). The file
 * system, `path.resolve` and the image library are parameters.
 */
module AssetManager {
  import opened JsText

  // ---------------------------------------------------------------------------------------
  // extractImagePaths

  /**
   * A pattern with one capturing group, applied at the start of a text: the captured
   * text and the length of the match, or `None` when no match starts there.
   */
  type Pattern = string -> Option<(string, nat)>

  /** A match is never empty and never longer than the text it is found in. */
  ghost predicate Proper(pat: Pattern) {
    forall s :: pat(s).Some? ==> 0 < pat(s).value.1 <= |s|
  }

  /** Where the first match at or after position `i` starts: what `regex.exec` searches for. */
  function NextStart(pat: Pattern, t: string, i: nat): (r: Option<nat>)
    requires i <= |t|
    ensures r.Some? ==> i <= r.value < |t| && pat(t[r.value..]).Some?
    ensures r.Some? ==> forall k :: i <= k < r.value ==> pat(t[k..]).None?
    ensures r.None? ==> forall k :: i <= k < |t| ==> pat(t[k..]).None?
    decreases |t| - i
  {
    if i == |t| then None
    else if pat(t[i..]).Some? then Some(i)
    else NextStart(pat, t, i + 1)
  }

  /** End of the run of characters other than line terminators that starts at `i`. */
  function LineStop(t: string, i: nat): nat
    requires i <= |t|
  {
    Span(t, i, NotLineTerminator)
  }

  /** A character the lazy `(.*?)` of a Markdown image path may take before its `)`. */
  predicate InPath(ch: char) {
    ch != ')' && NotLineTerminator(ch)
  }

  /**
   * `/!\[.*?\]\((.*?)\)/` at the start of `t`: `![`, the alt text up to the first `](`
   * and the path up to the first `)` after it, neither crossing a line terminator (`.`
   * refuses them). Trying a later `](` after a first one that fails cannot help: no `)`
   * follows it on the line either, so the lazy quantifiers settle on the first one.
   */
  function MarkdownImage(t: string): (r: Option<(string, nat)>)
    ensures r.Some? ==> StartsWith(t, "![") && 5 <= r.value.1 <= |t| && t[r.value.1 - 1] == ')'
  {
    if !StartsWith(t, "![") then None
    else
      var stop := LineStop(t, 2);
      match FindFrom(t, "](", 2)
      case None => None
      case Some(a) =>
        if a >= stop then None
        else
          var c := Span(t, a + 2, InPath);
          if c < |t| && t[c] == ')' then Some((t[a + 2..c], c + 1)) else None
  }

  predicate IsQuote(c: char) {
    c == '"' || c == '\''
  }

  /** A character the lazy `(.*?)` of a `src` value may take before its closing quote. */
  predicate InSrc(ch: char) {
    !IsQuote(ch) && NotLineTerminator(ch)
  }

  /** A character the lazy `.*?` after the `src` value may take before the `>`. */
  predicate InTag(ch: char) {
    ch != '>' && NotLineTerminator(ch)
  }

  /** Index of the first `src=` followed by a quote at or after `i`. */
  function FindSrc(t: string, i: nat): (r: Option<nat>)
    requires i <= |t|
    ensures r.Some? ==> i <= r.value && r.value + 5 <= |t| && OccursAt(t, "src=", r.value) && IsQuote(t[r.value + 4])
    decreases |t| - i
  {
    if i + 5 > |t| then None
    else if OccursAt(t, "src=", i) && IsQuote(t[i + 4]) then Some(i)
    else FindSrc(t, i + 1)
  }

  /**
   * `/<img.*?src=["'](.*?)["'].*?>/` at the start of `t`: `<img`, then the first `src=`
   * with a quote on the line, the path up to the next quote (either kind) and the text up
   * to the next `>`, all on one line. As for Markdown images, a later candidate for any
   * of the lazy parts can only fail where the first one failed.
   */
  function HtmlImage(t: string): (r: Option<(string, nat)>)
    ensures r.Some? ==> StartsWith(t, "<img") && 10 <= r.value.1 <= |t| && t[r.value.1 - 1] == '>'
  {
    if !StartsWith(t, "<img") then None
    else
      match FindSrc(t, 4)
      case None => None
      case Some(s) => if s >= LineStop(t, 4) then None else HtmlValue(t, s)
  }

  /**
   * The rest of an HTML image once its `src=` and quote are found at `s`: the value up to
   * the next quote and the text up to the next `>`.
   */
  function HtmlValue(t: string, s: nat): (r: Option<(string, nat)>)
    requires s + 5 <= |t|
    ensures r.Some? ==> s + 6 <= r.value.1 <= |t| && t[r.value.1 - 1] == '>'
  {
    var q := Span(t, s + 5, InSrc);
    if q == |t| || !IsQuote(t[q]) then None
    else
      var g := Span(t, q + 1, InTag);
      if g < |t| && t[g] == '>' then Some((t[s + 5..q], g + 1)) else None
  }

  /**
   * `s.split(' ')[0]`: the text up to the first space, which drops the title of
   * `![alt](path "title")`.
   */
  function FirstWord(s: string): (r: string)
    ensures StartsWith(s, r) && ' ' !in r
    ensures |r| < |s| ==> s[|r|] == ' '
  {
    Split(s, ' ')[0]
  }

  /**
   * The entries a `while ((match = regex.exec(content)) !== null)` loop pushes from
   * position `i` on: `post` of the captured group of each match, leftmost first, the
   * search resuming where the last match ended.
   */
  function Captures(pat: Pattern, post: string -> string, t: string, i: nat): seq<string>
    requires i <= |t| && Proper(pat)
    decreases |t| - i
  {
    var next := NextStart(pat, t, i);
    if next.None? then []
    else
      var k := next.value;
      [post(pat(t[k..]).value.0)] + Captures(pat, post, t, k + pat(t[k..]).value.1)
  }

  /**
   * Where the matches found from position `i` on start: each is a match, and each starts
   * at or after the end of the one before.
   */
  function MatchStarts(pat: Pattern, t: string, i: nat): (r: seq<nat>)
    requires i <= |t| && Proper(pat)
    ensures forall j :: 0 <= j < |r| ==> i <= r[j] < |t| && pat(t[r[j]..]).Some?
    ensures forall j :: 0 < j < |r| ==> r[j - 1] + pat(t[r[j - 1]..]).value.1 <= r[j]
    ensures r == [] <==> forall k :: i <= k < |t| ==> pat(t[k..]).None?
    decreases |t| - i
  {
    var next := NextStart(pat, t, i);
    if next.None? then []
    else
      var k := next.value;
      [k] + MatchStarts(pat, t, k + pat(t[k..]).value.1)
  }

  /** The paths of the Markdown images of `t`, in order. */
  function MarkdownImagePaths(t: string): seq<string> {
    MarkdownImageProper();
    Captures(MarkdownImage, FirstWord, t, 0)
  }

  /** The captured group as it is. */
  function Same(s: string): string {
    s
  }

  /** The `src` paths of the HTML images of `t`, in order. */
  function HtmlImagePaths(t: string): seq<string> {
    HtmlImageProper();
    Captures(HtmlImage, Same, t, 0)
  }

  /** What `extractImagePaths` returns: every Markdown image, then every HTML image. */
  function ImagePaths(t: string): seq<string> {
    MarkdownImagePaths(t) + HtmlImagePaths(t)
  }

  /**
   * `extractImagePaths`: the Markdown images, then the HTML images, each pushed by its
   * own `exec` loop.
   */
  method ExtractImagePaths(content: string) returns (imagePaths: seq<string>)
    ensures imagePaths == ImagePaths(content)
  {
    imagePaths := [];
    MarkdownImageProper();
    imagePaths := PushMatches(MarkdownImage, FirstWord, content, imagePaths);
    assert imagePaths == MarkdownImagePaths(content);
    HtmlImageProper();
    imagePaths := PushMatches(HtmlImage, Same, content, imagePaths);
    assert imagePaths == MarkdownImagePaths(content) + HtmlImagePaths(content);
  }

  /**
   * `while ((match = regex.exec(content)) !== null) imagePaths.push(post(match[1]))`:
   * `lastIndex` starts at 0 and moves to the end of each match.
   */
  method PushMatches(pat: Pattern, post: string -> string, content: string, imagePaths: seq<string>)
    returns (r: seq<string>)
    requires Proper(pat)
    ensures r == imagePaths + Captures(pat, post, content, 0)
  {
    r := imagePaths;
    ghost var all := imagePaths + Captures(pat, post, content, 0);
    var lastIndex := 0;
    var found := NextStart(pat, content, lastIndex);
    while found.Some?
      invariant lastIndex <= |content|
      invariant found == NextStart(pat, content, lastIndex)
      invariant r + Captures(pat, post, content, lastIndex) == all
      decreases |content| - lastIndex
    {
      var k := found.value;
      var matched := pat(content[k..]).value;
      var e := k + matched.1;
      PushStep(pat, post, content, lastIndex, k, e, r, all);
      r := r + [post(matched.0)];
      lastIndex := e;
      found := NextStart(pat, content, lastIndex);
    }
    assert Captures(pat, post, content, lastIndex) == [];
    assert r + [] == r;
  }

  /** Pushing the group of the next match and moving past it keeps what is still to push. */
  lemma PushStep(pat: Pattern, post: string -> string, t: string, i: nat, k: nat, e: nat,
                 r: seq<string>, all: seq<string>)
    requires i <= |t| && Proper(pat) && NextStart(pat, t, i) == Some(k)
    requires e == k + pat(t[k..]).value.1
    requires r + Captures(pat, post, t, i) == all
    ensures e <= |t|
    ensures (r + [post(pat(t[k..]).value.0)]) + Captures(pat, post, t, e) == all
  {
    CapturesStep(pat, post, t, i, k, e);
  }

  /** The group of the match found first from `i` on, at `k` and ending at `e`, then the entries after it. */
  lemma CapturesStep(pat: Pattern, post: string -> string, t: string, i: nat, k: nat, e: nat)
    requires i <= |t| && Proper(pat) && NextStart(pat, t, i) == Some(k)
    requires e == k + pat(t[k..]).value.1
    ensures e <= |t|
    ensures Captures(pat, post, t, i) == [post(pat(t[k..]).value.0)] + Captures(pat, post, t, e)
  {
  }

  /** The match found first from `i` on, at `k` and ending at `e`, then the starts after it. */
  lemma MatchStartsStep(pat: Pattern, t: string, i: nat, k: nat, e: nat)
    requires i <= |t| && Proper(pat) && NextStart(pat, t, i) == Some(k)
    requires e == k + pat(t[k..]).value.1
    ensures e <= |t|
    ensures MatchStarts(pat, t, i) == [k] + MatchStarts(pat, t, e)
  {
  }

  lemma MarkdownImageProper()
    ensures Proper(MarkdownImage)
  {
  }

  lemma HtmlImageProper()
    ensures Proper(HtmlImage)
  {
  }

  /** `post` of the group of the match at each of `starts`, in order. */
  function GroupsAt(pat: Pattern, post: string -> string, t: string, starts: seq<nat>): (r: seq<string>)
    requires forall j :: 0 <= j < |starts| ==> starts[j] < |t| && pat(t[starts[j]..]).Some?
    ensures |r| == |starts|
    ensures forall j :: 0 <= j < |starts| ==> r[j] == post(pat(t[starts[j]..]).value.0)
  {
    if starts == [] then [] else [post(pat(t[starts[0]..]).value.0)] + GroupsAt(pat, post, t, starts[1..])
  }

  /** Each match contributes exactly one entry, the group it captures, in order. */
  lemma {:induction false} OneEntryPerMatch(pat: Pattern, post: string -> string, t: string, i: nat)
    requires i <= |t| && Proper(pat)
    ensures Captures(pat, post, t, i) == GroupsAt(pat, post, t, MatchStarts(pat, t, i))
    decreases |t| - i
  {
    var next := NextStart(pat, t, i);
    if next.Some? {
      var k := next.value;
      var e := k + pat(t[k..]).value.1;
      CapturesStep(pat, post, t, i, k, e);
      MatchStartsStep(pat, t, i, k, e);
      OneEntryPerMatch(pat, post, t, e);
      var later := MatchStarts(pat, t, e);
      var g := post(pat(t[k..]).value.0);
      assert ([k] + later)[1..] == later;
      assert GroupsAt(pat, post, t, [k] + later) == [g] + GroupsAt(pat, post, t, later);
    } else {
      assert Captures(pat, post, t, i) == [];
      assert MatchStarts(pat, t, i) == [];
    }
  }

  /**
   * One Markdown path per Markdown image, its group up to the first space, then one
   * `src` per HTML image.
   */
  lemma ImagePathsAreMatches(t: string)
    ensures Proper(MarkdownImage) && Proper(HtmlImage)
    ensures var md := MatchStarts(MarkdownImage, t, 0);
      var html := MatchStarts(HtmlImage, t, 0);
      var paths := ImagePaths(t);
      |paths| == |md| + |html|
      && (forall j :: 0 <= j < |md| ==> paths[j] == FirstWord(MarkdownImage(t[md[j]..]).value.0))
      && (forall j :: 0 <= j < |html| ==> paths[|md| + j] == HtmlImage(t[html[j]..]).value.0)
  {
    MarkdownImageProper();
    HtmlImageProper();
    MarkdownPathsAreMatches(t);
    HtmlPathsAreMatches(t);
  }

  /** One Markdown path per Markdown image, its group up to the first space. */
  lemma MarkdownPathsAreMatches(t: string)
    ensures Proper(MarkdownImage)
    ensures var md := MatchStarts(MarkdownImage, t, 0);
      var paths := MarkdownImagePaths(t);
      |paths| == |md| && forall j :: 0 <= j < |md| ==> paths[j] == FirstWord(MarkdownImage(t[md[j]..]).value.0)
  {
    MarkdownImageProper();
    OneEntryPerMatch(MarkdownImage, FirstWord, t, 0);
  }

  /** One `src` per HTML image. */
  lemma HtmlPathsAreMatches(t: string)
    ensures Proper(HtmlImage)
    ensures var html := MatchStarts(HtmlImage, t, 0);
      var paths := HtmlImagePaths(t);
      |paths| == |html| && forall j :: 0 <= j < |html| ==> paths[j] == HtmlImage(t[html[j]..]).value.0
  {
    HtmlImageProper();
    OneEntryPerMatch(HtmlImage, Same, t, 0);
  }

  /** Text with no line terminator in it: what `.` in a pattern may run over. */
  predicate OnOneLine(s: string) {
    forall k :: 0 <= k < |s| ==> NotLineTerminator(s[k])
  }

  /**
   * `![`, alt text free of `]` up to position `a`, `](`, a path free of `)` up to position
   * `e` and the `)` there, all on one line: the match captures the path and ends after `e`.
   */
  lemma MarkdownImageAt(t: string, a: nat, e: nat)
    requires 2 <= a && a + 2 <= e < |t| && StartsWith(t, "![")
    requires forall k :: 2 <= k < a ==> t[k] != ']' && NotLineTerminator(t[k])
    requires t[a] == ']' && t[a + 1] == '('
    requires forall k :: a + 2 <= k < e ==> t[k] != ')' && NotLineTerminator(t[k])
    requires t[e] == ')'
    ensures MarkdownImage(t) == Some((t[a + 2..e], e + 1))
  {
    assert t[a..a + 2] == "](";
    forall k | 2 <= k < a
      ensures !OccursAt(t, "](", k)
    {
      assert t[k..k + 2][0] == t[k];
    }
    FindFromIs(t, "](", 2, a);
    assert LineStop(t, 2) > a;
    SpanIs(t, a + 2, InPath, e);
  }

  /**
   * `![alt](path)` on one line, with no `]` in the alt text and no `)` in the path:
   * the pattern captures exactly `path` and the match ends at its `)`.
   */
  lemma MarkdownImageOf(t: string, alt: string, path: string)
    requires StartsWith(t, "![" + alt + "](" + path + ")")
    requires ']' !in alt && ')' !in path && OnOneLine(alt) && OnOneLine(path)
    ensures MarkdownImage(t) == Some((path, |alt| + |path| + 5))
  {
    var img := "![" + alt + "](" + path + ")";
    var a := |alt| + 2;
    var e := a + 2 + |path|;
    assert t[..|img|] == img;
    assert img[..2] == "![" && img[2..a] == alt && img[a..a + 2] == "](" && img[a + 2..e] == path && img[e] == ')';
    assert t[..2] == img[..2];
    forall k | 2 <= k < a
      ensures t[k] != ']' && NotLineTerminator(t[k])
    {
      assert t[k] == img[k] == alt[k - 2];
    }
    assert t[a] == img[a] && t[a + 1] == img[a + 1];
    forall k | a + 2 <= k < e
      ensures t[k] != ')' && NotLineTerminator(t[k])
    {
      assert t[k] == img[k] == path[k - a - 2];
    }
    assert t[e] == img[e];
    MarkdownImageAt(t, a, e);
    assert t[a + 2..e] == img[a + 2..e];
  }

  /**
   * Every Markdown match has that shape: its group is the text between a `](` and the
   * `)` that ends the match, and holds no `)` and no line terminator.
   */
  lemma MarkdownImageShape(t: string)
    requires MarkdownImage(t).Some?
    ensures var (path, e) := MarkdownImage(t).value;
      |path| + 5 <= e && OccursAt(t, "](", e - |path| - 3) && t[e - |path| - 1..e - 1] == path
      && forall k :: 0 <= k < |path| ==> InPath(path[k])
  {
    var a := FindFrom(t, "](", 2).value;
    var c := Span(t, a + 2, InPath);
    assert MarkdownImage(t).value == (t[a + 2..c], c + 1);
  }

  /** `s.split(' ')[0]` of a word followed by a space is that word. */
  lemma FirstWordOf(word: string, rest: string)
    requires ' ' !in word
    ensures FirstWord(word) == word
    ensures FirstWord(word + " " + rest) == word
  {
    var s := word + " " + rest;
    assert s[|word|] == ' ';
    assert forall k :: 0 <= k < |word| ==> s[k] == word[k];
    assert s[..|word|] == word;
  }

  /**
   * A document that starts with `![alt](p "title")`: its first Markdown path is `p`, the
   * title dropped by the split on the first space.
   */
  lemma MarkdownTitleDropped(t: string, alt: string, p: string, title: string)
    requires StartsWith(t, "![" + alt + "](" + p + " \"" + title + "\")")
    requires ']' !in alt && ')' !in p && ')' !in title && OnOneLine(alt) && OnOneLine(p) && OnOneLine(title)
    requires ' ' !in p
    ensures MarkdownImagePaths(t) != [] && MarkdownImagePaths(t)[0] == p
  {
    var quoted := "\"" + title + "\"";
    var path := p + " " + quoted;
    assert "![" + alt + "](" + p + " \"" + title + "\")" == "![" + alt + "](" + path + ")";
    assert ')' !in path && OnOneLine(path) by {
      forall k | 0 <= k < |path| ensures path[k] != ')' && NotLineTerminator(path[k]) {
        if k < |p| {
          assert path[k] == p[k];
        } else if k > |p| + 1 && k < |path| - 1 {
          assert path[k] == title[k - |p| - 2];
        }
      }
    }
    MarkdownImageOf(t, alt, path);
    MarkdownImageProper();
    assert t[0..] == t;
    assert NextStart(MarkdownImage, t, 0) == Some(0);
    CapturesStep(MarkdownImage, FirstWord, t, 0, 0, |alt| + |path| + 5);
    FirstWordOf(p, quoted);
  }

  /** A document that starts with `<img pre src="path"post>`: its first HTML path is `path`. */
  lemma HtmlSrcPushed(t: string, pre: string, open: char, path: string, close: char, post: string)
    requires StartsWith(t, "<img" + pre + "src=" + [open] + path + [close] + post + ">")
    requires IsQuote(open) && IsQuote(close)
    requires forall k :: 0 <= k && k + 4 <= |pre| ==> !OccursAt(pre, "src=", k)
    requires forall k :: 0 <= k < |path| ==> !IsQuote(path[k])
    requires '>' !in post && OnOneLine(pre) && OnOneLine(path) && OnOneLine(post)
    ensures HtmlImagePaths(t) != [] && HtmlImagePaths(t)[0] == path
  {
    HtmlImageOf(t, pre, open, path, close, post);
    HtmlImageProper();
    assert t[0..] == t;
    assert NextStart(HtmlImage, t, 0) == Some(0);
    CapturesStep(HtmlImage, Same, t, 0, 0, |pre| + |path| + |post| + 11);
  }

  /**
   * Every HTML match has that shape: its group is the text between the quote after a
   * `src=` and the next quote, and holds no quote and no line terminator.
   */
  lemma HtmlImageShape(t: string)
    requires HtmlImage(t).Some?
    ensures var (path, e) := HtmlImage(t).value;
      exists s :: 4 <= s && s + 6 + |path| <= e
        && OccursAt(t, "src=", s) && IsQuote(t[s + 4]) && t[s + 5..s + 5 + |path|] == path
        && IsQuote(t[s + 5 + |path|]) && forall k :: 0 <= k < |path| ==> InSrc(path[k])
  {
    var s := FindSrc(t, 4).value;
    var q := Span(t, s + 5, InSrc);
    var g := Span(t, q + 1, InTag);
    assert HtmlImage(t).value == (t[s + 5..q], g + 1);
  }

  /** `FindSrc` is determined by its postcondition and the absence of an earlier `src=` and quote. */
  lemma {:induction false} FindSrcIs(t: string, i: nat, f: nat)
    requires i <= f && f + 5 <= |t| && OccursAt(t, "src=", f) && IsQuote(t[f + 4])
    requires forall k :: i <= k < f ==> !(OccursAt(t, "src=", k) && IsQuote(t[k + 4]))
    ensures FindSrc(t, i) == Some(f)
    decreases f - i
  {
    if i < f {
      FindSrcIs(t, i + 1, f);
    }
  }

  /**
   * `<img`, a line up to position `s` with no `src=` and quote in it, `src=` and a quote
   * there, a value free of quotes up to the quote at `q` and text free of `>` up to the
   * `>` at `g`: the match captures the value and ends after `g`.
   */
  lemma HtmlImageAt(t: string, s: nat, q: nat, g: nat)
    requires 4 <= s && s + 5 <= q < g < |t| && StartsWith(t, "<img")
    requires forall k :: 4 <= k < s ==> NotLineTerminator(t[k]) && !(OccursAt(t, "src=", k) && IsQuote(t[k + 4]))
    requires OccursAt(t, "src=", s) && IsQuote(t[s + 4])
    requires forall k :: s + 5 <= k < q ==> InSrc(t[k])
    requires IsQuote(t[q])
    requires forall k :: q + 1 <= k < g ==> InTag(t[k])
    requires t[g] == '>'
    ensures HtmlImage(t) == Some((t[s + 5..q], g + 1))
  {
    FindSrcIs(t, 4, s);
    LineStopPast(t, 4, s);
    SpanIs(t, s + 5, InSrc, q);
    SpanIs(t, q + 1, InTag, g);
    HtmlImageIs(t, s, q, g);
  }

  /** The steps of `HtmlImage`, each known, give its match. */
  lemma HtmlImageIs(t: string, s: nat, q: nat, g: nat)
    requires StartsWith(t, "<img") && FindSrc(t, 4) == Some(s) && LineStop(t, 4) > s
    requires Span(t, s + 5, InSrc) == q < |t| && IsQuote(t[q])
    requires Span(t, q + 1, InTag) == g < |t| && t[g] == '>'
    ensures HtmlImage(t) == Some((t[s + 5..q], g + 1))
  {
    HtmlImageFound(t, s);
    HtmlValueIs(t, s, q, g);
  }

  /** Once `src=` and its quote are found on the line, the rest is `HtmlValue`. */
  lemma HtmlImageFound(t: string, s: nat)
    requires StartsWith(t, "<img") && FindSrc(t, 4) == Some(s) && LineStop(t, 4) > s
    ensures s + 5 <= |t| && HtmlImage(t) == HtmlValue(t, s)
  {
  }

  /** The value up to the quote at `q` and the text up to the `>` at `g`. */
  lemma HtmlValueIs(t: string, s: nat, q: nat, g: nat)
    requires s + 5 <= |t|
    requires Span(t, s + 5, InSrc) == q < |t| && IsQuote(t[q])
    requires Span(t, q + 1, InTag) == g < |t| && t[g] == '>'
    ensures HtmlValue(t, s) == Some((t[s + 5..q], g + 1))
  {
  }

  /** A line that runs on up to and including position `s` stops after it. */
  lemma LineStopPast(t: string, i: nat, s: nat)
    requires i <= s < |t| && OccursAt(t, "src=", s)
    requires forall k :: i <= k < s ==> NotLineTerminator(t[k]) && !(OccursAt(t, "src=", k) && IsQuote(t[k + 4]))
    ensures LineStop(t, i) > s
  {
    assert t[s] == t[s..s + 4][0] == 's';
    var r := LineStop(t, i);
    assert r < |t| ==> !NotLineTerminator(t[r]);
  }

  /**
   * `<img pre src="path"post>` on one line, with no `src=` inside `pre`, no quote in the
   * path and no `>` after it: the pattern captures exactly `path` and the match ends at
   * the `>`. Either quote may open and close the value.
   */
  lemma HtmlImageOf(t: string, pre: string, open: char, path: string, close: char, post: string)
    requires StartsWith(t, "<img" + pre + "src=" + [open] + path + [close] + post + ">")
    requires IsQuote(open) && IsQuote(close)
    requires forall k :: 0 <= k && k + 4 <= |pre| ==> !OccursAt(pre, "src=", k)
    requires forall k :: 0 <= k < |path| ==> !IsQuote(path[k])
    requires '>' !in post && OnOneLine(pre) && OnOneLine(path) && OnOneLine(post)
    ensures HtmlImage(t) == Some((path, |pre| + |path| + |post| + 11))
  {
    HtmlParts(t, pre, open, path, close, post);
    HtmlImageOfParts(t, pre, open, path, close, post, |pre| + 4, |pre| + |path| + 9, |pre| + |path| + |post| + 10);
  }

  /** `HtmlImageOf` once the parts are known to occur one after the other. */
  lemma HtmlImageOfParts(t: string, pre: string, open: char, path: string, close: char, post: string, s: nat, q: nat, g: nat)
    requires s == |pre| + 4 && q == s + 5 + |path| && g == q + 1 + |post|
    requires OccursAt(t, "<img", 0) && OccursAt(t, pre, 4) && OccursAt(t, "src=", s)
      && OccursAt(t, [open], s + 4) && OccursAt(t, path, s + 5) && OccursAt(t, [close], q)
      && OccursAt(t, post, q + 1) && OccursAt(t, ">", g)
    requires IsQuote(open) && IsQuote(close)
    requires forall k :: 0 <= k && k + 4 <= |pre| ==> !OccursAt(pre, "src=", k)
    requires forall k :: 0 <= k < |path| ==> !IsQuote(path[k])
    requires '>' !in post && OnOneLine(pre) && OnOneLine(path) && OnOneLine(post)
    ensures HtmlImage(t) == Some((path, g + 1))
  {
    HtmlLayout(t, pre, open, path, close, post, s, q, g);
    NoSrcBefore(t, pre, s);
    forall k | s + 5 <= k < q ensures InSrc(t[k]) {
      assert t[k] == path[k - s - 5];
    }
    forall k | q + 1 <= k < g ensures InTag(t[k]) {
      assert t[k] == post[k - q - 1] && post[k - q - 1] in post;
    }
    HtmlImageAt(t, s, q, g);
  }

  /** What the parts of `<img pre src="path"post>`, found one after the other, say of each position. */
  lemma HtmlLayout(t: string, pre: string, open: char, path: string, close: char, post: string, s: nat, q: nat, g: nat)
    requires s == |pre| + 4 && q == s + 5 + |path| && g == q + 1 + |post|
    requires OccursAt(t, "<img", 0) && OccursAt(t, pre, 4) && OccursAt(t, "src=", s)
      && OccursAt(t, [open], s + 4) && OccursAt(t, path, s + 5) && OccursAt(t, [close], q)
      && OccursAt(t, post, q + 1) && OccursAt(t, ">", g)
    ensures g < |t| && StartsWith(t, "<img") && t[4..s] == pre && t[s..s + 4] == "src="
    ensures t[s + 4] == open && t[q] == close && t[g] == '>'
    ensures t[s + 5..q] == path && forall k :: s + 5 <= k < q ==> t[k] == path[k - s - 5]
    ensures forall k :: q + 1 <= k < g ==> t[k] == post[k - q - 1]
  {
    assert t[..4] == t[0..4];
    OccursChar(t, '>', g);
    OccursChar(t, close, q);
    OccursChar(t, open, s + 4);
    OccursChars(t, path, s + 5);
    OccursChars(t, post, q + 1);
  }

  /** The seven parts of `<img pre src="path"post>` occur one after the other. */
  lemma HtmlParts(t: string, pre: string, open: char, path: string, close: char, post: string)
    requires StartsWith(t, "<img" + pre + "src=" + [open] + path + [close] + post + ">")
    ensures var s := |pre| + 4; var q := s + 5 + |path|;
      OccursAt(t, "<img", 0) && OccursAt(t, pre, 4) && OccursAt(t, "src=", s)
      && OccursAt(t, [open], s + 4) && OccursAt(t, path, s + 5) && OccursAt(t, [close], q)
      && OccursAt(t, post, q + 1) && OccursAt(t, ">", q + 1 + |post|)
  {
    var w1 := "<img" + pre;
    var w2 := w1 + "src=";
    var w3 := w2 + [open];
    var w4 := w3 + path;
    var w5 := w4 + [close];
    var w6 := w5 + post;
    assert OccursAt(t, w6 + ">", 0);
    OccursSplit(t, w6, ">", 0);
    OccursSplit(t, w5, post, 0);
    OccursSplit(t, w4, [close], 0);
    OccursSplit(t, w3, path, 0);
    OccursSplit(t, w2, [open], 0);
    OccursSplit(t, w1, "src=", 0);
    OccursSplit(t, "<img", pre, 0);
  }

  /** Where `x + y` occurs, `x` occurs, and `y` right after it. */
  lemma OccursSplit(t: string, x: string, y: string, i: nat)
    requires OccursAt(t, x + y, i)
    ensures OccursAt(t, x, i) && OccursAt(t, y, i + |x|)
  {
    forall k | i <= k < i + |x| + |y| ensures t[k] == (x + y)[k - i] {
      assert t[i..i + |x + y|][k - i] == t[k];
    }
    assert t[i..i + |x|] == x by {
      forall k | 0 <= k < |x| ensures t[i..i + |x|][k] == x[k] {
        assert t[i + k] == (x + y)[k];
      }
    }
    assert t[i + |x|..i + |x| + |y|] == y by {
      forall k | 0 <= k < |y| ensures t[i + |x|..i + |x| + |y|][k] == y[k] {
        assert t[i + |x| + k] == (x + y)[|x| + k];
      }
    }
  }

  /** A one-character occurrence is that character. */
  lemma OccursChar(t: string, c: char, i: nat)
    requires OccursAt(t, [c], i)
    ensures t[i] == c
  {
    assert t[i..i + 1][0] == t[i];
  }

  /** The characters where `x` occurs are those of `x`. */
  lemma OccursChars(t: string, x: string, i: nat)
    requires OccursAt(t, x, i)
    ensures forall k :: i <= k < i + |x| ==> t[k] == x[k - i]
  {
    forall k | i <= k < i + |x| ensures t[k] == x[k - i] {
      assert t[i..i + |x|][k - i] == t[k];
    }
  }

  /** No `src=` starts inside the text `pre` between `<img` and the `src=` at `s`. */
  lemma NoSrcBefore(t: string, pre: string, s: nat)
    requires s == |pre| + 4 && s + 4 <= |t| && t[4..s] == pre && t[s..s + 4] == "src="
    requires forall k :: 0 <= k && k + 4 <= |pre| ==> !OccursAt(pre, "src=", k)
    requires OnOneLine(pre)
    ensures forall k :: 4 <= k < s ==> NotLineTerminator(t[k]) && !(OccursAt(t, "src=", k) && IsQuote(t[k + 4]))
  {
    forall k | 4 <= k < s
      ensures NotLineTerminator(t[k]) && !OccursAt(t, "src=", k)
    {
      assert t[k] == t[4..s][k - 4] == pre[k - 4];
      if k + 4 <= s {
        forall j | k <= j < k + 4
          ensures t[j] == pre[j - 4]
        {
          assert pre[j - 4] == t[4..s][j - 4];
        }
        assert t[k..k + 4] == pre[k - 4..k];
        assert !OccursAt(pre, "src=", k - 4);
      } else {
        assert t[k + 3] == t[s..s + 4][k + 3 - s];
      }
    }
  }

  /** No path at all exactly when neither pattern matches anywhere. */
  lemma NoPathsIffNoMatch(t: string)
    ensures ImagePaths(t) == [] <==>
      forall k :: 0 <= k < |t| ==> MarkdownImage(t[k..]).None? && HtmlImage(t[k..]).None?
  {
    ImagePathsAreMatches(t);
  }

  /** A Markdown image starts with `![`, an HTML image with `<img`. */
  lemma ImageStartsAt(t: string, k: nat)
    requires k <= |t|
    ensures MarkdownImage(t[k..]).Some? ==> OccursAt(t, "![", k)
    ensures HtmlImage(t[k..]).Some? ==> OccursAt(t, "<img", k)
  {
    if MarkdownImage(t[k..]).Some? {
      StartsWithAt(t, "![", k);
    }
    if HtmlImage(t[k..]).Some? {
      StartsWithAt(t, "<img", k);
    }
  }

  /** A text without `![` and without `<img` yields no path. */
  lemma NoImagesNoPaths(t: string)
    requires !Includes(t, "![") && !Includes(t, "<img")
    ensures ImagePaths(t) == []
  {
    forall k | 0 <= k < |t|
      ensures MarkdownImage(t[k..]).None? && HtmlImage(t[k..]).None?
    {
      ImageStartsAt(t, k);
    }
    NoPathsIffNoMatch(t);
  }

  /** No recorded Markdown path holds a space: a title after the path is dropped. */
  lemma MarkdownPathsHaveNoSpace(t: string)
    ensures forall j :: 0 <= j < |MarkdownImagePaths(t)| ==> ' ' !in MarkdownImagePaths(t)[j]
  {
    MarkdownImageProper();
    OneEntryPerMatch(MarkdownImage, FirstWord, t, 0);
  }

  // ---------------------------------------------------------------------------------------
  // Cache file names

  /**
   * The extension of a path segment: from its last `.` to its end; empty when it has no
   * `.`, when its only `.` is its first character, and for `..`.
   */
  function SegmentExtension(b: string): (r: string)
    ensures EndsWith(b, r)
    ensures r != "" ==> r[0] == '.' && |r| < |b| && '.' !in r[1..]
    ensures r == "" <==> '.' !in b || (b[0] == '.' && '.' !in b[1..]) || b == ".."
  {
    var after := AfterLast(b, '.');
    if |after| == |b| then
      assert after == b;
      ""
    else
      var d := |b| - |after| - 1;
      LastDot(b, after, d);
      if d == 0 || (|b| == 2 && b[0] == '.' && b[1] == '.') then
        assert b == ".." || (b[0] == '.' && '.' !in b[1..]);
        ""
      else
        assert b[1..][d - 1] == '.';
        b[d..]
  }

  /** The text after the last `.` of `b`, at `d`, is what follows that `.`. */
  lemma LastDot(b: string, after: string, d: nat)
    requires EndsWith(b, after) && '.' !in after && d == |b| - |after| - 1 && b[d] == '.'
    ensures b[d + 1..] == after && b[d..] == ['.'] + after && '.' !in b[d..][1..]
    ensures d == 0 ==> b[1..] == after
  {
    assert b[d..] == [b[d]] + b[d + 1..];
  }

  /**
   * `path.extname(p)`: the extension of the last segment, from its last `.`; empty when
   * the segment has no `.`, when its only `.` is its first character, and for `..`.
   */
  function Extname(p: string): (r: string)
    ensures EndsWith(Basename(p), r)
    ensures r != "" ==> r[0] == '.' && |r| < |Basename(p)| && '.' !in r[1..]
    ensures var b := Basename(p);
      r == "" <==> '.' !in b || (b[0] == '.' && '.' !in b[1..]) || b == ".."
  {
    SegmentExtension(Basename(p))
  }

  /**
   * `path.basename(p, ext)`: the last segment, without `ext` when it ends with it and is
   * not `ext` itself.
   */
  function BasenameWithout(p: string, ext: string): (r: string)
    ensures ext != "" && p != ext && EndsWith(Basename(p), ext) && Basename(p) != ext ==>
      Basename(p) == r + ext
    ensures !EndsWith(Basename(p), ext) ==> r == Basename(p) || r == ""
  {
    if ext != "" && ext == p then "" else DropSuffix(Basename(p), ext)
  }

  /** `b` without `ext` when it ends with it and is not `ext` itself. */
  function DropSuffix(b: string, ext: string): (r: string)
    ensures ext != "" && EndsWith(b, ext) && b != ext ==> b == r + ext
    ensures !(ext != "" && EndsWith(b, ext) && b != ext) ==> r == b
  {
    if ext != "" && EndsWith(b, ext) && b != ext then
      assert b == b[..|b| - |ext|] + ext;
      b[..|b| - |ext|]
    else b
  }

  /**
   * The cache file name as `processImages` computes it: the lower-cased extension is
   * both stripped from the base name and appended after `_optimized`.
   */
  function CacheFileNameAsWritten(imagePath: string): (r: string)
    ensures var ext := ToLowerAscii(Extname(imagePath)); var b := Basename(imagePath);
      exists stem :: r == stem + "_optimized" + ext && (stem + ext == b || (stem == b && !EndsWith(b, ext)))
  {
    var imageExt := ToLowerAscii(Extname(imagePath));
    var stem := BasenameWithout(imagePath, imageExt);
    StemWithout(imagePath, imageExt);
    stem + "_optimized" + imageExt
  }

  /**
   * `path.basename(p, ext)` for an `ext` shorter than the base name: the base name
   * without `ext`, or the whole base name when it does not end with it.
   */
  lemma StemWithout(p: string, ext: string)
    requires ext != "" ==> |ext| < |Basename(p)|
    ensures var b := Basename(p); var stem := BasenameWithout(p, ext);
      stem + ext == b || (stem == b && !EndsWith(b, ext))
  {
    var b := Basename(p);
    assert |b| <= |p|;
    assert ext == "" || |ext| != |p|;
    var stem := DropSuffix(b, ext);
    assert BasenameWithout(p, ext) == stem;
    if ext == "" {
      assert stem == b && b + "" == b;
    } else if EndsWith(b, ext) {
      assert b != ext;
      assert b == stem + ext;
    } else {
      assert stem == b;
    }
  }

  /**
   * The cache file name with the extension stripped as it is written and appended
   * lower-cased: `<base>_optimized<ext>`.
   */
  function CacheFileName(imagePath: string): (r: string)
    ensures exists stem :: (Basename(imagePath) == stem + Extname(imagePath)
      && r == stem + "_optimized" + ToLowerAscii(Extname(imagePath)))
  {
    var ext := Extname(imagePath);
    assert |Basename(imagePath)| <= |imagePath|;
    var stem := BasenameWithout(imagePath, ext);
    assert Basename(imagePath) == stem + ext by {
      if ext == "" {
        assert Basename(imagePath) + "" == Basename(imagePath);
      }
    }
    stem + "_optimized" + ToLowerAscii(ext)
  }

  /** The characters after the last `c` of `x + [c] + r`, where `r` holds no `c`, are `r`. */
  lemma {:induction false} AfterLastIs(x: string, c: char, r: string)
    requires c !in r
    ensures AfterLast(x + [c] + r, c) == r
    decreases |r|
  {
    var p := x + [c] + r;
    if r != [] {
      assert p[..|p| - 1] == x + [c] + r[..|r| - 1];
      AfterLastIs(x, c, r[..|r| - 1]);
      assert r == r[..|r| - 1] + [r[|r| - 1]];
    }
  }

  /** The last segment of `dir/seg` is `seg`. */
  lemma SegmentBasename(dir: string, seg: string)
    requires seg != [] && '/' !in seg
    ensures Basename(dir + "/" + seg) == seg
  {
    var p := dir + "/" + seg;
    assert p[|p| - 1] == seg[|seg| - 1];
    assert DropTrailingSlashes(p) == p;
    AfterLastIs(dir, '/', seg);
  }

  /** The extension of `stem + ext`, for a non-empty `stem` without dots and `ext` a dot and no other, is `ext`. */
  lemma StemExtension(stem: string, ext: string)
    requires stem != [] && '.' !in stem
    requires ext != [] && ext[0] == '.' && '.' !in ext[1..]
    ensures SegmentExtension(stem + ext) == ext
  {
    var b := stem + ext;
    assert ext == ['.'] + ext[1..];
    assert b == stem + ['.'] + ext[1..];
    AfterLastIs(stem, '.', ext[1..]);
    assert b[0] == stem[0];
    assert b[|stem|..] == ext;
  }

  /** `".PNG".toLowerCase()`. */
  lemma LowerPng()
    ensures ToLowerAscii(".PNG") == ".png"
  {
    var lower := ToLowerAscii(".PNG");
    assert lower[0] == '.' && lower[1] == 'p' && lower[2] == 'n' && lower[3] == 'g';
  }

  /** The last segment of `dir/stem.PNG` and its extension. */
  lemma PngPathParts(dir: string, stem: string)
    requires stem != [] && '.' !in stem && '/' !in stem
    ensures Basename(dir + "/" + stem + ".PNG") == stem + ".PNG"
    ensures Extname(dir + "/" + stem + ".PNG") == ".PNG"
  {
    var p := dir + "/" + stem + ".PNG";
    assert p == dir + "/" + (stem + ".PNG");
    SegmentBasename(dir, stem + ".PNG");
    assert ".PNG"[1..] == "PNG";
    StemExtension(stem, ".PNG");
    assert Extname(p) == SegmentExtension(stem + ".PNG");
  }

  /** `.png` is not stripped from a name ending in `.PNG`; `.PNG` is. */
  lemma StripPng(stem: string)
    requires stem != []
    ensures DropSuffix(stem + ".PNG", ".png") == stem + ".PNG"
    ensures DropSuffix(stem + ".PNG", ".PNG") == stem
  {
    var b := stem + ".PNG";
    assert !EndsWith(b, ".png") by {
      assert b[|b| - 1] == 'G';
    }
    assert EndsWith(b, ".PNG") by {
      assert b[|b| - 4..] == ".PNG";
    }
    assert b[..|b| - 4] == stem;
  }

  /**
   * An upper-case extension is not stripped as written, so it stays in the cache name:
   * `dir/stem.PNG` is cached as `stem.PNG_optimized.png`, where `stem_optimized.png` was
   * meant.
   */
  lemma UpperCaseExtensionKept(dir: string, stem: string)
    requires stem != [] && '.' !in stem && '/' !in stem
    ensures CacheFileNameAsWritten(dir + "/" + stem + ".PNG") == stem + ".PNG" + "_optimized" + ".png"
    ensures CacheFileName(dir + "/" + stem + ".PNG") == stem + "_optimized" + ".png"
  {
    AsWrittenKeepsPng(dir, stem);
    CorrectedDropsPng(dir, stem);
  }

  /** As written, `.png` is stripped from `dir/stem.PNG`, which does not end with it. */
  lemma AsWrittenKeepsPng(dir: string, stem: string)
    requires stem != [] && '.' !in stem && '/' !in stem
    ensures CacheFileNameAsWritten(dir + "/" + stem + ".PNG") == stem + ".PNG" + "_optimized" + ".png"
  {
    var p := dir + "/" + stem + ".PNG";
    PngPathParts(dir, stem);
    LowerPng();
    StripPng(stem);
    assert p != ".png" by {
      assert |p| > 4;
    }
    AsWrittenIs(p, ".png", stem + ".PNG");
  }

  /** The cache name as written, once the lower-cased extension and the base name are known. */
  lemma AsWrittenIs(p: string, ext: string, b: string)
    requires ToLowerAscii(Extname(p)) == ext && Basename(p) == b && ext != p
    ensures CacheFileNameAsWritten(p) == DropSuffix(b, ext) + "_optimized" + ext
  {
  }

  /** Corrected, `.PNG` is stripped and `.png` appended. */
  lemma CorrectedDropsPng(dir: string, stem: string)
    requires stem != [] && '.' !in stem && '/' !in stem
    ensures CacheFileName(dir + "/" + stem + ".PNG") == stem + "_optimized" + ".png"
  {
    var p := dir + "/" + stem + ".PNG";
    PngPathParts(dir, stem);
    LowerPng();
    StripPng(stem);
    assert p != ".PNG" by {
      assert |p| > 4;
    }
  }

  /** For a lower-case extension both names agree. */
  lemma LowerCaseExtensionSame(imagePath: string)
    requires ToLowerAscii(Extname(imagePath)) == Extname(imagePath)
    ensures CacheFileNameAsWritten(imagePath) == CacheFileName(imagePath)
  {
  }

  // ---------------------------------------------------------------------------------------
  // processImages

  /** The options passed to `optimizeImage`, `None` standing for a property left out. */
  datatype OptimizeOptions = OptimizeOptions(quality: Option<Value>, format: Option<Value>)

  /** What the loop of `processImages` does for one image. */
  datatype ImageStep =
    | Missing(imagePath: string)
    | Optimize(source: string, target: string, options: OptimizeOptions)

  /** The options `processImages` passes: a quality of 90 and no format. */
  const ProcessOptions := OptimizeOptions(Some(Num(90)), None)

  /** A path that `processImages` leaves alone as external. */
  predicate IsUrl(p: string) {
    StartsWith(p, "http://") || StartsWith(p, "https://")
  }

  /**
   * The step for one extracted path: none for a URL; a warning for a file that does not
   * exist; otherwise the optimisation of the resolved file into `cacheDir`. `resolve`
   * stands for `path.resolve` against the directory of the Markdown file and `pathExists`
   * for `fs.existsSync`.
   */
  function StepFor(relativePath: string, cacheDir: string, resolve: string -> string, pathExists: string -> bool)
    : (r: seq<ImageStep>)
    ensures |r| == if IsUrl(relativePath) then 0 else 1
  {
    if IsUrl(relativePath) then []
    else
      var imagePath := resolve(relativePath);
      if !pathExists(imagePath) then [Missing(imagePath)]
      else [Optimize(imagePath, PathJoin(cacheDir, CacheFileName(imagePath)), ProcessOptions)]
  }

  /** The steps for a list of paths, in order. */
  function Steps(paths: seq<string>, cacheDir: string, resolve: string -> string, pathExists: string -> bool)
    : (r: seq<ImageStep>)
    ensures |r| <= |paths|
    decreases |paths|
  {
    if paths == [] then []
    else Steps(paths[..|paths| - 1], cacheDir, resolve, pathExists) + StepFor(paths[|paths| - 1], cacheDir, resolve, pathExists)
  }

  /**
   * `processImages` on the text of the Markdown file: every extracted path is examined
   * in order, the cache directory being `<cacheDir>/images`.
   */
  method ProcessImages(content: string, cacheRoot: string, resolve: string -> string, pathExists: string -> bool)
    returns (steps: seq<ImageStep>)
    ensures steps == Steps(ImagePaths(content), PathJoin(cacheRoot, "images"), resolve, pathExists)
  {
    var imagePaths := ExtractImagePaths(content);
    var cacheDir := PathJoin(cacheRoot, "images");
    steps := [];
    for i := 0 to |imagePaths|
      invariant steps == Steps(imagePaths[..i], cacheDir, resolve, pathExists)
    {
      StepsSnoc(imagePaths, i, cacheDir, resolve, pathExists);
      var relativePath := imagePaths[i];
      if IsUrl(relativePath) {
        continue;
      }
      var imagePath := resolve(relativePath);
      if !pathExists(imagePath) {
        steps := steps + [Missing(imagePath)];
        continue;
      }
      var cacheFilename := CacheFileName(imagePath);
      var cachePath := PathJoin(cacheDir, cacheFilename);
      steps := steps + [Optimize(imagePath, cachePath, ProcessOptions)];
    }
    assert imagePaths[..|imagePaths|] == imagePaths;
  }

  lemma StepsSnoc(paths: seq<string>, i: nat, cacheDir: string, resolve: string -> string, pathExists: string -> bool)
    requires i < |paths|
    ensures Steps(paths[..i + 1], cacheDir, resolve, pathExists) ==
      Steps(paths[..i], cacheDir, resolve, pathExists) + StepFor(paths[i], cacheDir, resolve, pathExists)
  {
    assert paths[..i + 1][..i] == paths[..i];
  }

  /** The number of paths that are not URLs. */
  function LocalCount(paths: seq<string>): nat
    decreases |paths|
  {
    if paths == [] then 0
    else LocalCount(paths[..|paths| - 1]) + if IsUrl(paths[|paths| - 1]) then 0 else 1
  }

  /** URLs give no step and every other path exactly one. */
  lemma {:induction false} OneStepPerLocalPath(paths: seq<string>, cacheDir: string, resolve: string -> string,
                                               pathExists: string -> bool)
    ensures |Steps(paths, cacheDir, resolve, pathExists)| == LocalCount(paths)
    decreases |paths|
  {
    if paths != [] {
      OneStepPerLocalPath(paths[..|paths| - 1], cacheDir, resolve, pathExists);
    }
  }

  /**
   * A missing file is only warned about, and every optimised file exists and is written
   * to `<cacheDir>/<base>_optimized<ext>` with a quality of 90; for a lower-case extension
   * that is the very name the source computes.
   */
  lemma {:induction false} StepsAreSound(paths: seq<string>, cacheDir: string, resolve: string -> string,
                                         pathExists: string -> bool)
    ensures forall st :: st in Steps(paths, cacheDir, resolve, pathExists) ==>
      match st
      case Missing(p) => !pathExists(p)
      case Optimize(source, target, options) =>
        pathExists(source) && target == PathJoin(cacheDir, CacheFileName(source)) && options.quality == Some(Num(90))
        && (ToLowerAscii(Extname(source)) == Extname(source) ==>
              target == PathJoin(cacheDir, CacheFileNameAsWritten(source)))
    decreases |paths|
  {
    if paths != [] {
      StepsAreSound(paths[..|paths| - 1], cacheDir, resolve, pathExists);
    }
  }

  /** A list of URLs gives no step at all. */
  lemma {:induction false} UrlsSkipped(paths: seq<string>, cacheDir: string, resolve: string -> string,
                                       pathExists: string -> bool)
    requires forall k :: 0 <= k < |paths| ==> IsUrl(paths[k])
    ensures Steps(paths, cacheDir, resolve, pathExists) == []
    decreases |paths|
  {
    if paths != [] {
      UrlsSkipped(paths[..|paths| - 1], cacheDir, resolve, pathExists);
    }
  }

  // ---------------------------------------------------------------------------------------
  // optimizeImage

  /** The encoder `optimizeImage` configures; other formats are written as they are. */
  datatype Encoder = Jpeg(quality: Value) | Png(quality: Value) | Webp(quality: Value) | AsIs

  /** `format || metadata.format || 'jpeg'`. */
  function OutputFormat(format: Option<Value>, detected: Option<Value>): (r: Value)
    ensures Present(format) ==> Some(r) == format
    ensures !Present(format) && Present(detected) ==> Some(r) == detected
    ensures !Present(format) && !Present(detected) ==> r == Str("jpeg")
  {
    if Present(format) then format.value
    else if Present(detected) then detected.value
    else Str("jpeg")
  }

  /** The quality, 85 when the option is left out. */
  function Quality(options: OptimizeOptions): Value {
    if options.quality.None? then Num(85) else options.quality.value
  }

  /** The encoder for an image whose detected format is `detected`. */
  function EncoderFor(options: OptimizeOptions, detected: Option<Value>): (r: Encoder)
    ensures !r.AsIs? ==> r.quality == Quality(options)
    ensures !Present(options.format) && !Present(detected) ==> r == Jpeg(Quality(options))
    ensures options.format == Some(Str("png")) ==> r == Png(Quality(options))
    ensures options.format == Some(Str("webp")) ==> r == Webp(Quality(options))
    ensures r.AsIs? ==> OutputFormat(options.format, detected) !in {Str("jpeg"), Str("jpg"), Str("png"), Str("webp")}
    ensures OutputFormat(options.format, detected) in {Str("jpeg"), Str("jpg")} ==> r == Jpeg(Quality(options))
    ensures OutputFormat(options.format, detected) == Str("png") ==> r == Png(Quality(options))
    ensures OutputFormat(options.format, detected) == Str("webp") ==> r == Webp(Quality(options))
    ensures OutputFormat(options.format, detected) !in {Str("jpeg"), Str("jpg"), Str("png"), Str("webp")} ==> r.AsIs?
  {
    var outputFormat := OutputFormat(options.format, detected);
    var quality := Quality(options);
    if outputFormat == Str("jpeg") || outputFormat == Str("jpg") then Jpeg(quality)
    else if outputFormat == Str("png") then Png(quality)
    else if outputFormat == Str("webp") then Webp(quality)
    else AsIs
  }

  /**
   * The images `processImages` optimises keep their detected format when it is one of
   * the re-encoded ones, become JPEG when none is detected, are written as they are when
   * another format is detected, and are encoded at quality 90.
   */
  lemma ProcessedImageEncoding(detected: Option<Value>)
    ensures !Present(detected) ==> EncoderFor(ProcessOptions, detected) == Jpeg(Num(90))
    ensures detected in {Some(Str("jpeg")), Some(Str("jpg"))} ==> EncoderFor(ProcessOptions, detected) == Jpeg(Num(90))
    ensures detected == Some(Str("png")) ==> EncoderFor(ProcessOptions, detected) == Png(Num(90))
    ensures detected == Some(Str("webp")) ==> EncoderFor(ProcessOptions, detected) == Webp(Num(90))
    ensures Present(detected) && detected !in {Some(Str("jpeg")), Some(Str("jpg")), Some(Str("png")), Some(Str("webp"))} ==>
      EncoderFor(ProcessOptions, detected) == AsIs
    ensures !EncoderFor(ProcessOptions, detected).AsIs? ==> EncoderFor(ProcessOptions, detected).quality == Num(90)
  {
  }

  /**
   * Without options an image is re-encoded at quality 85, JPEG when no format is detected,
   * and written as it is when a format other than the re-encoded ones is detected.
   */
  lemma DefaultEncoding(detected: Option<Value>)
    ensures !Present(detected) ==> EncoderFor(OptimizeOptions(None, None), detected) == Jpeg(Num(85))
    ensures Present(detected) && detected !in {Some(Str("jpeg")), Some(Str("jpg")), Some(Str("png")), Some(Str("webp"))} ==>
      EncoderFor(OptimizeOptions(None, None), detected) == AsIs
    ensures !EncoderFor(OptimizeOptions(None, None), detected).AsIs? ==>
      EncoderFor(OptimizeOptions(None, None), detected).quality == Num(85)
  {
  }
}

=== FILE: config.dfy ===
/**
 * The configuration helpers: the configuration record the converter reads, the mapping of
 * command-line arguments onto nested configuration keys (`getConfigFromArgs`) and the
 * choice of the LaTeX template file (`resolveTemplatePath`).
 */
module ConfigManager {
  import opened JsText

  /**
   * A configuration after it has been merged with the defaults, so that every section is
   * an object. `top` holds the top-level keys other than the sections (`title`, `author`,
   * `headerIncludes`). The output file path, which the command line also stores under
   * `output`, is not part of this record: the converter receives it separately.
   */
  datatype Config = Config(
    top: map<string, Value>,
    pandoc: map<string, Value>,
    markdown: map<string, Value>,
    output: map<string, Value>,
    typography: map<string, Value>,
    paths: map<string, Value>)

  // ---------------------------------------------------------------------------------------
  // getConfigFromArgs

  /**
   * `_.set(config, ns + '.' + k, v)` on an object whose property `ns` is either missing or
   * an object: a missing section is created, an existing one gains or replaces `k`.
   */
  function SetPath(config: map<string, Value>, ns: string, k: string, v: Value): (r: map<string, Value>)
  {
    config[ns := Obj(Section(config, ns)[k := v])]
  }

  /** The properties of the object at `config[ns]`; none when it is missing or not an object. */
  function Section(config: map<string, Value>, ns: string): map<string, Value> {
    if ns in config && config[ns].Obj? then config[ns].fields else map[]
  }

  /** The value at the path `ns.k` of `config`, `None` standing for `undefined`. */
  function GetPath(config: map<string, Value>, ns: string, k: string): Option<Value> {
    if ns in config && config[ns].Obj? then Get(config[ns].fields, k) else None
  }

  /** `GetPath` is the dotted-path lookup the converter uses, on a two-part path. */
  lemma GetPathIsLookup(config: map<string, Value>, ns: string, k: string)
    requires ns in config ==> config[ns].Obj?
    ensures GetPath(config, ns, k) == Lookup(Some(Obj(config)), [ns, k])
  {
    assert Lookup(Some(Obj(config)), [ns, k]) == Lookup(LookupStep(Some(Obj(config)), ns), [k]);
    var a := LookupStep(Some(Obj(config)), ns);
    assert Lookup(a, [k]) == Lookup(LookupStep(a, k), []);
  }

  /** Reading back the path just set gives the value set. */
  lemma GetAfterSet(config: map<string, Value>, ns: string, k: string, v: Value)
    ensures GetPath(SetPath(config, ns, k, v), ns, k) == Some(v)
  {
  }

  /** Setting one path leaves every other path of an object-valued section as it was. */
  lemma SetKeepsOtherPaths(config: map<string, Value>, ns: string, k: string, v: Value, ns': string, k': string)
    requires ns in config ==> config[ns].Obj?
    requires ns' != ns || k' != k
    ensures GetPath(SetPath(config, ns, k, v), ns', k') == GetPath(config, ns', k')
  {
  }

  /** `parseInt(v, 10)`, `NaN` when the text holds no number. */
  function ParseIntValue(v: Value): (r: Value)
    ensures r.Num? || r.NaN?
    ensures r.Num? <==> ParseInt(ValueToString(v)).Some?
  {
    match ParseInt(ValueToString(v))
    case None => NaN
    case Some(n) => Num(n)
  }

  /** A depth given as the decimal text of a number is stored as that number. */
  lemma ParseIntValueOfDigits(n: int)
    ensures ParseIntValue(Str(IntToString(n))) == Num(n)
  {
    ParseIntToString(n);
  }

  /** Whether any of the recognised command-line options leads to a configuration key. */
  predicate AnyArgSet(args: map<string, Value>) {
    TruthyAt(args, "pdfEngine") || TruthyAt(args, "highlightStyle") || "toc" in args
    || TruthyAt(args, "tocDepth") || TruthyAt(args, "template")
  }

  /** The five configuration paths the command line can set. */
  predicate ArgPath(ns: string, k: string) {
    (ns, k) in {("pandoc", "pdfEngine"), ("markdown", "highlightStyle"), ("output", "toc"),
                ("output", "tocDepth"), ("output", "template")}
  }

  /** `_.set(config, ns + '.' + k, v)` when `cond` holds, with `v` then defined. */
  function SetWhen(config: map<string, Value>, cond: bool, ns: string, k: string, v: Option<Value>)
    : map<string, Value>
    requires cond ==> v.Some?
  {
    if cond then SetPath(config, ns, k, v.value) else config
  }

  /** `parseInt(args.tocDepth, 10)` when the option is truthy. */
  function ParsedTocDepth(args: map<string, Value>): Option<Value> {
    if TruthyAt(args, "tocDepth") then Some(ParseIntValue(args["tocDepth"])) else None
  }

  /**
   * The object `getConfigFromArgs` builds: one `_.set` per recognised option, in the order
   * the options are examined.
   */
  function ConfigFromArgs(args: map<string, Value>): map<string, Value> {
    var c1 := SetWhen(map[], TruthyAt(args, "pdfEngine"), "pandoc", "pdfEngine", Get(args, "pdfEngine"));
    var c2 := SetWhen(c1, TruthyAt(args, "highlightStyle"), "markdown", "highlightStyle", Get(args, "highlightStyle"));
    var c3 := SetWhen(c2, "toc" in args, "output", "toc", Get(args, "toc"));
    var c4 := SetWhen(c3, TruthyAt(args, "tocDepth"), "output", "tocDepth", ParsedTocDepth(args));
    SetWhen(c4, TruthyAt(args, "template"), "output", "template", Get(args, "template"))
  }

  /**
   * `getConfigFromArgs`: `args` holds the parsed options, a missing key standing for an
   * option left `undefined`.
   */
  method GetConfigFromArgs(args: map<string, Value>) returns (config: map<string, Value>)
    ensures config == ConfigFromArgs(args)
  {
    config := map[];
    ghost var before := config;
    if TruthyAt(args, "pdfEngine") {
      config := SetPath(config, "pandoc", "pdfEngine", args["pdfEngine"]);
    }
    assert config == SetWhen(before, TruthyAt(args, "pdfEngine"), "pandoc", "pdfEngine", Get(args, "pdfEngine"));
    before := config;
    if TruthyAt(args, "highlightStyle") {
      config := SetPath(config, "markdown", "highlightStyle", args["highlightStyle"]);
    }
    assert config == SetWhen(before, TruthyAt(args, "highlightStyle"), "markdown", "highlightStyle", Get(args, "highlightStyle"));
    before := config;
    if "toc" in args {
      config := SetPath(config, "output", "toc", args["toc"]);
    }
    assert config == SetWhen(before, "toc" in args, "output", "toc", Get(args, "toc"));
    before := config;
    if TruthyAt(args, "tocDepth") {
      config := SetPath(config, "output", "tocDepth", ParseIntValue(args["tocDepth"]));
    }
    assert config == SetWhen(before, TruthyAt(args, "tocDepth"), "output", "tocDepth", ParsedTocDepth(args));
    before := config;
    if TruthyAt(args, "template") {
      config := SetPath(config, "output", "template", args["template"]);
    }
    assert config == SetWhen(before, TruthyAt(args, "template"), "output", "template", Get(args, "template"));
  }

  /** No recognised option set, no key: the result is the empty object, and only then. */
  lemma ConfigFromArgsEmpty(args: map<string, Value>)
    ensures ConfigFromArgs(args) == map[] <==> !AnyArgSet(args)
  {
  }

  /** `pdfEngine` is copied only when truthy; a falsy one leaves its path `undefined`. */
  lemma ConfigFromArgsPdfEngine(args: map<string, Value>)
    ensures GetPath(ConfigFromArgs(args), "pandoc", "pdfEngine") ==
      if TruthyAt(args, "pdfEngine") then Some(args["pdfEngine"]) else None
  {
  }

  /** `highlightStyle` is copied only when truthy. */
  lemma ConfigFromArgsHighlightStyle(args: map<string, Value>)
    ensures GetPath(ConfigFromArgs(args), "markdown", "highlightStyle") ==
      if TruthyAt(args, "highlightStyle") then Some(args["highlightStyle"]) else None
  {
  }

  /** `template` is copied only when truthy. */
  lemma ConfigFromArgsTemplate(args: map<string, Value>)
    ensures GetPath(ConfigFromArgs(args), "output", "template") ==
      if TruthyAt(args, "template") then Some(args["template"]) else None
  {
  }

  /** `toc` is copied whenever it is defined, so an explicit `false` survives. */
  lemma ConfigFromArgsToc(args: map<string, Value>)
    ensures GetPath(ConfigFromArgs(args), "output", "toc") == Get(args, "toc")
  {
  }

  /** `tocDepth` is stored parsed as a decimal integer. */
  lemma ConfigFromArgsTocDepth(args: map<string, Value>)
    ensures GetPath(ConfigFromArgs(args), "output", "tocDepth") ==
      if TruthyAt(args, "tocDepth") then Some(ParseIntValue(args["tocDepth"])) else None
  {
  }

  /** Every section is an object holding only paths the command line can set. */
  predicate OnlyArgPaths(config: map<string, Value>) {
    forall ns :: ns in config ==> config[ns].Obj? && forall k :: k in config[ns].fields ==> ArgPath(ns, k)
  }

  /** Setting a path the command line can set keeps that shape. */
  lemma SetArgPath(config: map<string, Value>, cond: bool, ns: string, k: string, v: Option<Value>)
    requires cond ==> v.Some?
    requires OnlyArgPaths(config) && ArgPath(ns, k)
    ensures OnlyArgPaths(SetWhen(config, cond, ns, k, v))
  {
  }

  /** The object built from the command line has only sections holding paths it can set. */
  lemma ConfigFromArgsShape(args: map<string, Value>)
    ensures forall ns :: ns in ConfigFromArgs(args) ==>
      ConfigFromArgs(args)[ns].Obj? && forall k :: k in ConfigFromArgs(args)[ns].fields ==> ArgPath(ns, k)
  {
    var c1 := SetWhen(map[], TruthyAt(args, "pdfEngine"), "pandoc", "pdfEngine", Get(args, "pdfEngine"));
    var c2 := SetWhen(c1, TruthyAt(args, "highlightStyle"), "markdown", "highlightStyle", Get(args, "highlightStyle"));
    var c3 := SetWhen(c2, "toc" in args, "output", "toc", Get(args, "toc"));
    var c4 := SetWhen(c3, TruthyAt(args, "tocDepth"), "output", "tocDepth", ParsedTocDepth(args));
    SetArgPath(map[], TruthyAt(args, "pdfEngine"), "pandoc", "pdfEngine", Get(args, "pdfEngine"));
    SetArgPath(c1, TruthyAt(args, "highlightStyle"), "markdown", "highlightStyle", Get(args, "highlightStyle"));
    SetArgPath(c2, "toc" in args, "output", "toc", Get(args, "toc"));
    SetArgPath(c3, TruthyAt(args, "tocDepth"), "output", "tocDepth", ParsedTocDepth(args));
    SetArgPath(c4, TruthyAt(args, "template"), "output", "template", Get(args, "template"));
    assert OnlyArgPaths(ConfigFromArgs(args));
  }

  // ---------------------------------------------------------------------------------------
  // resolveTemplatePath

  /** `fs.existsSync(p)` for a string path: true for a file or a directory; the empty path never exists. */
  predicate PathExists(pathExists: string -> bool, p: string) {
    p != "" && pathExists(p)
  }

  /** The directory the built-in templates live in, as a string. */
  predicate HasTemplatesDir(config: Config) {
    "templatesDir" in config.paths && config.paths["templatesDir"].Str?
  }

  /** `<templatesDir>/<template>.tex`; an unset template name prints as `undefined`. */
  function BuiltInTemplatePath(config: Config): string
    requires HasTemplatesDir(config)
  {
    PathJoin(config.paths["templatesDir"].s, OptToString(Get(config.output, "template")) + ".tex")
  }

  /** `<templatesDir>/default.tex`. */
  function DefaultTemplatePath(config: Config): string
    requires HasTemplatesDir(config)
  {
    PathJoin(config.paths["templatesDir"].s, "default.tex")
  }

  /** The template name taken as a path of its own, when it exists as a file. */
  predicate CustomTemplateExists(config: Config, pathExists: string -> bool) {
    "template" in config.output && config.output["template"].Str?
    && PathExists(pathExists, config.output["template"].s)
  }

  /**
   * `resolveTemplatePath`: the built-in template of that name when its file exists, else
   * the name itself when it exists as a path, else the default template.
   */
  function ResolveTemplatePath(config: Config, pathExists: string -> bool): (r: string)
    requires HasTemplatesDir(config)
    ensures r != ""
    ensures PathExists(pathExists, BuiltInTemplatePath(config)) ==> r == BuiltInTemplatePath(config)
    ensures !PathExists(pathExists, BuiltInTemplatePath(config)) && CustomTemplateExists(config, pathExists) ==>
      r == config.output["template"].s
    ensures PathExists(pathExists, r) || r == DefaultTemplatePath(config)
  {
    var builtIn := BuiltInTemplatePath(config);
    if PathExists(pathExists, builtIn) then builtIn
    else if CustomTemplateExists(config, pathExists) then config.output["template"].s
    else DefaultTemplatePath(config)
  }

  /** When neither candidate exists, the default template is chosen. */
  lemma FallsBackToDefault(config: Config, pathExists: string -> bool)
    requires HasTemplatesDir(config)
    requires !PathExists(pathExists, BuiltInTemplatePath(config)) && !CustomTemplateExists(config, pathExists)
    ensures ResolveTemplatePath(config, pathExists) == DefaultTemplatePath(config)
    ensures EndsWith(ResolveTemplatePath(config, pathExists), "default.tex")
  {
  }
}

=== FILE: converter.dfy ===
/**
 * The converter's own logic: the substitution of `{name}` placeholders, the pandoc
 * command line built from the configuration, and the preparation of a Markdown document
 * (front matter re-emitted, body preprocessed for technical proposals).
 */
module Converter {
  import opened JsText
  import opened Scan
  import opened ConfigManager
  import opened FrontMatterFormatter
  import TechnicalPreprocessor

  // ---------------------------------------------------------------------------------------
  // replaceTemplateVariables

  /** A character of the class `[a-zA-Z0-9_.]`. */
  predicate IsKeyChar(c: char) {
    'a' <= c <= 'z' || 'A' <= c <= 'Z' || '0' <= c <= '9' || c == '_' || c == '.'
  }

  /** `/\{([a-zA-Z0-9_.]+)\}/g`: a brace, one or more key characters, a closing brace. */
  function PlaceholderMatch(t: string, bol: bool): nat {
    if t == [] || t[0] != '{' then 0
    else
      var k := Span(t, 1, IsKeyChar);
      if 2 <= k < |t| && t[k] == '}' then k + 1 else 0
  }

  /** The placeholder `{key}`. */
  function Placeholder(key: string): string {
    "{" + key + "}"
  }

  /** The captured key of a matched placeholder: the text between the braces. */
  function PlaceholderKey(m: string): string {
    if |m| >= 2 then m[1..|m| - 1] else m
  }

  /**
   * The replacement of one placeholder: the dotted key is looked up step by step from the
   * variables; a value that is not `undefined` is printed, otherwise the placeholder
   * stays as written.
   */
  function Substitute(variables: map<string, Value>): string -> string {
    m => var r := Resolve(variables, PlaceholderKey(m)); if r.Some? then r.value else m
  }

  /** The printed value a placeholder key leads to, `None` when it leads to `undefined`. */
  function Resolve(variables: map<string, Value>, key: string): Option<string> {
    var v := Lookup(Some(Obj(variables)), Split(key, '.'));
    if v.Some? then Some(ValueToString(v.value)) else None
  }

  /**
   * `replaceTemplateVariables(text, variables)`. The pattern has no `^`, so where lines
   * start plays no part in it.
   */
  function ReplaceTemplateVariables(text: string, variables: map<string, Value>): (r: string)
    ensures '{' !in text ==> r == text
    ensures variables == map[] ==> r == text
  {
    var r := ReplaceAll(PlaceholderMatch, Substitute(variables), text, false);
    assert '{' !in text ==> r == text by {
      if '{' !in text {
        NoBraceKept(text, variables);
      }
    }
    assert variables == map[] ==> r == text by {
      if variables == map[] {
        NoVariablesKept(text);
      }
    }
    r
  }

  /** Looking anything up from `undefined` gives `undefined`. */
  lemma {:induction false} LookupUndefined(keys: seq<string>)
    ensures Lookup(None, keys) == None
    decreases |keys|
  {
    if keys != [] {
      LookupUndefined(keys[1..]);
    }
  }

  /** A text without a separator splits into itself alone. */
  lemma SplitWhole(s: string, sep: char)
    requires sep !in s
    ensures Split(s, sep) == [s]
  {
    SpanIs(s, 0, c => c != sep, |s|);
  }

  /** A key without a dot names a variable of the top level. */
  lemma LookupTopLevel(variables: map<string, Value>, key: string)
    requires '.' !in key
    ensures Lookup(Some(Obj(variables)), Split(key, '.')) == Get(variables, key)
  {
    SplitWhole(key, '.');
    assert Lookup(Some(Obj(variables)), [key]) == Lookup(LookupStep(Some(Obj(variables)), key), []);
  }

  /**
   * A key `a.b` whose first part is defined but falsy (an empty string, `0`, `false`,
   * `null`) yields that falsy value itself, which is then printed in place of the
   * placeholder.
   */
  lemma LookupFalsyParent(variables: map<string, Value>, a: string, b: string)
    requires '.' !in a && '.' !in b
    requires a in variables && !Truthy(variables[a])
    ensures Lookup(Some(Obj(variables)), Split(a + "." + b, '.')) == Some(variables[a])
  {
    SplitFirst(a, '.', b);
    SplitWhole(b, '.');
    assert a + "." + b == a + ['.'] + b;
    var keys := [a, b];
    assert Lookup(Some(Obj(variables)), keys) == Lookup(Some(variables[a]), [b]);
    assert Lookup(Some(variables[a]), [b]) == Lookup(Some(variables[a]), []);
  }

  /** A key `a.k` reads property `k` of the variable `a`: `variables.a && variables.a[k]`. */
  lemma ResolveNested(variables: map<string, Value>, a: string, k: string)
    requires '.' !in a && '.' !in k && a in variables
    ensures Resolve(variables, a + "." + k)
      == (var v := LookupStep(Some(variables[a]), k); if v.Some? then Some(ValueToString(v.value)) else None)
  {
    SplitFirst(a, '.', k);
    SplitWhole(k, '.');
    assert a + "." + k == a + ['.'] + k;
    assert Lookup(Some(Obj(variables)), [a, k]) == Lookup(Some(variables[a]), [k]);
    assert Lookup(Some(variables[a]), [k]) == Lookup(LookupStep(Some(variables[a]), k), []);
  }

  /** `{a.i}` on an array `a` prints the item at index `i`. */
  lemma ArrayItemResolves(variables: map<string, Value>, a: string, items: seq<Value>, i: nat)
    requires '.' !in a && a in variables && variables[a] == Arr(items) && i < |items|
    ensures Resolve(variables, a + "." + NatToString(i)) == Some(ValueToString(items[i]))
  {
    var k := NatToString(i);
    NatToStringIsIndex(i);
    assert '.' !in k by {
      forall j | 0 <= j < |k| ensures k[j] != '.' {
        assert IsDigit(k[j]);
      }
    }
    ResolveNested(variables, a, k);
  }

  /** `{a.length}` prints the length of a non-empty string. */
  lemma StringLengthResolves(variables: map<string, Value>, a: string, s: string)
    requires '.' !in a && a in variables && variables[a] == Str(s) && s != ""
    ensures Resolve(variables, a + ".length") == Some(IntToString(|s|))
  {
    assert '.' !in "length";
    ResolveNested(variables, a, "length");
    assert a + "." + "length" == a + ".length";
    assert Property(Str(s), "length") == Some(Num(|s|));
  }

  /** `{a.length}` prints the number of items of an array. */
  lemma ArrayLengthResolves(variables: map<string, Value>, a: string, items: seq<Value>)
    requires '.' !in a && a in variables && variables[a] == Arr(items)
    ensures Resolve(variables, a + ".length") == Some(IntToString(|items|))
  {
    assert '.' !in "length";
    ResolveNested(variables, a, "length");
    assert a + "." + "length" == a + ".length";
    assert Property(Arr(items), "length") == Some(Num(|items|));
  }

  /** `{key}` is matched whole, whatever follows it. */
  lemma PlaceholderAt(key: string, rest: string, bol: bool)
    requires key != [] && forall i :: 0 <= i < |key| ==> IsKeyChar(key[i])
    ensures PlaceholderMatch(Placeholder(key) + rest, bol) == |key| + 2
  {
    var u := Placeholder(key) + rest;
    SpanIs(u, 1, IsKeyChar, |key| + 1);
  }

  /** No placeholder starts inside a stretch without an opening brace. */
  lemma NoPlaceholderIn(a: string, b: string, c: string, bol: bool)
    requires '{' !in a
    ensures NoMatchBefore(PlaceholderMatch, a + b + c, bol, |a|)
  {
    forall k | 0 <= k < |a| ensures MatchAt(PlaceholderMatch, a + b + c, bol, k) == 0 {
      assert (a + b + c)[k..][0] == a[k];
    }
  }

  /**
   * The first placeholder of the text, `{key}` after a stretch `a` in which no placeholder
   * starts, is replaced by the printed value its key leads to, or kept as written when that
   * is `undefined`; the rest of the text is processed the same way.
   */
  lemma ReplaceFirstPlaceholder(a: string, key: string, rest: string, variables: map<string, Value>)
    requires NoMatchBefore(PlaceholderMatch, a + Placeholder(key) + rest, false, |a|)
    requires key != [] && forall i :: 0 <= i < |key| ==> IsKeyChar(key[i])
    ensures ReplaceTemplateVariables(a + Placeholder(key) + rest, variables)
      == a + (var r := Resolve(variables, key); if r.Some? then r.value else Placeholder(key))
        + ReplaceTemplateVariables(rest, variables)
  {
    var mt := Placeholder(key);
    var rw := Substitute(variables);
    PlaceholderAt(key, rest, BolAt(a + mt + rest, |a|, false));
    ReplaceAllFirst(PlaceholderMatch, rw, a, mt, rest, false);
    assert mt[|mt| - 1] == '}';
    assert PlaceholderKey(mt) == key;
  }

  /** In particular when the stretch before the placeholder holds no opening brace. */
  lemma ReplaceFirstPlaceholderAfterText(a: string, key: string, rest: string, variables: map<string, Value>)
    requires '{' !in a
    requires key != [] && forall i :: 0 <= i < |key| ==> IsKeyChar(key[i])
    ensures ReplaceTemplateVariables(a + Placeholder(key) + rest, variables)
      == a + (var r := Resolve(variables, key); if r.Some? then r.value else Placeholder(key))
        + ReplaceTemplateVariables(rest, variables)
  {
    NoPlaceholderIn(a, Placeholder(key), rest, false);
    ReplaceFirstPlaceholder(a, key, rest, variables);
  }

  /** A top-level variable that is defined replaces its placeholder by its printed value. */
  lemma ReplacesDefinedVariable(a: string, key: string, rest: string, variables: map<string, Value>)
    requires NoMatchBefore(PlaceholderMatch, a + Placeholder(key) + rest, false, |a|)
    requires key != [] && '.' !in key && forall i :: 0 <= i < |key| ==> IsKeyChar(key[i])
    requires key in variables
    ensures ReplaceTemplateVariables(a + Placeholder(key) + rest, variables)
      == a + ValueToString(variables[key]) + ReplaceTemplateVariables(rest, variables)
  {
    ReplaceFirstPlaceholder(a, key, rest, variables);
    LookupTopLevel(variables, key);
  }

  /** A placeholder naming an undefined top-level variable is left as written. */
  lemma KeepsUndefinedVariable(a: string, key: string, rest: string, variables: map<string, Value>)
    requires NoMatchBefore(PlaceholderMatch, a + Placeholder(key) + rest, false, |a|)
    requires key != [] && '.' !in key && forall i :: 0 <= i < |key| ==> IsKeyChar(key[i])
    requires key !in variables
    ensures ReplaceTemplateVariables(a + Placeholder(key) + rest, variables)
      == a + Placeholder(key) + ReplaceTemplateVariables(rest, variables)
  {
    ReplaceFirstPlaceholder(a, key, rest, variables);
    LookupTopLevel(variables, key);
  }

  /** A text in which no placeholder starts anywhere is left as it is, braces included. */
  lemma NoPlaceholderKept(text: string, variables: map<string, Value>)
    requires NoMatchBefore(PlaceholderMatch, text, false, |text|)
    ensures ReplaceTemplateVariables(text, variables) == text
  {
    var rw := Substitute(variables);
    assert text + [] == text;
    ReplaceAllCopy(PlaceholderMatch, rw, text, [], false);
    assert ReplaceAll(PlaceholderMatch, rw, [], BolAt(text, |text|, false)) == [];
  }

  /**
   * Every placeholder match is a `{key}` with one or more key characters, so a text that
   * holds one splits as `ReplaceFirstPlaceholder` requires at its first match.
   */
  lemma PlaceholderShape(t: string, bol: bool, k: nat)
    requires k <= |t| && MatchAt(PlaceholderMatch, t, bol, k) > 0
    ensures var n := MatchAt(PlaceholderMatch, t, bol, k);
      n >= 3 && t[k..k + n] == Placeholder(t[k + 1..k + n - 1])
      && forall i :: k + 1 <= i < k + n - 1 ==> IsKeyChar(t[i])
  {
    var u := t[k..];
    var n := MatchAt(PlaceholderMatch, t, bol, k);
    assert n == PlaceholderMatch(u, BolAt(t, k, bol));
    forall i | k + 1 <= i < k + n - 1 ensures IsKeyChar(t[i]) {
      assert u[i - k] == t[i];
    }
    assert t[k..k + n] == u[..n];
    assert u[..n] == Placeholder(u[1..n - 1]);
    assert u[1..n - 1] == t[k + 1..k + n - 1];
  }

  /** No placeholder starts at a brace that another brace follows. */
  lemma NoPlaceholderAtDoubleBrace(u: string, bol: bool)
    requires |u| >= 2 && u[1] == '{'
    ensures PlaceholderMatch(u, bol) == 0
  {
    assert Span(u, 1, IsKeyChar) == 1;
  }

  /**
   * A doubled brace is no placeholder of its own: `{{key}}` is the outer braces around the
   * placeholder `{key}`, so a defined top-level variable leaves `{value}`.
   */
  lemma DoubleBracesKeepOuter(key: string, variables: map<string, Value>)
    requires key != [] && '.' !in key && forall i :: 0 <= i < |key| ==> IsKeyChar(key[i])
    requires key in variables
    ensures ReplaceTemplateVariables("{" + Placeholder(key) + "}", variables)
      == "{" + ValueToString(variables[key]) + "}"
  {
    var t := "{" + Placeholder(key) + "}";
    assert t[0..] == t;
    NoPlaceholderAtDoubleBrace(t, BolAt(t, 0, false));
    assert NoMatchBefore(PlaceholderMatch, t, false, 1);
    ReplacesDefinedVariable("{", key, "}", variables);
    assert '{' !in "}";
  }

  /** With no variables, no key leads anywhere. */
  lemma NothingResolves(key: string)
    ensures Resolve(map[], key) == None
  {
    var keys := Split(key, '.');
    LookupUndefined(keys[1..]);
    assert Lookup(Some(Obj(map[])), keys) == Lookup(None, keys[1..]);
  }

  /** With no variables at all, every placeholder stays as written: the text is unchanged. */
  lemma NoVariablesKept(text: string)
    ensures ReplaceAll(PlaceholderMatch, Substitute(map[]), text, false) == text
  {
    var rw := Substitute(map[]);
    forall u ensures rw(u) == u {
      SubstitutesNothing(u);
    }
    ReplaceAllIdentity(PlaceholderMatch, rw, text, false);
  }

  /** With no variables, every matched placeholder is replaced by itself. */
  lemma SubstitutesNothing(m: string)
    ensures Substitute(map[])(m) == m
  {
    NothingResolves(PlaceholderKey(m));
  }

  /** A text without an opening brace holds no placeholder and is unchanged. */
  lemma NoBraceKept(text: string, variables: map<string, Value>)
    requires '{' !in text
    ensures ReplaceAll(PlaceholderMatch, Substitute(variables), text, false) == text
  {
    var rw := Substitute(variables);
    forall k | 0 <= k < |text| ensures KeptAt(PlaceholderMatch, rw, text, false, k) {
      assert text[k..][0] == text[k];
    }
    ReplaceAllKept(PlaceholderMatch, rw, text, false);
  }

  // ---------------------------------------------------------------------------------------
  // buildPandocArgs

  /** The template variables the converter sets on the command line. */
  datatype Setting =
    | NumberSections | MainFont | SansFont | MonoFont | FontSize | PaperSize | LineStretch
    | Microtype | Booktabs | Tables | Lang | Graphics | LinkColor | UrlColor | TocColor
    | Geometry | MarginLeft | MarginRight | MarginTop | MarginBottom | PageStyle
    | Csquotes | ColorLinks | LinksAsNotes | Header | Footer

  /** The name of a template variable as pandoc receives it. */
  function SettingName(s: Setting): string {
    match s
    case NumberSections => "numbersections"
    case MainFont => "mainfont"
    case SansFont => "sansfont"
    case MonoFont => "monofont"
    case FontSize => "fontsize"
    case PaperSize => "papersize"
    case LineStretch => "linestretch"
    case Microtype => "microtype"
    case Booktabs => "booktabs"
    case Tables => "tables"
    case Lang => "lang"
    case Graphics => "graphics"
    case LinkColor => "linkcolor"
    case UrlColor => "urlcolor"
    case TocColor => "toccolor"
    case Geometry => "geometry"
    case MarginLeft => "margin-left"
    case MarginRight => "margin-right"
    case MarginTop => "margin-top"
    case MarginBottom => "margin-bottom"
    case PageStyle => "pagestyle"
    case Csquotes => "csquotes"
    case ColorLinks => "colorlinks"
    case LinksAsNotes => "links-as-notes"
    case Header => "header"
    case Footer => "footer"
  }

  /**
   * One `args.push(...)` of the converter: the input file, an option with its value, a
   * flag, or a template variable. Values are kept as the JavaScript values pushed, which
   * reach pandoc in their string form.
   */
  datatype PandocOption =
    | Input(path: string)
    | Output(path: string)
    | Template(path: string)
    | Toc
    | TocDepth(depth: Value)
    | NumberSectionsFlag
    | PdfEngine(engine: Option<Value>)
    | HighlightStyle(style: Option<Value>)
    | Citeproc
    | Mathjax
    | DiagramsFilter
    | Smart
    | Standalone
    | Variable(setting: Setting, value: Option<Value>)

  /** A fixed text given as a variable's value. */
  function Text(s: string): Option<Value> {
    Some(Str(s))
  }

  /** The words an option takes on the command line. */
  function Words(o: PandocOption): seq<string> {
    match o
    case Input(p) => [p]
    case Output(p) => ["-o", p]
    case Template(p) => ["--template", p]
    case Toc => ["--toc"]
    case TocDepth(d) => ["--toc-depth", ValueToString(d)]
    case NumberSectionsFlag => ["-N"]
    case PdfEngine(e) => ["--pdf-engine", OptToString(e)]
    case HighlightStyle(h) => ["--highlight-style", OptToString(h)]
    case Citeproc => ["--citeproc"]
    case Mathjax => ["--mathjax"]
    case DiagramsFilter => ["--filter", "pandoc-diagrams"]
    case Smart => ["--smart"]
    case Standalone => ["--standalone"]
    case Variable(s, v) => ["--variable", SettingName(s) + "=" + OptToString(v)]
  }

  /** The words of the options, in order. */
  function Flatten(opts: seq<PandocOption>): seq<string>
    decreases |opts|
  {
    if opts == [] then [] else Words(opts[0]) + Flatten(opts[1..])
  }

  lemma {:induction false} FlattenAppend(a: seq<PandocOption>, b: seq<PandocOption>)
    ensures Flatten(a + b) == Flatten(a) + Flatten(b)
    decreases |a|
  {
    if a == [] {
      assert a + b == b;
    } else {
      assert (a + b)[0] == a[0];
      assert (a + b)[1..] == a[1..] + b;
      FlattenAppend(a[1..], b);
    }
  }

  /** Whether the options set the template variable `s`, to whatever value. */
  ghost predicate SetsVariable(opts: seq<PandocOption>, s: Setting) {
    exists v :: Variable(s, v) in opts
  }

  /** `m[k]` when it is truthy, else `undefined`. */
  function WhenTruthy(m: map<string, Value>, k: string): (r: Option<Value>)
    ensures r.Some? <==> TruthyAt(m, k)
    ensures r.Some? ==> r == Get(m, k)
  {
    if TruthyAt(m, k) then Get(m, k) else None
  }

  /**
   * What `buildPandocArgs` reads from the configuration: a switch for each option pushed
   * when a setting is truthy, the value for each variable pushed when its setting is
   * truthy (`None` when it is not), and the value for each option pushed whatever it is.
   */
  datatype Settings = Settings(
    toc: bool, tocDepth: Option<Value>, numbered: bool,
    pdfEngine: Option<Value>, highlightStyle: Option<Value>,
    mainfont: Option<Value>, sansfont: Option<Value>, monofont: Option<Value>,
    fontsize: Option<Value>, papersize: Option<Value>, lineheight: Option<Value>, microtype: bool,
    citations: bool, mathSupport: bool, lang: Option<Value>,
    geometry: Option<Value>,
    pagestyle: Option<Value>, diagrams: bool, header: Option<Value>, footer: Option<Value>)

  /** The settings of a configuration, each read where the converter reads it. */
  function SettingsOf(config: Config): Settings {
    Settings(
      TruthyAt(config.output, "toc"), Get(config.output, "tocDepth"), TruthyAt(config.output, "numbered"),
      Get(config.pandoc, "pdfEngine"), Get(config.markdown, "highlightStyle"),
      WhenTruthy(config.typography, "mainfont"), WhenTruthy(config.typography, "sansfont"),
      WhenTruthy(config.typography, "monofont"), WhenTruthy(config.typography, "fontsize"),
      Get(config.output, "papersize"), WhenTruthy(config.typography, "lineheight"),
      TruthyAt(config.typography, "microtype"),
      TruthyAt(config.markdown, "citations"), TruthyAt(config.markdown, "mathSupport"),
      WhenTruthy(config.typography, "lang"),
      WhenTruthy(config.output, "geometry"),
      Get(config.output, "pagestyle"), TruthyAt(config.markdown, "diagrams"),
      WhenTruthy(config.output, "header"), WhenTruthy(config.output, "footer"))
  }

  /** The depth of the table of contents is neither `undefined` nor `null`. */
  predicate HasTocDepth(s: Settings) {
    s.tocDepth.Some? && !s.tocDepth.value.Null?
  }

  /** `opts` with `o` pushed when `cond` holds. */
  function PushIf(opts: seq<PandocOption>, cond: bool, o: PandocOption): seq<PandocOption> {
    if cond then opts + [o] else opts
  }

  /** The variable `name` pushed with `v` when there is a value. */
  function PushVariable(opts: seq<PandocOption>, v: Option<Value>, name: Setting): seq<PandocOption> {
    PushIf(opts, v.Some?, Variable(name, v))
  }

  /** Input file, output file and, when the path is truthy, the template. */
  function FileOptions(templatePath: string, inputPath: string, outputPath: string): seq<PandocOption> {
    PushIf([Input(inputPath), Output(outputPath)], templatePath != "", Template(templatePath))
  }

  /** The table of contents and its depth, when it is wanted. */
  function WithToc(opts: seq<PandocOption>, s: Settings): seq<PandocOption>
    requires s.toc ==> HasTocDepth(s)
  {
    if s.toc then opts + [Toc] + [TocDepth(s.tocDepth.value)] else opts
  }

  /** The template path names the technical template. */
  predicate IsTechnicalTemplate(templatePath: string) {
    templatePath != "" && Includes(templatePath, "technical")
  }

  /**
   * Section numbering, off when the template is the technical one, else `-N` when
   * requested; then
   * the PDF engine and the highlighting style, pushed whatever they are.
   */
  function WithNumberingAndEngine(opts: seq<PandocOption>, s: Settings, technical: bool)
    : seq<PandocOption>
  {
    var numbered :=
      if technical then opts + [Variable(NumberSections, Text("false"))]
      else PushIf(opts, s.numbered, NumberSectionsFlag);
    numbered + [PdfEngine(s.pdfEngine)] + [HighlightStyle(s.highlightStyle)]
  }

  /** Fonts, paper size, line spacing and microtype. */
  function WithTypography(opts: seq<PandocOption>, s: Settings): seq<PandocOption> {
    var fonts := PushVariable(PushVariable(PushVariable(PushVariable(opts,
      s.mainfont, MainFont), s.sansfont, SansFont), s.monofont, MonoFont), s.fontsize, FontSize);
    var paper := fonts + [Variable(PaperSize, s.papersize)];
    PushIf(PushVariable(paper, s.lineheight, LineStretch), s.microtype, Variable(Microtype, Text("true")))
  }

  /** Citations, math, table formatting, language and the basic colours. */
  function WithContent(opts: seq<PandocOption>, s: Settings): seq<PandocOption> {
    var ext := PushIf(PushIf(opts, s.citations, Citeproc), s.mathSupport, Mathjax);
    var tables := ext + [Variable(Booktabs, Text("true"))] + [Variable(Tables, Text("true"))];
    PushVariable(tables, s.lang, Lang)
      + [Variable(Graphics, Text("yes"))] + [Variable(LinkColor, Text("blue"))]
      + [Variable(UrlColor, Text("blue"))] + [Variable(TocColor, Text("black"))]
  }

  /** The page geometry when one is configured, else four one-inch margins. */
  function WithMargins(opts: seq<PandocOption>, s: Settings): seq<PandocOption> {
    if s.geometry.Some? then opts + [Variable(Geometry, s.geometry)]
    else
      opts + [Variable(MarginLeft, Text("1in"))] + [Variable(MarginRight, Text("1in"))]
        + [Variable(MarginTop, Text("1in"))] + [Variable(MarginBottom, Text("1in"))]
  }

  /** Page style, diagrams, typesetting features, header and footer, and the final flags. */
  function WithPage(opts: seq<PandocOption>, s: Settings): seq<PandocOption> {
    var style := PushIf(opts + [Variable(PageStyle, s.pagestyle)], s.diagrams, DiagramsFilter);
    var features := style + [Variable(Csquotes, Text("true"))] + [Variable(ColorLinks, Text("true"))]
      + [Variable(LinksAsNotes, Text("false"))];
    var marks := PushVariable(PushVariable(features, s.header, Header), s.footer, Footer);
    marks + [Smart] + [Standalone]
  }

  /** The options pushed up to the table of contents. */
  function TocStage(s: Settings, templatePath: string, inputPath: string, outputPath: string)
    : seq<PandocOption>
    requires s.toc ==> HasTocDepth(s)
  {
    WithToc(FileOptions(templatePath, inputPath, outputPath), s)
  }

  /** The options pushed up to the highlighting style. */
  function NumberingStage(s: Settings, technical: bool, templatePath: string, inputPath: string, outputPath: string)
    : seq<PandocOption>
    requires s.toc ==> HasTocDepth(s)
  {
    WithNumberingAndEngine(TocStage(s, templatePath, inputPath, outputPath), s, technical)
  }

  /** The options pushed up to the typography settings. */
  function TypographyStage(s: Settings, technical: bool, templatePath: string, inputPath: string, outputPath: string)
    : seq<PandocOption>
    requires s.toc ==> HasTocDepth(s)
  {
    WithTypography(NumberingStage(s, technical, templatePath, inputPath, outputPath), s)
  }

  /** The options pushed up to the colours. */
  function ContentStage(s: Settings, technical: bool, templatePath: string, inputPath: string, outputPath: string)
    : seq<PandocOption>
    requires s.toc ==> HasTocDepth(s)
  {
    WithContent(TypographyStage(s, technical, templatePath, inputPath, outputPath), s)
  }

  /** The options pushed up to the page margins. */
  function MarginStage(s: Settings, technical: bool, templatePath: string, inputPath: string, outputPath: string)
    : seq<PandocOption>
    requires s.toc ==> HasTocDepth(s)
  {
    WithMargins(ContentStage(s, technical, templatePath, inputPath, outputPath), s)
  }

  /** All the options, for settings from which a command line is built. */
  function OptionsFor(s: Settings, technical: bool, templatePath: string, inputPath: string, outputPath: string)
    : seq<PandocOption>
    requires s.toc ==> HasTocDepth(s)
  {
    WithPage(MarginStage(s, technical, templatePath, inputPath, outputPath), s)
  }

  /**
   * The options `buildPandocArgs` pushes, in order, or `None` where it throws: a table of
   * contents is wanted and its depth is `undefined` or `null`.
   */
  function PandocOptions(config: Config, templatePath: string, inputPath: string, outputPath: string)
    : Option<seq<PandocOption>>
  {
    var s := SettingsOf(config);
    if s.toc && !HasTocDepth(s) then None else Some(OptionsFor(s, IsTechnicalTemplate(templatePath), templatePath, inputPath, outputPath))
  }

  /** The command line of `buildPandocArgs`: the words of its options. */
  function PandocArgs(config: Config, templatePath: string, inputPath: string, outputPath: string)
    : Option<seq<string>>
  {
    var opts := PandocOptions(config, templatePath, inputPath, outputPath);
    if opts.None? then None else Some(Flatten(opts.value))
  }

  /**
   * `buildPandocArgs(config, inputPath, outputPath)` for the template path
   * `resolveTemplatePath(config)` has found. Each `args.push` pushes the words of one
   * option; `None` stands for the `TypeError` thrown when a table of contents is wanted
   * without a depth.
   */
  method BuildPandocArgs(config: Config, templatePath: string, inputPath: string, outputPath: string)
    returns (args: Option<seq<string>>)
    ensures args == PandocArgs(config, templatePath, inputPath, outputPath)
  {
    ghost var s := SettingsOf(config);

    // Input and output
    var opts := [Input(inputPath), Output(outputPath)];

    // Template
    if templatePath != "" {
      opts := opts + [Template(templatePath)];
    }

    // Table of contents
    if TruthyAt(config.output, "toc") {
      opts := opts + [Toc];
      var depth := Get(config.output, "tocDepth");
      if depth.None? || depth.value.Null? {
        FailsOnlyWithoutTocDepth(config, templatePath, inputPath, outputPath);
        return None;
      }
      opts := opts + [TocDepth(depth.value)];
    }
    assert opts == TocStage(s, templatePath, inputPath, outputPath);

    opts := PushNumberingAndEngine(opts, config, templatePath);
    opts := PushTypography(opts, config);
    opts := PushContent(opts, config);
    opts := PushMargins(opts, config);
    opts := PushPage(opts, config);
    args := Some(Flatten(opts));
  }

  /** Section numbering, PDF engine and code highlighting. */
  method PushNumberingAndEngine(opts: seq<PandocOption>, config: Config, templatePath: string)
    returns (r: seq<PandocOption>)
    ensures r == WithNumberingAndEngine(opts, SettingsOf(config), IsTechnicalTemplate(templatePath))
  {
    r := opts;
    if IsTechnicalTemplate(templatePath) {
      r := r + [Variable(NumberSections, Text("false"))];
    } else if TruthyAt(config.output, "numbered") {
      r := r + [NumberSectionsFlag];
    }
    r := r + [PdfEngine(Get(config.pandoc, "pdfEngine"))];
    r := r + [HighlightStyle(Get(config.markdown, "highlightStyle"))];
  }

  /** Typography settings, paper size, line spacing and microtype. */
  method PushTypography(opts: seq<PandocOption>, config: Config) returns (r: seq<PandocOption>)
    ensures r == WithTypography(opts, SettingsOf(config))
  {
    var t := config.typography;
    r := opts;
    if TruthyAt(t, "mainfont") {
      r := r + [Variable(MainFont, Get(t, "mainfont"))];
    }
    if TruthyAt(t, "sansfont") {
      r := r + [Variable(SansFont, Get(t, "sansfont"))];
    }
    if TruthyAt(t, "monofont") {
      r := r + [Variable(MonoFont, Get(t, "monofont"))];
    }
    if TruthyAt(t, "fontsize") {
      r := r + [Variable(FontSize, Get(t, "fontsize"))];
    }
    r := r + [Variable(PaperSize, Get(config.output, "papersize"))];
    if TruthyAt(t, "lineheight") {
      r := r + [Variable(LineStretch, Get(t, "lineheight"))];
    }
    if TruthyAt(t, "microtype") {
      r := r + [Variable(Microtype, Text("true"))];
    }
  }

  /** Citations, math, table formatting, language and the basic colours. */
  method PushContent(opts: seq<PandocOption>, config: Config) returns (r: seq<PandocOption>)
    ensures r == WithContent(opts, SettingsOf(config))
  {
    r := opts;
    if TruthyAt(config.markdown, "citations") {
      r := r + [Citeproc];
    }
    if TruthyAt(config.markdown, "mathSupport") {
      r := r + [Mathjax];
    }
    r := r + [Variable(Booktabs, Text("true"))];
    r := r + [Variable(Tables, Text("true"))];
    if TruthyAt(config.typography, "lang") {
      r := r + [Variable(Lang, Get(config.typography, "lang"))];
    }
    r := r + [Variable(Graphics, Text("yes"))];
    r := r + [Variable(LinkColor, Text("blue"))];
    r := r + [Variable(UrlColor, Text("blue"))];
    r := r + [Variable(TocColor, Text("black"))];
  }

  /** The geometry or the four default margins. */
  method PushMargins(opts: seq<PandocOption>, config: Config) returns (r: seq<PandocOption>)
    ensures r == WithMargins(opts, SettingsOf(config))
  {
    if TruthyAt(config.output, "geometry") {
      r := opts + [Variable(Geometry, Get(config.output, "geometry"))];
    } else {
      r := opts + [Variable(MarginLeft, Text("1in"))];
      r := r + [Variable(MarginRight, Text("1in"))];
      r := r + [Variable(MarginTop, Text("1in"))];
      r := r + [Variable(MarginBottom, Text("1in"))];
    }
  }

  /** Page style, diagrams, typesetting features, header, footer and the closing flags. */
  method PushPage(opts: seq<PandocOption>, config: Config) returns (r: seq<PandocOption>)
    ensures r == WithPage(opts, SettingsOf(config))
  {
    r := opts + [Variable(PageStyle, Get(config.output, "pagestyle"))];
    if TruthyAt(config.markdown, "diagrams") {
      r := r + [DiagramsFilter];
    }
    r := r + [Variable(Csquotes, Text("true"))];
    r := r + [Variable(ColorLinks, Text("true"))];
    r := r + [Variable(LinksAsNotes, Text("false"))];
    if TruthyAt(config.output, "header") {
      r := r + [Variable(Header, Get(config.output, "header"))];
    }
    if TruthyAt(config.output, "footer") {
      r := r + [Variable(Footer, Get(config.output, "footer"))];
    }
    r := r + [Smart];
    r := r + [Standalone];
  }

  // ---------------------------------------------------------------------------------------
  // What the command line holds

  /** The options the step for the table of contents pushes. */
  predicate TocPushes(o: PandocOption) {
    o.Toc? || o.TocDepth?
  }

  /** The options the step for numbering, engine and highlighting pushes. */
  predicate NumberingPushes(o: PandocOption) {
    o.NumberSectionsFlag? || o.PdfEngine? || o.HighlightStyle?
    || (o.Variable? && o.setting.NumberSections?)
  }

  /** The options the typography step pushes. */
  predicate TypographyPushes(o: PandocOption) {
    o.Variable? && (o.setting.MainFont? || o.setting.SansFont? || o.setting.MonoFont?
      || o.setting.FontSize? || o.setting.PaperSize? || o.setting.LineStretch? || o.setting.Microtype?)
  }

  /** The options the content step pushes. */
  predicate ContentPushes(o: PandocOption) {
    o.Citeproc? || o.Mathjax?
    || (o.Variable? && (o.setting.Booktabs? || o.setting.Tables? || o.setting.Lang?
      || o.setting.Graphics? || o.setting.LinkColor? || o.setting.UrlColor? || o.setting.TocColor?))
  }

  /** The options the margin step pushes. */
  predicate MarginPushes(o: PandocOption) {
    o.Variable? && (o.setting.Geometry? || o.setting.MarginLeft? || o.setting.MarginRight?
      || o.setting.MarginTop? || o.setting.MarginBottom?)
  }

  /** The options the page step pushes. */
  predicate PagePushes(o: PandocOption) {
    o.DiagramsFilter? || o.Smart? || o.Standalone?
    || (o.Variable? && (o.setting.PageStyle? || o.setting.Csquotes? || o.setting.ColorLinks?
      || o.setting.LinksAsNotes? || o.setting.Header? || o.setting.Footer?))
  }

  /** `b` is `a` with more options pushed after it. */
  ghost predicate Extends(a: seq<PandocOption>, b: seq<PandocOption>) {
    |a| <= |b| && forall i :: 0 <= i < |a| ==> b[i] == a[i]
  }

  lemma ExtendsTrans(a: seq<PandocOption>, b: seq<PandocOption>, c: seq<PandocOption>)
    requires Extends(a, b) && Extends(b, c)
    ensures Extends(a, c)
  {
  }

  /** The words of a longer option list begin with the words of the shorter. */
  lemma ExtendsFlatten(a: seq<PandocOption>, b: seq<PandocOption>)
    requires Extends(a, b)
    ensures Flatten(b) == Flatten(a) + Flatten(b[|a|..])
  {
    assert b == a + b[|a|..];
    FlattenAppend(a, b[|a|..]);
  }

  lemma FlattenOne(o: PandocOption)
    ensures Flatten([o]) == Words(o)
  {
    assert [o][1..] == [];
    assert Words(o) + [] == Words(o);
  }

  lemma FlattenTwo(a: PandocOption, b: PandocOption)
    ensures Flatten([a, b]) == Words(a) + Words(b)
  {
    assert [a, b][1..] == [b];
    FlattenOne(b);
  }

  /** The words of the option at `i` sit after the words of the options before it. */
  lemma FlattenAt(opts: seq<PandocOption>, i: nat)
    requires i < |opts|
    ensures var args := Flatten(opts);
      var k := |Flatten(opts[..i])|;
      k + |Words(opts[i])| <= |args| && args[k..k + |Words(opts[i])|] == Words(opts[i])
  {
    assert opts == opts[..i] + [opts[i]] + opts[i + 1..];
    FlattenAppend(opts[..i] + [opts[i]], opts[i + 1..]);
    FlattenAppend(opts[..i], [opts[i]]);
    FlattenOne(opts[i]);
  }

  /** Options at `i` and `i + 1` put their words side by side. */
  lemma FlattenAdjacent(opts: seq<PandocOption>, i: nat)
    requires i + 1 < |opts|
    ensures var args := Flatten(opts);
      var k := |Flatten(opts[..i])|;
      k + |Words(opts[i])| + |Words(opts[i + 1])| <= |args|
      && args[k..k + |Words(opts[i])| + |Words(opts[i + 1])|] == Words(opts[i]) + Words(opts[i + 1])
  {
    var a, b := opts[i], opts[i + 1];
    assert opts == opts[..i] + [a, b] + opts[i + 2..];
    FlattenAppend(opts[..i] + [a, b], opts[i + 2..]);
    FlattenAppend(opts[..i], [a, b]);
    FlattenTwo(a, b);
  }

  /** The words of options that open with the input and output files. */
  lemma FlattenHead(opts: seq<PandocOption>, inputPath: string, outputPath: string)
    requires |opts| >= 2 && opts[0] == Input(inputPath) && opts[1] == Output(outputPath)
    ensures |Flatten(opts)| >= 3 && Flatten(opts)[..3] == [inputPath, "-o", outputPath]
  {
    FlattenAdjacent(opts, 0);
    assert opts[..0] == [];
  }

  /** The words of options whose third is a template. */
  lemma FlattenTemplate(opts: seq<PandocOption>, inputPath: string, outputPath: string, templatePath: string)
    requires |opts| >= 3 && opts[0] == Input(inputPath) && opts[1] == Output(outputPath)
    requires opts[2] == Template(templatePath)
    ensures |Flatten(opts)| >= 5 && Flatten(opts)[3..5] == ["--template", templatePath]
  {
    FlattenAt(opts, 2);
    assert opts[..2] == [Input(inputPath), Output(outputPath)];
    FlattenTwo(Input(inputPath), Output(outputPath));
  }

  /** The words of options that close with `Smart` and `Standalone`. */
  lemma FlattenTail(opts: seq<PandocOption>)
    requires |opts| >= 2 && opts[|opts| - 2] == Smart && opts[|opts| - 1] == Standalone
    ensures |Flatten(opts)| >= 2 && Flatten(opts)[|Flatten(opts)| - 2..] == ["--smart", "--standalone"]
  {
    var init := opts[..|opts| - 2];
    assert opts == init + [Smart, Standalone];
    FlattenAppend(init, [Smart, Standalone]);
    FlattenTwo(Smart, Standalone);
  }

  /** A table of contents option followed by its depth gives three adjacent words. */
  lemma FlattenTocPair(opts: seq<PandocOption>, n: nat, d: Value)
    requires n + 1 < |opts| && opts[n] == Toc && opts[n + 1] == TocDepth(d)
    ensures var args := Flatten(opts);
      exists i :: 0 <= i <= |args| - 3 && args[i] == "--toc"
        && args[i + 1] == "--toc-depth" && args[i + 2] == ValueToString(d)
  {
    FlattenAdjacent(opts, n);
    var args := Flatten(opts);
    var k := |Flatten(opts[..n])|;
    var w := Words(opts[n]) + Words(opts[n + 1]);
    assert w[0] == "--toc" && w[1] == "--toc-depth" && w[2] == ValueToString(d);
    SliceAt(args, k, w);
    assert args[k] == w[0] && args[k + 1] == w[1] && args[k + 2] == w[2];
  }

  lemma TocStep(opts: seq<PandocOption>, s: Settings, x: PandocOption)
    requires s.toc ==> HasTocDepth(s)
    ensures Extends(opts, WithToc(opts, s))
    ensures !TocPushes(x) ==> (x in WithToc(opts, s) <==> x in opts)
  {
  }

  lemma NumberingStep(opts: seq<PandocOption>, s: Settings, technical: bool, x: PandocOption)
    ensures Extends(opts, WithNumberingAndEngine(opts, s, technical))
    ensures !NumberingPushes(x) ==> (x in WithNumberingAndEngine(opts, s, technical) <==> x in opts)
  {
  }

  lemma TypographyStep(opts: seq<PandocOption>, s: Settings, x: PandocOption)
    ensures Extends(opts, WithTypography(opts, s))
    ensures !TypographyPushes(x) ==> (x in WithTypography(opts, s) <==> x in opts)
  {
    TypographyExtends(opts, s);
    if !TypographyPushes(x) {
      TypographyKeeps(opts, s, x);
    }
  }

  lemma TypographyKeeps(opts: seq<PandocOption>, s: Settings, x: PandocOption)
    requires !TypographyPushes(x)
    ensures x in WithTypography(opts, s) <==> x in opts
  {
  }

  lemma TypographyExtends(opts: seq<PandocOption>, s: Settings)
    ensures Extends(opts, WithTypography(opts, s))
  {
  }

  lemma ContentStep(opts: seq<PandocOption>, s: Settings, x: PandocOption)
    ensures Extends(opts, WithContent(opts, s))
    ensures !ContentPushes(x) ==> (x in WithContent(opts, s) <==> x in opts)
  {
    ContentExtends(opts, s);
    if !ContentPushes(x) {
      ContentKeeps(opts, s, x);
    }
  }

  lemma ContentKeeps(opts: seq<PandocOption>, s: Settings, x: PandocOption)
    requires !ContentPushes(x)
    ensures x in WithContent(opts, s) <==> x in opts
  {
  }

  lemma ContentExtends(opts: seq<PandocOption>, s: Settings)
    ensures Extends(opts, WithContent(opts, s))
  {
  }

  lemma MarginStep(opts: seq<PandocOption>, s: Settings, x: PandocOption)
    ensures Extends(opts, WithMargins(opts, s))
    ensures !MarginPushes(x) ==> (x in WithMargins(opts, s) <==> x in opts)
  {
  }

  lemma PageStep(opts: seq<PandocOption>, s: Settings, x: PandocOption)
    ensures Extends(opts, WithPage(opts, s))
    ensures !PagePushes(x) ==> (x in WithPage(opts, s) <==> x in opts)
  {
    PageExtends(opts, s);
    if !PagePushes(x) {
      PageKeeps(opts, s, x);
    }
  }

  lemma PageKeeps(opts: seq<PandocOption>, s: Settings, x: PandocOption)
    requires !PagePushes(x)
    ensures x in WithPage(opts, s) <==> x in opts
  {
  }

  lemma PageExtends(opts: seq<PandocOption>, s: Settings)
    ensures Extends(opts, WithPage(opts, s))
  {
  }

  /** An option the page step does not push is on the command line iff the margins left it there. */
  lemma KeptAfterMargins(s: Settings, technical: bool, templatePath: string, inputPath: string, outputPath: string,
                         x: PandocOption)
    requires s.toc ==> HasTocDepth(s)
    requires !PagePushes(x)
    ensures x in OptionsFor(s, technical, templatePath, inputPath, outputPath) <==>
      x in MarginStage(s, technical, templatePath, inputPath, outputPath)
  {
    PageStep(MarginStage(s, technical, templatePath, inputPath, outputPath), s, x);
  }

  /** An option no later step pushes is on the command line iff the numbering step left it there. */
  lemma KeptAfterNumbering(s: Settings, technical: bool, templatePath: string, inputPath: string, outputPath: string,
                           x: PandocOption)
    requires s.toc ==> HasTocDepth(s)
    requires !TypographyPushes(x) && !ContentPushes(x) && !MarginPushes(x) && !PagePushes(x)
    ensures x in OptionsFor(s, technical, templatePath, inputPath, outputPath) <==>
      x in NumberingStage(s, technical, templatePath, inputPath, outputPath)
  {
    var numbering := NumberingStage(s, technical, templatePath, inputPath, outputPath);
    var typography := TypographyStage(s, technical, templatePath, inputPath, outputPath);
    var content := ContentStage(s, technical, templatePath, inputPath, outputPath);
    TypographyStep(numbering, s, x);
    ContentStep(typography, s, x);
    MarginStep(content, s, x);
    KeptAfterMargins(s, technical, templatePath, inputPath, outputPath, x);
  }

  /** An option no later step pushes is on the command line iff the table of contents left it there. */
  lemma KeptAfterToc(s: Settings, technical: bool, templatePath: string, inputPath: string, outputPath: string,
                     x: PandocOption)
    requires s.toc ==> HasTocDepth(s)
    requires !NumberingPushes(x) && !TypographyPushes(x) && !ContentPushes(x) && !MarginPushes(x)
      && !PagePushes(x)
    ensures x in OptionsFor(s, technical, templatePath, inputPath, outputPath) <==>
      x in TocStage(s, templatePath, inputPath, outputPath)
  {
    NumberingStep(TocStage(s, templatePath, inputPath, outputPath), s, technical, x);
    KeptAfterNumbering(s, technical, templatePath, inputPath, outputPath, x);
  }

  /** An option only the first step pushes is on the command line iff that step pushed it. */
  lemma KeptAfterFiles(s: Settings, technical: bool, templatePath: string, inputPath: string, outputPath: string,
                       x: PandocOption)
    requires s.toc ==> HasTocDepth(s)
    requires x.Input? || x.Output? || x.Template?
    ensures x in OptionsFor(s, technical, templatePath, inputPath, outputPath) <==>
      x in FileOptions(templatePath, inputPath, outputPath)
  {
    TocStep(FileOptions(templatePath, inputPath, outputPath), s, x);
    KeptAfterToc(s, technical, templatePath, inputPath, outputPath, x);
  }

  /** No step before the margins pushes a margin or the geometry. */
  lemma NoMarginBefore(s: Settings, technical: bool, templatePath: string, inputPath: string, outputPath: string,
                       x: PandocOption)
    requires s.toc ==> HasTocDepth(s)
    requires MarginPushes(x)
    ensures x !in ContentStage(s, technical, templatePath, inputPath, outputPath)
  {
    var files := FileOptions(templatePath, inputPath, outputPath);
    var toc := TocStage(s, templatePath, inputPath, outputPath);
    var numbering := NumberingStage(s, technical, templatePath, inputPath, outputPath);
    var typography := TypographyStage(s, technical, templatePath, inputPath, outputPath);
    TocStep(files, s, x);
    NumberingStep(toc, s, technical, x);
    TypographyStep(numbering, s, x);
    ContentStep(typography, s, x);
  }

  /** No step before the numbering step pushes a numbering option. */
  lemma NoNumberingBefore(s: Settings, technical: bool, templatePath: string, inputPath: string, outputPath: string,
                          x: PandocOption)
    requires s.toc ==> HasTocDepth(s)
    requires NumberingPushes(x)
    ensures x !in TocStage(s, templatePath, inputPath, outputPath)
  {
    TocStep(FileOptions(templatePath, inputPath, outputPath), s, x);
  }

  /** Every step keeps the options pushed before it. */
  lemma Extended(s: Settings, technical: bool, templatePath: string, inputPath: string, outputPath: string)
    requires s.toc ==> HasTocDepth(s)
    ensures var opts := OptionsFor(s, technical, templatePath, inputPath, outputPath);
      Extends(FileOptions(templatePath, inputPath, outputPath), opts)
      && Extends(TocStage(s, templatePath, inputPath, outputPath), opts)
  {
    var files := FileOptions(templatePath, inputPath, outputPath);
    var toc := TocStage(s, templatePath, inputPath, outputPath);
    var numbering := NumberingStage(s, technical, templatePath, inputPath, outputPath);
    var typography := TypographyStage(s, technical, templatePath, inputPath, outputPath);
    var content := ContentStage(s, technical, templatePath, inputPath, outputPath);
    var margins := MarginStage(s, technical, templatePath, inputPath, outputPath);
    var opts := OptionsFor(s, technical, templatePath, inputPath, outputPath);
    TocStep(files, s, Toc);
    NumberingStep(toc, s, technical, Toc);
    TypographyStep(numbering, s, Toc);
    ContentStep(typography, s, Toc);
    MarginStep(content, s, Toc);
    PageStep(margins, s, Toc);
    ExtendsTrans(content, margins, opts);
    ExtendsTrans(typography, content, opts);
    ExtendsTrans(numbering, typography, opts);
    ExtendsTrans(toc, numbering, opts);
    ExtendsTrans(files, toc, opts);
  }

  /** The command line fails exactly when a table of contents is wanted without a depth. */
  lemma FailsOnlyWithoutTocDepth(config: Config, templatePath: string, inputPath: string, outputPath: string)
    ensures PandocArgs(config, templatePath, inputPath, outputPath).None? <==>
      TruthyAt(config.output, "toc") && (Get(config.output, "tocDepth") in {None, Some(Null)})
  {
  }

  /** Whether the options pass a template, whichever. */
  ghost predicate HasTemplate(opts: seq<PandocOption>) {
    exists p :: Template(p) in opts
  }

  /**
   * The command line opens with the input file and `-o` with the output file, then
   * `--template` with the template path when that path is truthy.
   */
  lemma ArgsBegin(s: Settings, technical: bool, templatePath: string, inputPath: string, outputPath: string)
    requires s.toc ==> HasTocDepth(s)
    ensures var args := Flatten(OptionsFor(s, technical, templatePath, inputPath, outputPath));
      |args| >= 3 && args[..3] == [inputPath, "-o", outputPath]
      && (templatePath != "" ==> |args| >= 5 && args[3..5] == ["--template", templatePath])
  {
    var opts := OptionsFor(s, technical, templatePath, inputPath, outputPath);
    Extended(s, technical, templatePath, inputPath, outputPath);
    FlattenHead(opts, inputPath, outputPath);
    if templatePath != "" {
      FlattenTemplate(opts, inputPath, outputPath, templatePath);
    }
  }

  /** A template is passed exactly when the template path is truthy, and it is that path. */
  lemma TemplateOnlyWhenGiven(s: Settings, technical: bool, templatePath: string, inputPath: string, outputPath: string)
    requires s.toc ==> HasTocDepth(s)
    ensures var opts := OptionsFor(s, technical, templatePath, inputPath, outputPath);
      (HasTemplate(opts) <==> templatePath != "")
      && (forall p :: Template(p) in opts ==> p == templatePath)
  {
    var files := FileOptions(templatePath, inputPath, outputPath);
    var opts := OptionsFor(s, technical, templatePath, inputPath, outputPath);
    forall p ensures Template(p) in opts <==> Template(p) in files {
      KeptAfterFiles(s, technical, templatePath, inputPath, outputPath, Template(p));
    }
  }

  /** The command line closes with `--smart` and `--standalone`. */
  lemma ArgsEnd(s: Settings, technical: bool, templatePath: string, inputPath: string, outputPath: string)
    requires s.toc ==> HasTocDepth(s)
    ensures var args := Flatten(OptionsFor(s, technical, templatePath, inputPath, outputPath));
      |args| >= 2 && args[|args| - 2..] == ["--smart", "--standalone"]
  {
    FlattenTail(OptionsFor(s, technical, templatePath, inputPath, outputPath));
  }

  /** The table of contents is asked for exactly when it is wanted, and then with its depth. */
  lemma TocOnlyWhenWanted(s: Settings, technical: bool, templatePath: string, inputPath: string, outputPath: string)
    requires s.toc ==> HasTocDepth(s)
    ensures var opts := OptionsFor(s, technical, templatePath, inputPath, outputPath);
      (Toc in opts <==> s.toc) && (s.toc ==> TocDepth(s.tocDepth.value) in opts)
  {
    KeptAfterToc(s, technical, templatePath, inputPath, outputPath, Toc);
    if s.toc {
      KeptAfterToc(s, technical, templatePath, inputPath, outputPath, TocDepth(s.tocDepth.value));
    }
  }

  /** `--toc` is followed at once by `--toc-depth` and the depth. */
  lemma TocDepthFollowsToc(s: Settings, technical: bool, templatePath: string, inputPath: string, outputPath: string)
    requires s.toc && HasTocDepth(s)
    ensures var args := Flatten(OptionsFor(s, technical, templatePath, inputPath, outputPath));
      exists i :: 0 <= i <= |args| - 3 && args[i] == "--toc"
        && args[i + 1] == "--toc-depth" && args[i + 2] == ValueToString(s.tocDepth.value)
  {
    var n := |FileOptions(templatePath, inputPath, outputPath)|;
    Extended(s, technical, templatePath, inputPath, outputPath);
    FlattenTocPair(OptionsFor(s, technical, templatePath, inputPath, outputPath), n, s.tocDepth.value);
  }

  /** The technical template turns section numbering off. */
  lemma TechnicalTemplateUnnumbered(s: Settings, technical: bool, templatePath: string, inputPath: string, outputPath: string)
    requires s.toc ==> HasTocDepth(s)
    requires technical
    ensures Variable(NumberSections, Text("false")) in OptionsFor(s, technical, templatePath, inputPath, outputPath)
  {
    KeptAfterNumbering(s, technical, templatePath, inputPath, outputPath, Variable(NumberSections, Text("false")));
  }

  /** The technical template never gets `-N`. */
  lemma TechnicalTemplateNoFlag(s: Settings, technical: bool, templatePath: string, inputPath: string, outputPath: string)
    requires s.toc ==> HasTocDepth(s)
    requires technical
    ensures NumberSectionsFlag !in OptionsFor(s, technical, templatePath, inputPath, outputPath)
  {
    KeptAfterNumbering(s, technical, templatePath, inputPath, outputPath, NumberSectionsFlag);
    NoNumberingBefore(s, technical, templatePath, inputPath, outputPath, NumberSectionsFlag);
  }

  /** Any other template gets `-N` exactly when numbering is requested. */
  lemma NumberedFlag(s: Settings, technical: bool, templatePath: string, inputPath: string, outputPath: string)
    requires s.toc ==> HasTocDepth(s)
    requires !technical
    ensures NumberSectionsFlag in OptionsFor(s, technical, templatePath, inputPath, outputPath) <==> s.numbered
  {
    KeptAfterNumbering(s, technical, templatePath, inputPath, outputPath, NumberSectionsFlag);
    NoNumberingBefore(s, technical, templatePath, inputPath, outputPath, NumberSectionsFlag);
  }

  /** Only the technical template sets the `numbersections` variable. */
  lemma NumberSectionsOnlyTechnical(s: Settings, technical: bool, templatePath: string, inputPath: string, outputPath: string)
    requires s.toc ==> HasTocDepth(s)
    ensures SetsVariable(OptionsFor(s, technical, templatePath, inputPath, outputPath), NumberSections) ==>
      technical
  {
    if SetsVariable(OptionsFor(s, technical, templatePath, inputPath, outputPath), NumberSections) {
      var v :| Variable(NumberSections, v) in OptionsFor(s, technical, templatePath, inputPath, outputPath);
      var x := Variable(NumberSections, v);
      KeptAfterNumbering(s, technical, templatePath, inputPath, outputPath, x);
      NoNumberingBefore(s, technical, templatePath, inputPath, outputPath, x);
      NumberSectionsPushedOnlyTechnical(TocStage(s, templatePath, inputPath, outputPath), s, technical, v);
    }
  }

  /** Outside the technical template the numbering step pushes no `numbersections` variable. */
  lemma NumberSectionsPushedOnlyTechnical(opts: seq<PandocOption>, s: Settings, technical: bool, v: Option<Value>)
    requires Variable(NumberSections, v) in WithNumberingAndEngine(opts, s, technical)
    requires Variable(NumberSections, v) !in opts
    ensures technical
  {
  }

  /** No step before the margins pushes a margin or the geometry, whatever its value. */
  lemma NoMarginsBefore(s: Settings, technical: bool, templatePath: string, inputPath: string, outputPath: string)
    requires s.toc ==> HasTocDepth(s)
    ensures forall x :: MarginPushes(x) ==> x !in ContentStage(s, technical, templatePath, inputPath, outputPath)
  {
    forall x | MarginPushes(x) ensures x !in ContentStage(s, technical, templatePath, inputPath, outputPath) {
      NoMarginBefore(s, technical, templatePath, inputPath, outputPath, x);
    }
  }

  /** After margins pushed onto options that hold none, the geometry is set iff configured. */
  lemma GeometryAfterMargins(before: seq<PandocOption>, s: Settings)
    requires forall x :: MarginPushes(x) ==> x !in before
    ensures var opts := WithPage(WithMargins(before, s), s);
      (SetsVariable(opts, Geometry) <==> s.geometry.Some?)
      && (s.geometry.Some? ==> Variable(Geometry, s.geometry) in opts)
  {
    var margins := WithMargins(before, s);
    forall v ensures Variable(Geometry, v) in WithPage(margins, s) <==> Variable(Geometry, v) in margins {
      PageStep(margins, s, Variable(Geometry, v));
    }
  }

  /** After margins pushed onto options that hold none, the left margin is set iff no geometry is. */
  lemma LeftMarginAfterMargins(before: seq<PandocOption>, s: Settings)
    requires forall x :: MarginPushes(x) ==> x !in before
    ensures SetsVariable(WithPage(WithMargins(before, s), s), MarginLeft) <==> s.geometry.None?
  {
    var margins := WithMargins(before, s);
    forall v ensures Variable(MarginLeft, v) in WithPage(margins, s) <==> Variable(MarginLeft, v) in margins {
      PageStep(margins, s, Variable(MarginLeft, v));
    }
  }

  /** Without a geometry the margins step sets all four margins to one inch, and they stay. */
  lemma DefaultMarginsKept(before: seq<PandocOption>, s: Settings)
    requires s.geometry.None?
    ensures var opts := WithPage(WithMargins(before, s), s);
      Variable(MarginLeft, Text("1in")) in opts && Variable(MarginRight, Text("1in")) in opts
      && Variable(MarginTop, Text("1in")) in opts && Variable(MarginBottom, Text("1in")) in opts
  {
    var margins := WithMargins(before, s);
    PageStep(margins, s, Variable(MarginLeft, Text("1in")));
    PageStep(margins, s, Variable(MarginRight, Text("1in")));
    PageStep(margins, s, Variable(MarginTop, Text("1in")));
    PageStep(margins, s, Variable(MarginBottom, Text("1in")));
  }

  /** The geometry variable is set exactly when a geometry is configured, to that geometry. */
  lemma GeometryWhenConfigured(s: Settings, technical: bool, templatePath: string, inputPath: string, outputPath: string)
    requires s.toc ==> HasTocDepth(s)
    ensures var opts := OptionsFor(s, technical, templatePath, inputPath, outputPath);
      (SetsVariable(opts, Geometry) <==> s.geometry.Some?)
      && (s.geometry.Some? ==> Variable(Geometry, s.geometry) in opts)
  {
    NoMarginsBefore(s, technical, templatePath, inputPath, outputPath);
    GeometryAfterMargins(ContentStage(s, technical, templatePath, inputPath, outputPath), s);
  }

  /** Without a geometry the four margins are one inch each, and only then are they set. */
  lemma MarginsOtherwise(s: Settings, technical: bool, templatePath: string, inputPath: string, outputPath: string)
    requires s.toc ==> HasTocDepth(s)
    ensures var opts := OptionsFor(s, technical, templatePath, inputPath, outputPath);
      (SetsVariable(opts, MarginLeft) <==> s.geometry.None?)
      && (s.geometry.None? ==>
            Variable(MarginLeft, Text("1in")) in opts && Variable(MarginRight, Text("1in")) in opts
            && Variable(MarginTop, Text("1in")) in opts && Variable(MarginBottom, Text("1in")) in opts)
  {
    var content := ContentStage(s, technical, templatePath, inputPath, outputPath);
    NoMarginsBefore(s, technical, templatePath, inputPath, outputPath);
    LeftMarginAfterMargins(content, s);
    if s.geometry.None? {
      DefaultMarginsKept(content, s);
    }
  }

  // ---------------------------------------------------------------------------------------
  // processMarkdown

  /**
   * The document is a technical proposal: its own front matter or the configured output
   * names the template `technical_proposal`.
   */
  predicate IsTechnicalDocument(data: FrontMatter, config: Config) {
    data.template == Some(Str("technical_proposal"))
    || Get(config.output, "template") == Some(Str("technical_proposal"))
  }

  /** The body after the document-type preprocessing: only technical proposals are rewritten. */
  function PreparedBody(data: FrontMatter, config: Config, body: string): (r: string)
    ensures IsTechnicalDocument(data, config) ==>
      TechnicalPreprocessor.NoTripleNewline(r) && TechnicalPreprocessor.CollapseNewlines(r) == r
    ensures !IsTechnicalDocument(data, config) ==> r == body
  {
    if IsTechnicalDocument(data, config) then TechnicalPreprocessor.ProcessTechnicalDocument(body) else body
  }

  /**
   * `processMarkdown` once gray-matter has split the document into its front matter `data`
   * and its `body`; `today` and `dump` are passed on to the front-matter formatter. The
   * content is the re-emitted front matter followed by the prepared body, and the front
   * matter returned is the document's own, not the completed one.
   */
  method ProcessMarkdown(data: FrontMatter, body: string, config: Config, today: CalendarDate,
                         dump: map<string, Value> -> string)
    returns (content: string, frontMatter: FrontMatter)
    requires ValidDate(today)
    ensures frontMatter == data
    ensures exists formatted :: (Formatted(data, config, today, formatted)
      && content == ObjectToYaml(Some(ToObject(formatted)), dump) + PreparedBody(data, config, body))
    ensures |content| >= 4 && content[..4] == "---\n"
  {
    var yaml, formatted := FormatFrontMatter(data, config, today, dump);
    var processed := body;
    if IsTechnicalDocument(data, config) {
      processed := TechnicalPreprocessor.ProcessTechnicalDocument(body);
    }
    content := yaml + processed;
    frontMatter := data;
    assert content[..4] == yaml[..4];
    assert content == ObjectToYaml(Some(ToObject(formatted)), dump) + PreparedBody(data, config, body);
  }

  /**
   * A body with a run of three newlines comes out unchanged exactly when the document is
   * not a technical proposal: the preprocessor runs if and only if it is one.
   */
  lemma PreprocessedIffTechnical(data: FrontMatter, config: Config, body: string)
    requires !TechnicalPreprocessor.NoTripleNewline(body)
    ensures PreparedBody(data, config, body) == body <==> !IsTechnicalDocument(data, config)
  {
  }
}

=== FILE: frontmatter.dfy ===
/**
 * The front-matter formatter: the document's own front matter is completed with defaults
 * taken from the configuration, then framed as a YAML block for pandoc.
 */
module FrontMatterFormatter {
  import opened JsText
  import opened ConfigManager

  // ---------------------------------------------------------------------------------------
  // The current date as `new Date().toISOString().split('T')[0]`

  /** A calendar date in UTC, as the clock gives it. */
  datatype CalendarDate = CalendarDate(year: nat, month: nat, day: nat)

  /** Years with four digits, the range `toISOString` writes without a sign. */
  predicate ValidDate(d: CalendarDate) {
    d.year <= 9999 && 1 <= d.month <= 12 && 1 <= d.day <= 31
  }

  function Pow10(w: nat): (r: nat)
    ensures r >= 1
  {
    if w == 0 then 1 else 10 * Pow10(w - 1)
  }

  function Zeros(n: nat): (r: string)
    ensures |r| == n && forall k :: 0 <= k < n ==> r[k] == '0'
  {
    if n == 0 then "" else Zeros(n - 1) + "0"
  }

  /** `n` written in decimal, left-padded with zeros to at least `w` digits. */
  function Pad(n: nat, w: nat): (r: string)
    ensures forall k :: 0 <= k < |r| ==> IsDigit(r[k])
    requires w >= 1
    ensures n < Pow10(w) ==> |r| == w
  {
    var digits := NatToString(n);
    if n < Pow10(w) then
      DigitsFit(n, w);
      Zeros(w - |digits|) + digits
    else digits
  }

  lemma {:induction false} DigitsFit(n: nat, w: nat)
    requires w >= 1 && n < Pow10(w)
    ensures |NatToString(n)| <= w
    decreases n
  {
    if n >= 10 {
      assert Pow10(1) == 10;
      assert n / 10 < Pow10(w - 1);
      DigitsFit(n / 10, w - 1);
    }
  }

  /** Leading zeros do not change the value of a run of digits. */
  lemma {:induction false} ZerosValue(z: nat, s: string)
    requires forall k :: 0 <= k < |s| ==> IsDigit(s[k])
    ensures DigitsValue(Zeros(z) + s) == DigitsValue(s)
    decreases |s|, z
  {
    var t := Zeros(z) + s;
    if s == [] {
      if z > 0 {
        assert t[..|t| - 1] == Zeros(z - 1) + [];
        ZerosValue(z - 1, []);
      }
    } else {
      assert t[..|t| - 1] == Zeros(z) + s[..|s| - 1];
      ZerosValue(z, s[..|s| - 1]);
    }
  }

  lemma PadValue(n: nat, w: nat)
    requires w >= 1
    ensures DigitsValue(Pad(n, w)) == n
  {
    DigitsOfNat(n);
    if n < Pow10(w) {
      DigitsFit(n, w);
      ZerosValue(w - |NatToString(n)|, NatToString(n));
    }
  }

  /** `YYYY-MM-DD`. */
  function IsoDate(d: CalendarDate): (r: string)
    requires ValidDate(d)
    ensures |r| == 10 && r[4] == '-' && r[7] == '-'
  {
    Pad(d.year, 4) + "-" + Pad(d.month, 2) + "-" + Pad(d.day, 2)
  }

  predicate AllDigits(s: string) {
    forall k :: 0 <= k < |s| ==> IsDigit(s[k])
  }

  /** Reads `YYYY-MM-DD` back. */
  function ParseIsoDate(s: string): Option<CalendarDate> {
    if |s| == 10 && s[4] == '-' && s[7] == '-'
       && AllDigits(s[..4]) && AllDigits(s[5..7]) && AllDigits(s[8..])
    then Some(CalendarDate(DigitsValue(s[..4]), DigitsValue(s[5..7]), DigitsValue(s[8..])))
    else None
  }

  /** The date written into the front matter reads back as the date it was made from. */
  lemma IsoDateRoundTrip(d: CalendarDate)
    requires ValidDate(d)
    ensures ParseIsoDate(IsoDate(d)) == Some(d)
  {
    var s := IsoDate(d);
    var y, m, dd := Pad(d.year, 4), Pad(d.month, 2), Pad(d.day, 2);
    assert s[..4] == y;
    assert s[5..7] == m;
    assert s[8..] == dd;
    PadValue(d.year, 4);
    PadValue(d.month, 2);
    PadValue(d.day, 2);
  }

  // ---------------------------------------------------------------------------------------
  // objectToYaml

  /**
   * `objectToYaml`: `data` is `None` for `null` or `undefined`, and `dump` stands for
   * `yaml.dump`. A missing or empty object gives the empty text; any other is dumped
   * between two `---` lines followed by a blank line.
   */
  function ObjectToYaml(data: Option<map<string, Value>>, dump: map<string, Value> -> string): (r: string)
    ensures r == "" <==> data.None? || |data.value| == 0
    ensures r != "" ==>
      (|r| >= 9 && r[..4] == "---\n" && r[|r| - 5..] == "---\n\n" && r[4..|r| - 5] == dump(data.value))
  {
    if data.None? || |data.value| == 0 then ""
    else
      var r := "---\n" + dump(data.value) + "---\n\n";
      assert r[4..|r| - 5] == dump(data.value);
      r
  }

  // ---------------------------------------------------------------------------------------
  // formatFrontMatter

  /**
   * A front matter object. Each property the formatter reads or sets is a field, `None`
   * standing for a property that is not there; `rest` holds every other property, under
   * names that are none of those (`WellFormed`).
   */
  datatype FrontMatter = FrontMatter(
    title: Option<Value>, author: Option<Value>, date: Option<Value>,
    mainFont: Option<Value>, sansFont: Option<Value>, monoFont: Option<Value>,
    fontSize: Option<Value>, lineHeight: Option<Value>, lang: Option<Value>,
    paperSize: Option<Value>, geometry: Option<Value>,
    marginLeft: Option<Value>, marginRight: Option<Value>, marginTop: Option<Value>, marginBottom: Option<Value>,
    linkColor: Option<Value>, toc: Option<Value>, tocDepth: Option<Value>,
    headerIncludes: Option<Value>, numbered: Option<Value>, documentClass: Option<Value>,
    template: Option<Value>, colorLinks: Option<Value>, tables: Option<Value>, booktabs: Option<Value>,
    rest: map<string, Value>)

  /** Each field with the property name it stands for, in the order the formatter visits them. */
  function Entries(fm: FrontMatter): (es: seq<(string, Option<Value>)>)
    ensures |es| == 25
  {
    [("title", fm.title), ("author", fm.author), ("date", fm.date),
     ("mainfont", fm.mainFont), ("sansfont", fm.sansFont), ("monofont", fm.monoFont),
     ("fontsize", fm.fontSize), ("lineheight", fm.lineHeight), ("lang", fm.lang),
     ("papersize", fm.paperSize), ("geometry", fm.geometry),
     ("margin_left", fm.marginLeft), ("margin_right", fm.marginRight),
     ("margin_top", fm.marginTop), ("margin_bottom", fm.marginBottom),
     ("linkcolor", fm.linkColor), ("toc", fm.toc), ("toc_depth", fm.tocDepth),
     ("header_includes", fm.headerIncludes), ("numbered", fm.numbered),
     ("documentclass", fm.documentClass), ("template", fm.template),
     ("colorlinks", fm.colorLinks), ("tables", fm.tables), ("booktabs", fm.booktabs)]
  }

  /** `rest` does not hold a property that has a field of its own. */
  predicate WellFormed(fm: FrontMatter) {
    forall k :: 0 <= k < |Entries(fm)| ==> Entries(fm)[k].0 !in fm.rest
  }

  /** `m` with each present entry of `es` added. */
  function WithEntries(m: map<string, Value>, es: seq<(string, Option<Value>)>): map<string, Value>
    decreases |es|
  {
    if es == [] then m
    else
      var m' := if es[0].1.Some? then m[es[0].0 := es[0].1.value] else m;
      WithEntries(m', es[1..])
  }

  /** The front matter as the object `yaml.dump` receives. */
  function ToObject(fm: FrontMatter): map<string, Value> {
    WithEntries(fm.rest, Entries(fm))
  }

  /** A present entry is a property of the object, whatever follows it. */
  lemma {:induction false} WithEntriesHas(m: map<string, Value>, es: seq<(string, Option<Value>)>, k: nat)
    requires k < |es| && es[k].1.Some?
    ensures es[k].0 in WithEntries(m, es)
    decreases |es|
  {
    var m' := if es[0].1.Some? then m[es[0].0 := es[0].1.value] else m;
    if k == 0 {
      KeepsKeys(m', es[1..], es[0].0);
    } else {
      WithEntriesHas(m', es[1..], k - 1);
    }
  }

  /** Adding entries never removes a property. */
  lemma {:induction false} KeepsKeys(m: map<string, Value>, es: seq<(string, Option<Value>)>, name: string)
    requires name in m
    ensures name in WithEntries(m, es)
    decreases |es|
  {
    if es != [] {
      var m' := if es[0].1.Some? then m[es[0].0 := es[0].1.value] else m;
      KeepsKeys(m', es[1..], name);
    }
  }

  /** Entries under other names leave a property as it is. */
  lemma {:induction false} WithEntriesKeeps(m: map<string, Value>, es: seq<(string, Option<Value>)>, name: string)
    requires name in m
    requires forall k :: 0 <= k < |es| ==> es[k].0 != name
    ensures name in WithEntries(m, es) && WithEntries(m, es)[name] == m[name]
    decreases |es|
  {
    if es != [] {
      var m' := if es[0].1.Some? then m[es[0].0 := es[0].1.value] else m;
      assert forall k :: 0 <= k < |es[1..]| ==> es[1..][k] == es[k + 1];
      WithEntriesKeeps(m', es[1..], name);
    }
  }

  /**
   * The properties the formatter does not read or set reach `yaml.dump` as the document
   * gave them: the copy `{ ...frontMatter }` keeps them and no assignment touches them.
   */
  lemma OtherPropertiesKept(fm: FrontMatter, name: string)
    requires WellFormed(fm) && name in fm.rest
    ensures name in ToObject(fm) && ToObject(fm)[name] == fm.rest[name]
  {
    WithEntriesKeeps(fm.rest, Entries(fm), name);
  }

  /** A front matter with a date is a non-empty object. */
  lemma DatedIsNonEmpty(fm: FrontMatter)
    requires fm.date.Some?
    ensures |ToObject(fm)| > 0
  {
    assert Entries(fm)[2] == ("date", fm.date);
    WithEntriesHas(fm.rest, Entries(fm), 2);
  }

  /** A truthy value is kept, and a falsy one replaced by a truthy fallback. */
  function Defaulted(v: Option<Value>, fallback: Option<Value>): (r: Option<Value>)
    ensures Present(v) ==> r == v
    ensures !Present(v) && Present(fallback) ==> r == fallback
  {
    if Present(v) || !Present(fallback) then v else fallback
  }

  /** An undefined value becomes `true` when `enabled` holds. */
  function DefaultedToTrue(v: Option<Value>, enabled: bool): (r: Option<Value>)
    ensures v.Some? ==> r == v
    ensures enabled ==> r.Some?
    ensures !enabled ==> r == v
  {
    if v.None? && enabled then Some(Bool(true)) else v
  }

  /** Neither the front matter nor the configuration gives a truthy geometry. */
  predicate NoGeometry(fm: FrontMatter, config: Config) {
    !Present(fm.geometry) && !TruthyAt(config.output, "geometry")
  }

  /** A table of contents is requested, by the configuration or by `toc: true`. */
  predicate TocWanted(fm: FrontMatter, config: Config) {
    TruthyAt(config.output, "toc") || fm.toc == Some(Bool(true))
  }

  /** Tables are styled: `tables` is undefined and the configuration asks for it. */
  predicate StyleTables(fm: FrontMatter, config: Config) {
    fm.tables.None? && TruthyAt(config.markdown, "tableStyling")
  }

  /** The margin default for a missing geometry, nothing when a geometry is given. */
  function MarginDefault(fm: FrontMatter, config: Config, width: string): Option<Value> {
    if NoGeometry(fm, config) then Some(Str(width)) else None
  }

  /**
   * The completed front matter: every property the formatter manages, in terms of the
   * document's own front matter `fm`, the configuration and the date; `toc` and every
   * other property as `fm` has them.
   */
  predicate Formatted(fm: FrontMatter, config: Config, today: CalendarDate, out: FrontMatter)
    requires ValidDate(today)
  {
    && out.title == Defaulted(fm.title, Get(config.top, "title"))
    && out.author == Defaulted(fm.author, Get(config.top, "author"))
    && out.date == Defaulted(fm.date, Some(Str(IsoDate(today))))
    && out.mainFont == Defaulted(fm.mainFont, Get(config.typography, "mainfont"))
    && out.sansFont == Defaulted(fm.sansFont, Get(config.typography, "sansfont"))
    && out.monoFont == Defaulted(fm.monoFont, Get(config.typography, "monofont"))
    && out.fontSize == Defaulted(fm.fontSize, Get(config.typography, "fontsize"))
    && out.lineHeight == Defaulted(fm.lineHeight, Get(config.typography, "lineheight"))
    && out.lang == Defaulted(fm.lang, Get(config.typography, "lang"))
    && out.paperSize == Defaulted(fm.paperSize, Get(config.output, "papersize"))
    && out.geometry == Defaulted(fm.geometry, Get(config.output, "geometry"))
    && out.marginLeft == Defaulted(fm.marginLeft, MarginDefault(fm, config, "2.5cm"))
    && out.marginRight == Defaulted(fm.marginRight, MarginDefault(fm, config, "2.5cm"))
    && out.marginTop == Defaulted(fm.marginTop, MarginDefault(fm, config, "3cm"))
    && out.marginBottom == Defaulted(fm.marginBottom, MarginDefault(fm, config, "3cm"))
    && out.linkColor == Defaulted(fm.linkColor, Some(Str("blue")))
    && out.toc == fm.toc
    && out.tocDepth ==
         (if TocWanted(fm, config) && !Present(fm.tocDepth) then Get(config.output, "tocDepth") else fm.tocDepth)
    && out.headerIncludes == Defaulted(fm.headerIncludes, Get(config.top, "headerIncludes"))
    && out.numbered == DefaultedToTrue(fm.numbered, TruthyAt(config.output, "numbered"))
    && out.documentClass == Defaulted(fm.documentClass, Get(config.output, "documentclass"))
    && out.template == Defaulted(fm.template, Get(config.output, "template"))
    && out.colorLinks == DefaultedToTrue(fm.colorLinks, true)
    && out.tables == DefaultedToTrue(fm.tables, StyleTables(fm, config))
    && out.booktabs == (if StyleTables(fm, config) then Some(Bool(true)) else fm.booktabs)
    && out.rest == fm.rest
  }

  /**
   * `formatFrontMatter`: `today` is the current date and `dump` stands for `yaml.dump`.
   * The front matter is copied, completed property by property in the order of the source,
   * and framed by `objectToYaml`. Assigning an `undefined` depth leaves `toc_depth` out,
   * which is what `yaml.dump` does with an `undefined` property.
   */
  method FormatFrontMatter(frontMatter: FrontMatter, config: Config, today: CalendarDate,
                           dump: map<string, Value> -> string)
    returns (yaml: string, formatted: FrontMatter)
    requires ValidDate(today)
    ensures Formatted(frontMatter, config, today, formatted)
    ensures yaml == ObjectToYaml(Some(ToObject(formatted)), dump)
    ensures yaml != "" && yaml[..4] == "---\n"
  {
    formatted := CompleteFrontMatter(frontMatter, config, today);
    FormattedHasDate(frontMatter, config, today, formatted);
    yaml := DumpDated(formatted, dump);
  }

  /** The copy of the front matter completed property by property, in the order of the source. */
  method CompleteFrontMatter(frontMatter: FrontMatter, config: Config, today: CalendarDate)
    returns (formatted: FrontMatter)
    requires ValidDate(today)
    ensures Formatted(frontMatter, config, today, formatted)
  {
    var f1 := FillDocument(frontMatter, config, today);
    var f2 := FillFonts(f1, config);
    var f3 := FillText(f2, config);
    var f4 := FillGeometry(f3, config);
    var f5 := FillNavigation(f4, config);
    var f6 := FillClass(f5, config);
    formatted := FillStyling(f6, config);
  }

  /** `objectToYaml` on a front matter with a date, which is never empty. */
  method DumpDated(fm: FrontMatter, dump: map<string, Value> -> string) returns (yaml: string)
    requires fm.date.Some?
    ensures yaml == ObjectToYaml(Some(ToObject(fm)), dump)
    ensures yaml != "" && yaml[..4] == "---\n"
  {
    DatedIsNonEmpty(fm);
    yaml := ObjectToYaml(Some(ToObject(fm)), dump);
  }

  /** Title, author and date; the date condition of the source tests the same property twice. */
  method FillDocument(f: FrontMatter, config: Config, today: CalendarDate) returns (r: FrontMatter)
    requires ValidDate(today)
    ensures r.title == Defaulted(f.title, Get(config.top, "title"))
    ensures r.author == Defaulted(f.author, Get(config.top, "author"))
    ensures r.date == Defaulted(f.date, Some(Str(IsoDate(today))))
    ensures r == f.(title := r.title, author := r.author, date := r.date)
  {
    r := f;
    if !Present(r.title) && TruthyAt(config.top, "title") {
      r := r.(title := Some(config.top["title"]));
    }
    if !Present(r.author) && TruthyAt(config.top, "author") {
      r := r.(author := Some(config.top["author"]));
    }
    if !Present(r.date) && !Present(r.date) {
      r := r.(date := Some(Str(IsoDate(today))));
    }
  }

  /** The three font families. */
  method FillFonts(f: FrontMatter, config: Config) returns (r: FrontMatter)
    ensures r.mainFont == Defaulted(f.mainFont, Get(config.typography, "mainfont"))
    ensures r.sansFont == Defaulted(f.sansFont, Get(config.typography, "sansfont"))
    ensures r.monoFont == Defaulted(f.monoFont, Get(config.typography, "monofont"))
    ensures r == f.(mainFont := r.mainFont, sansFont := r.sansFont, monoFont := r.monoFont)
  {
    r := f;
    if !Present(r.mainFont) && TruthyAt(config.typography, "mainfont") {
      r := r.(mainFont := Some(config.typography["mainfont"]));
    }
    if !Present(r.sansFont) && TruthyAt(config.typography, "sansfont") {
      r := r.(sansFont := Some(config.typography["sansfont"]));
    }
    if !Present(r.monoFont) && TruthyAt(config.typography, "monofont") {
      r := r.(monoFont := Some(config.typography["monofont"]));
    }
  }

  /** Font size, line height, language and paper size. */
  method FillText(f: FrontMatter, config: Config) returns (r: FrontMatter)
    ensures r.fontSize == Defaulted(f.fontSize, Get(config.typography, "fontsize"))
    ensures r.lineHeight == Defaulted(f.lineHeight, Get(config.typography, "lineheight"))
    ensures r.lang == Defaulted(f.lang, Get(config.typography, "lang"))
    ensures r.paperSize == Defaulted(f.paperSize, Get(config.output, "papersize"))
    ensures r == f.(fontSize := r.fontSize, lineHeight := r.lineHeight, lang := r.lang, paperSize := r.paperSize)
  {
    r := f;
    if !Present(r.fontSize) && TruthyAt(config.typography, "fontsize") {
      r := r.(fontSize := Some(config.typography["fontsize"]));
    }
    if !Present(r.lineHeight) && TruthyAt(config.typography, "lineheight") {
      r := r.(lineHeight := Some(config.typography["lineheight"]));
    }
    if !Present(r.lang) && TruthyAt(config.typography, "lang") {
      r := r.(lang := Some(config.typography["lang"]));
    }
    if !Present(r.paperSize) && TruthyAt(config.output, "papersize") {
      r := r.(paperSize := Some(config.output["papersize"]));
    }
  }

  /**
   * A truthy geometry of the document's own is kept, else a truthy configured geometry is
   * taken, else each falsy margin gets its default.
   */
  method FillGeometry(f: FrontMatter, config: Config) returns (r: FrontMatter)
    ensures r.geometry == Defaulted(f.geometry, Get(config.output, "geometry"))
    ensures r.marginLeft == Defaulted(f.marginLeft, MarginDefault(f, config, "2.5cm"))
    ensures r.marginRight == Defaulted(f.marginRight, MarginDefault(f, config, "2.5cm"))
    ensures r.marginTop == Defaulted(f.marginTop, MarginDefault(f, config, "3cm"))
    ensures r.marginBottom == Defaulted(f.marginBottom, MarginDefault(f, config, "3cm"))
    ensures r == f.(geometry := r.geometry, marginLeft := r.marginLeft, marginRight := r.marginRight,
                    marginTop := r.marginTop, marginBottom := r.marginBottom)
  {
    r := f;
    if Present(r.geometry) {
      // the document's own geometry is kept
    } else if TruthyAt(config.output, "geometry") {
      r := r.(geometry := Some(config.output["geometry"]));
    } else {
      if !Present(r.marginLeft) {
        r := r.(marginLeft := Some(Str("2.5cm")));
      }
      if !Present(r.marginRight) {
        r := r.(marginRight := Some(Str("2.5cm")));
      }
      if !Present(r.marginTop) {
        r := r.(marginTop := Some(Str("3cm")));
      }
      if !Present(r.marginBottom) {
        r := r.(marginBottom := Some(Str("3cm")));
      }
    }
  }

  /**
   * Link colour, `toc_depth` (taken from the configuration when a table of contents is
   * wanted and the document gives no truthy depth) and header includes.
   */
  method FillNavigation(f: FrontMatter, config: Config) returns (r: FrontMatter)
    ensures r.linkColor == Defaulted(f.linkColor, Some(Str("blue")))
    ensures r.tocDepth ==
      if TocWanted(f, config) && !Present(f.tocDepth) then Get(config.output, "tocDepth") else f.tocDepth
    ensures r.headerIncludes == Defaulted(f.headerIncludes, Get(config.top, "headerIncludes"))
    ensures r == f.(linkColor := r.linkColor, tocDepth := r.tocDepth, headerIncludes := r.headerIncludes)
  {
    r := f;
    if !Present(r.linkColor) {
      r := r.(linkColor := Some(Str("blue")));
    }
    if (TruthyAt(config.output, "toc") || r.toc == Some(Bool(true))) && !Present(r.tocDepth) {
      r := r.(tocDepth := Get(config.output, "tocDepth"));
    }
    if Present(r.headerIncludes) {
      // the document's own header includes are kept
    } else if TruthyAt(config.top, "headerIncludes") {
      r := r.(headerIncludes := Some(config.top["headerIncludes"]));
    }
  }

  /** Section numbering, document class and template. */
  method FillClass(f: FrontMatter, config: Config) returns (r: FrontMatter)
    ensures r.numbered == DefaultedToTrue(f.numbered, TruthyAt(config.output, "numbered"))
    ensures r.documentClass == Defaulted(f.documentClass, Get(config.output, "documentclass"))
    ensures r.template == Defaulted(f.template, Get(config.output, "template"))
    ensures r == f.(numbered := r.numbered, documentClass := r.documentClass, template := r.template)
  {
    r := f;
    if r.numbered.None? && TruthyAt(config.output, "numbered") {
      r := r.(numbered := Some(Bool(true)));
    }
    if !Present(r.documentClass) && TruthyAt(config.output, "documentclass") {
      r := r.(documentClass := Some(config.output["documentclass"]));
    }
    if !Present(r.template) && TruthyAt(config.output, "template") {
      r := r.(template := Some(config.output["template"]));
    }
  }

  /** `colorlinks`, then `tables` and `booktabs`, both set when tables are to be styled. */
  method FillStyling(f: FrontMatter, config: Config) returns (r: FrontMatter)
    ensures r.colorLinks == DefaultedToTrue(f.colorLinks, true)
    ensures r.tables == DefaultedToTrue(f.tables, StyleTables(f, config))
    ensures r.booktabs == if StyleTables(f, config) then Some(Bool(true)) else f.booktabs
    ensures r == f.(colorLinks := r.colorLinks, tables := r.tables, booktabs := r.booktabs)
  {
    r := f;
    if r.colorLinks.None? {
      r := r.(colorLinks := Some(Bool(true)));
    }
    if r.tables.None? && TruthyAt(config.markdown, "tableStyling") {
      r := r.(tables := Some(Bool(true)));
      r := r.(booktabs := Some(Bool(true)));
    }
  }

  /** The formatted front matter always holds a truthy date: the document's own, else today's. */
  lemma FormattedHasDate(fm: FrontMatter, config: Config, today: CalendarDate, out: FrontMatter)
    requires ValidDate(today) && Formatted(fm, config, today, out)
    ensures Present(out.date)
    ensures Present(fm.date) ==> out.date == fm.date
    ensures !Present(fm.date) ==> out.date == Some(Str(IsoDate(today))) && ParseIsoDate(IsoDate(today)) == Some(today)
  {
    DefaultedDate(fm.date, today, out.date);
  }

  lemma DefaultedDate(d: Option<Value>, today: CalendarDate, r: Option<Value>)
    requires ValidDate(today) && r == Defaulted(d, Some(Str(IsoDate(today))))
    ensures Present(r)
    ensures Present(d) ==> r == d
    ensures !Present(d) ==> r == Some(Str(IsoDate(today))) && ParseIsoDate(IsoDate(today)) == Some(today)
  {
    IsoDateRoundTrip(today);
  }

  /** A truthy value of the document's own wins over every configured default. */
  lemma DocumentValuesWin(fm: FrontMatter, config: Config, today: CalendarDate, out: FrontMatter)
    requires ValidDate(today) && Formatted(fm, config, today, out)
    ensures Present(fm.title) ==> out.title == fm.title
    ensures Present(fm.author) ==> out.author == fm.author
    ensures Present(fm.mainFont) ==> out.mainFont == fm.mainFont
    ensures Present(fm.lang) ==> out.lang == fm.lang
    ensures Present(fm.paperSize) ==> out.paperSize == fm.paperSize
    ensures Present(fm.geometry) ==> out.geometry == fm.geometry
    ensures Present(fm.template) ==> out.template == fm.template
    ensures fm.numbered.Some? ==> out.numbered == fm.numbered
    ensures fm.colorLinks.Some? ==> out.colorLinks == fm.colorLinks
    ensures fm.tables.Some? ==> out.tables == fm.tables && out.booktabs == fm.booktabs
  {
  }

  /** A falsy value of the document's own gives way to a truthy configured one. */
  lemma ConfigFillsGaps(fm: FrontMatter, config: Config, today: CalendarDate, out: FrontMatter)
    requires ValidDate(today) && Formatted(fm, config, today, out)
    ensures !Present(fm.title) && TruthyAt(config.top, "title") ==> out.title == Some(config.top["title"])
    ensures !Present(fm.mainFont) && TruthyAt(config.typography, "mainfont") ==>
      out.mainFont == Some(config.typography["mainfont"])
    ensures !Present(fm.paperSize) && TruthyAt(config.output, "papersize") ==>
      out.paperSize == Some(config.output["papersize"])
    ensures !Present(fm.template) && TruthyAt(config.output, "template") ==>
      out.template == Some(config.output["template"])
    ensures !Present(fm.linkColor) ==> out.linkColor == Some(Str("blue"))
  {
  }

  /**
   * The page is laid out either by a truthy geometry or by four truthy margins; when a
   * geometry is given, the margins are left as the document has them.
   */
  lemma GeometryOrMargins(fm: FrontMatter, config: Config, today: CalendarDate, out: FrontMatter)
    requires ValidDate(today) && Formatted(fm, config, today, out)
    ensures Present(out.geometry) || (Present(out.marginLeft) && Present(out.marginRight)
                                      && Present(out.marginTop) && Present(out.marginBottom))
    ensures Present(out.geometry) ==> out.marginLeft == fm.marginLeft && out.marginRight == fm.marginRight
                                      && out.marginTop == fm.marginTop && out.marginBottom == fm.marginBottom
  {
  }

  /** `toc_depth` changes only when a table of contents is wanted and no truthy depth is given. */
  lemma TocDepthOnlyWhenWanted(fm: FrontMatter, config: Config, today: CalendarDate, out: FrontMatter)
    requires ValidDate(today) && Formatted(fm, config, today, out)
    ensures out.tocDepth != fm.tocDepth ==>
      TocWanted(fm, config) && !Present(fm.tocDepth) && out.tocDepth == Get(config.output, "tocDepth")
    ensures Present(fm.tocDepth) ==> out.tocDepth == fm.tocDepth
  {
  }

  /** `tables` and `booktabs` are set together or not at all. */
  lemma TablesWithBooktabs(fm: FrontMatter, config: Config, today: CalendarDate, out: FrontMatter)
    requires ValidDate(today) && Formatted(fm, config, today, out)
    ensures out.tables != fm.tables <==> StyleTables(fm, config)
    ensures out.tables != fm.tables ==> out.tables == Some(Bool(true)) && out.booktabs == Some(Bool(true))
    ensures out.tables == fm.tables ==> out.booktabs == fm.booktabs
  {
  }

  /** Formatting a formatted front matter again, with the same settings, changes nothing. */
  lemma {:induction false} FormattingIsIdempotent(fm: FrontMatter, config: Config, today: CalendarDate,
                                                  out: FrontMatter, again: FrontMatter)
    requires ValidDate(today)
    requires Formatted(fm, config, today, out) && Formatted(out, config, today, again)
    ensures again == out
  {
    DefaultsSettle(fm, config, today, out, again);
    assert NoGeometry(out, config) == NoGeometry(fm, config);
    assert StyleTables(out, config) ==> StyleTables(fm, config);
    LayoutSettles(fm, config, today, out, again);
  }

  /** A second pass keeps every property that a truthy fallback completes. */
  lemma DefaultsSettle(fm: FrontMatter, config: Config, today: CalendarDate, out: FrontMatter, again: FrontMatter)
    requires ValidDate(today)
    requires Formatted(fm, config, today, out) && Formatted(out, config, today, again)
    ensures again.title == out.title && again.author == out.author && again.date == out.date
    ensures again.mainFont == out.mainFont && again.sansFont == out.sansFont && again.monoFont == out.monoFont
    ensures again.fontSize == out.fontSize && again.lineHeight == out.lineHeight && again.lang == out.lang
    ensures again.paperSize == out.paperSize && again.geometry == out.geometry && again.linkColor == out.linkColor
    ensures again.headerIncludes == out.headerIncludes && again.documentClass == out.documentClass
    ensures again.template == out.template
  {
  }

  /** A second pass keeps the margins, the navigation and the switches set by the first. */
  lemma LayoutSettles(fm: FrontMatter, config: Config, today: CalendarDate, out: FrontMatter, again: FrontMatter)
    requires ValidDate(today)
    requires Formatted(fm, config, today, out) && Formatted(out, config, today, again)
    requires NoGeometry(out, config) == NoGeometry(fm, config)
    requires StyleTables(out, config) ==> StyleTables(fm, config)
    ensures again.marginLeft == out.marginLeft && again.marginRight == out.marginRight
    ensures again.marginTop == out.marginTop && again.marginBottom == out.marginBottom
    ensures again.toc == out.toc && again.tocDepth == out.tocDepth && again.numbered == out.numbered
    ensures again.colorLinks == out.colorLinks && again.tables == out.tables && again.booktabs == out.booktabs
    ensures again.rest == out.rest
  {
  }
}

=== FILE: js_text.dfy ===
/**
 * The pieces of JavaScript's string and value semantics that the converter relies on:
 * the character classes of regular expressions (`\s`, `.`, `\d`), `trim`, `split`,
 * `includes`, `parseInt(_, 10)`, `Number.prototype.toString`, truthiness, and the
 * dotted-path lookup `key.split('.').reduce((obj, k) => obj && obj[k], root)`.
 */
module JsText {

  datatype Option<+T> = None | Some(value: T)

  // ---------------------------------------------------------------------------------------
  // Sequence identities, stated once so that proofs elsewhere need not rederive them

  lemma AppendAssoc<T>(x: seq<T>, y: seq<T>, z: seq<T>)
    ensures x + (y + z) == x + y + z
  {
  }

  lemma TakeDrop<T>(s: seq<T>, n: nat)
    requires n <= |s|
    ensures s[..n] + s[n..] == s
  {
  }

  lemma AppendParts<T>(a: seq<T>, b: seq<T>)
    ensures (a + b)[..|a|] == a && (a + b)[|a|..] == b
  {
  }

  lemma AppendTail<T>(a: seq<T>, b: seq<T>)
    requires a != []
    ensures (a + b)[0] == a[0] && (a + b)[1..] == a[1..] + b
  {
  }

  lemma PrefixParts<T>(s: seq<T>, x: seq<T>, n: nat)
    requires n <= |s|
    ensures (s + x)[..n] == s[..n] && (s + x)[n..] == s[n..] + x
  {
  }

  lemma DropDrop<T>(s: seq<T>, d: nat, k: nat)
    requires d + k <= |s|
    ensures s[d..][k..] == s[d + k..]
  {
  }

  lemma SliceOfDrop<T>(s: seq<T>, d: nat, i: nat, j: nat)
    requires i <= j && d + j <= |s|
    ensures s[d..][i..j] == s[d + i..d + j]
  {
  }

  lemma SplitAt<T>(s: seq<T>, k: nat)
    requires k < |s|
    ensures s[..k] + [s[k]] + s[k + 1..] == s
  {
    assert s[..k + 1] == s[..k] + [s[k]];
    TakeDrop(s, k + 1);
  }

  lemma TakeNext<T>(s: seq<T>, j: nat)
    requires j < |s|
    ensures s[..j + 1] == s[..j] + [s[j]]
  {
  }

  lemma SliceAt<T>(s: seq<T>, k: nat, w: seq<T>)
    requires k + |w| <= |s| && s[k..k + |w|] == w
    ensures forall j :: 0 <= j < |w| ==> s[k + j] == w[j]
  {
    forall j | 0 <= j < |w| ensures s[k + j] == w[j] {
      assert s[k..k + |w|][j] == s[k + j];
    }
  }

  lemma MiddleSlice<T>(p: seq<T>, w: seq<T>, r: seq<T>)
    ensures (p + w + r)[|p|..|p| + |w|] == w
  {
  }

  lemma HeadTail<T>(s: seq<T>)
    requires s != []
    ensures [s[0]] + s[1..] == s
  {
  }

  /** The characters after which a multiline `^` may match, and which `.` refuses. */
  predicate IsLineTerminator(c: char) {
    c == '\n' || c == '\r' || c == '\U{2028}' || c == '\U{2029}'
  }

  predicate NotLineTerminator(c: char) {
    !IsLineTerminator(c)
  }

  /** The regular-expression class `\s`, which is also what `trim` removes. */
  predicate IsJsSpace(c: char) {
    || c == '\t' || c == '\n' || c == '\U{000B}' || c == '\U{000C}' || c == '\r' || c == ' '
    || c == '\U{00A0}' || c == '\U{1680}' || ('\U{2000}' <= c <= '\U{200A}')
    || c == '\U{2028}' || c == '\U{2029}' || c == '\U{202F}' || c == '\U{205F}'
    || c == '\U{3000}' || c == '\U{FEFF}'
  }

  predicate IsSpace(c: char) {
    c == ' '
  }

  predicate IsNewline(c: char) {
    c == '\n'
  }

  predicate IsDigit(c: char) {
    '0' <= c <= '9'
  }

  predicate IsAsciiLower(c: char) {
    'a' <= c <= 'z'
  }

  predicate IsAsciiUpper(c: char) {
    'A' <= c <= 'Z'
  }

  /** End of the longest run of characters satisfying `p` that starts at `i`. */
  function Span(t: string, i: nat, p: char -> bool): (r: nat)
    requires i <= |t|
    ensures i <= r <= |t|
    ensures forall k :: i <= k < r ==> p(t[k])
    ensures r < |t| ==> !p(t[r])
    decreases |t| - i
  {
    if i < |t| && p(t[i]) then Span(t, i + 1, p) else i
  }

  /** A run found inside `t` is found the same way in any extension of `t`. */
  lemma {:induction false} SpanAppend(t: string, x: string, i: nat, p: char -> bool)
    requires i <= |t|
    requires Span(t, i, p) < |t| || x == [] || !p(x[0])
    ensures Span(t + x, i, p) == Span(t, i, p)
    decreases |t| - i
  {
    if i < |t| && p(t[i]) {
      SpanAppend(t, x, i + 1, p);
    } else if i == |t| && x != [] {
      assert (t + x)[i] == x[0];
    }
  }

  /** `Span` is determined by its postconditions. */
  lemma SpanIs(t: string, i: nat, p: char -> bool, j: nat)
    requires i <= j <= |t|
    requires forall k :: i <= k < j ==> p(t[k])
    requires j < |t| ==> !p(t[j])
    ensures Span(t, i, p) == j
  {
  }

  /** Index of the first `'\n'` at or after `i`, or `|t|` when there is none. */
  function LineEnd(t: string, i: nat): (r: nat)
    requires i <= |t|
    ensures i <= r <= |t|
    ensures forall k :: i <= k < r ==> t[k] != '\n'
    ensures r < |t| ==> t[r] == '\n'
  {
    Span(t, i, c => c != '\n')
  }

  predicate StartsWith(s: string, prefix: string) {
    |prefix| <= |s| && s[..|prefix|] == prefix
  }

  predicate EndsWith(s: string, suffix: string) {
    |suffix| <= |s| && s[|s| - |suffix|..] == suffix
  }

  predicate OccursAt(s: string, pat: string, k: nat) {
    k + |pat| <= |s| && s[k..k + |pat|] == pat
  }

  /** A suffix that starts with `pat` puts `pat` at the position the suffix starts. */
  lemma StartsWithAt(s: string, pat: string, k: nat)
    requires k <= |s| && StartsWith(s[k..], pat)
    ensures OccursAt(s, pat, k)
  {
    SliceOfDrop(s, k, 0, |pat|);
  }

  /** `s.indexOf(pat, i)`, as an option. */
  function FindFrom(s: string, pat: string, i: nat): (r: Option<nat>)
    requires i <= |s|
    ensures r.Some? ==> i <= r.value && OccursAt(s, pat, r.value)
    ensures r.Some? ==> forall k :: i <= k < r.value ==> !OccursAt(s, pat, k)
    ensures r.None? ==> forall k :: i <= k <= |s| ==> !OccursAt(s, pat, k)
    decreases |s| - i
  {
    if OccursAt(s, pat, i) then Some(i)
    else if i == |s| then None
    else FindFrom(s, pat, i + 1)
  }

  /** `FindFrom` is determined by its postconditions. */
  lemma FindFromIs(s: string, pat: string, i: nat, f: nat)
    requires i <= f && OccursAt(s, pat, f)
    requires forall k :: i <= k < f ==> !OccursAt(s, pat, k)
    ensures FindFrom(s, pat, i) == Some(f)
  {
  }

  /** `s.includes(pat)`. */
  function Includes(s: string, pat: string): (b: bool)
    ensures b <==> exists k: nat :: OccursAt(s, pat, k)
  {
    FindFrom(s, pat, 0).Some?
  }

  predicate AllJsSpace(s: string) {
    forall k :: 0 <= k < |s| ==> IsJsSpace(s[k])
  }

  /** `s.trimStart()`. */
  function TrimStart(s: string): (r: string)
    ensures EndsWith(s, r)
    ensures r == [] || !IsJsSpace(r[0])
    ensures AllJsSpace(s[..|s| - |r|])
  {
    s[Span(s, 0, IsJsSpace)..]
  }

  /** `s.trimEnd()`. */
  function TrimEnd(s: string): (r: string)
    ensures StartsWith(s, r)
    ensures r == [] || !IsJsSpace(r[|r| - 1])
    ensures forall k :: |r| <= k < |s| ==> IsJsSpace(s[k])
    decreases |s|
  {
    if s != [] && IsJsSpace(s[|s| - 1]) then TrimEnd(s[..|s| - 1]) else s
  }

  /** `s.trim()`. */
  function Trim(s: string): string {
    TrimEnd(TrimStart(s))
  }

  /** `s.trim() === ''`. */
  predicate IsBlank(s: string) {
    Trim(s) == []
  }

  lemma BlankIsAllSpace(s: string)
    ensures IsBlank(s) <==> AllJsSpace(s)
  {
    var r := Span(s, 0, IsJsSpace);
    var a := TrimStart(s);
    if !AllJsSpace(s) {
      var k :| 0 <= k < |s| && !IsJsSpace(s[k]);
      assert a[k - r] == s[k];
      var b := TrimEnd(a);
      assert IsJsSpace(a[k - r]) || |b| > k - r;
    }
  }

  /** Lower-cases ASCII letters and leaves every other character alone. */
  function ToLowerAscii(s: string): (r: string)
    ensures |r| == |s|
    ensures forall k :: 0 <= k < |s| ==> r[k] == if IsAsciiUpper(s[k]) then (s[k] as int + 32) as char else s[k]
  {
    seq(|s|, k requires 0 <= k < |s| => if IsAsciiUpper(s[k]) then (s[k] as int + 32) as char else s[k])
  }

  // ---------------------------------------------------------------------------------------
  // POSIX path names

  /** `p` without its trailing `'/'` characters. */
  function DropTrailingSlashes(p: string): (r: string)
    ensures StartsWith(p, r) && (r == [] || r[|r| - 1] != '/')
    ensures forall k :: |r| <= k < |p| ==> p[k] == '/'
    decreases |p|
  {
    if p != [] && p[|p| - 1] == '/' then DropTrailingSlashes(p[..|p| - 1]) else p
  }

  /** The characters of `p` after its last `c`, or all of `p` when there is none. */
  function AfterLast(p: string, c: char): (r: string)
    ensures EndsWith(p, r) && c !in r
    ensures |r| < |p| ==> p[|p| - |r| - 1] == c
    decreases |p|
  {
    if p == [] || p[|p| - 1] == c then [] else AfterLast(p[..|p| - 1], c) + [p[|p| - 1]]
  }

  /** `path.basename(p)`: the last segment, trailing separators ignored. */
  function Basename(p: string): (r: string)
    ensures '/' !in r
  {
    AfterLast(DropTrailingSlashes(p), '/')
  }

  // ---------------------------------------------------------------------------------------
  // `split` and `join` with a one-character separator

  /** `s.split(sep)` for a one-character separator: always at least one piece. */
  function Split(s: string, sep: char): (r: seq<string>)
    ensures |r| >= 1
    ensures forall i :: 0 <= i < |r| ==> sep !in r[i]
    decreases |s|
  {
    var k := Span(s, 0, c => c != sep);
    if k == |s| then [s] else [s[..k]] + Split(s[k + 1..], sep)
  }

  /** The first piece of a split is the text up to the first separator. */
  lemma SplitFirst(l: string, sep: char, x: string)
    requires sep !in l
    ensures Split(l + [sep] + x, sep) == [l] + Split(x, sep)
  {
    var t := l + [sep] + x;
    SpanIs(t, 0, c => c != sep, |l|);
    PrefixParts(l + [sep], x, |l|);
    AppendParts(l, [sep]);
    AppendParts(l + [sep], x);
  }

  /** `parts.join(sep)`. */
  function Join(parts: seq<string>, sep: char): string
    decreases |parts|
  {
    if parts == [] then []
    else if |parts| == 1 then parts[0]
    else parts[0] + [sep] + Join(parts[1..], sep)
  }

  lemma {:induction false} JoinSplit(s: string, sep: char)
    ensures Join(Split(s, sep), sep) == s
    decreases |s|
  {
    var k := Span(s, 0, c => c != sep);
    if k < |s| {
      JoinSplit(s[k + 1..], sep);
      AppendParts([s[..k]], Split(s[k + 1..], sep));
      SplitAt(s, k);
    }
  }

  lemma {:induction false} SplitJoin(parts: seq<string>, sep: char)
    requires |parts| >= 1
    requires forall i :: 0 <= i < |parts| ==> sep !in parts[i]
    ensures Split(Join(parts, sep), sep) == parts
    decreases |parts|
  {
    if |parts| > 1 {
      SplitFirst(parts[0], sep, Join(parts[1..], sep));
      SplitJoin(parts[1..], sep);
      HeadTail(parts);
    }
  }

  // ---------------------------------------------------------------------------------------
  // Numbers: `String(n)` for integers and `parseInt(s, 10)`

  function DigitChar(d: nat): char
    requires d < 10
  {
    ('0' as int + d) as char
  }

  function DigitValue(c: char): nat
    requires IsDigit(c)
  {
    c as int - '0' as int
  }

  /** Decimal digits of `n`, most significant first, without leading zeros. */
  function NatToString(n: nat): (r: string)
    ensures |r| >= 1
    ensures forall k :: 0 <= k < |r| ==> IsDigit(r[k])
    decreases n
  {
    if n < 10 then [DigitChar(n)] else NatToString(n / 10) + [DigitChar(n % 10)]
  }

  /** `String(n)` for an integral JavaScript number. */
  function IntToString(n: int): string {
    if n < 0 then "-" + NatToString(-n) else NatToString(n)
  }

  /** Value of a run of decimal digits. */
  function DigitsValue(s: string): nat
    requires forall k :: 0 <= k < |s| ==> IsDigit(s[k])
    decreases |s|
  {
    if s == [] then 0 else DigitsValue(s[..|s| - 1]) * 10 + DigitValue(s[|s| - 1])
  }

  /**
   * `parseInt(s, 10)`: leading white space is skipped, one optional sign is read, then the
   * longest run of decimal digits; `None` stands for `NaN` (no digit at all).
   */
  function ParseInt(s: string): Option<int> {
    var i := Span(s, 0, IsJsSpace);
    var negative := i < |s| && s[i] == '-';
    var j := if i < |s| && (s[i] == '-' || s[i] == '+') then i + 1 else i;
    var e := Span(s, j, IsDigit);
    if e == j then None
    else
      var v: int := DigitsValue(s[j..e]);
      Some(if negative then -v else v)
  }

  lemma {:induction false} DigitsOfNat(n: nat)
    ensures DigitsValue(NatToString(n)) == n
    decreases n
  {
    var r := NatToString(n);
    if n >= 10 {
      DigitsOfNat(n / 10);
      assert r[..|r| - 1] == NatToString(n / 10);
    }
  }

  /** `String(n)` for a natural number is a canonical array index, naming `n` again. */
  lemma {:induction false} NatToStringIsIndex(n: nat)
    ensures IsIndexKey(NatToString(n)) && DigitsValue(NatToString(n)) == n
    ensures n >= 1 ==> NatToString(n)[0] != '0'
    decreases n
  {
    DigitsOfNat(n);
    if n >= 10 {
      NatToStringIsIndex(n / 10);
      assert NatToString(n)[0] == NatToString(n / 10)[0];
    }
  }

  /** Reading back what `IntToString` printed gives the number again. */
  lemma ParseIntToString(n: int)
    ensures ParseInt(IntToString(n)) == Some(n)
  {
    var s := IntToString(n);
    var digits := NatToString(if n < 0 then -n else n);
    var j := if n < 0 then 1 else 0;
    assert s[j..] == digits;
    assert !IsJsSpace(s[0]);
    assert Span(s, 0, IsJsSpace) == 0;
    forall q | j <= q < |s| ensures IsDigit(s[q]) {
      assert s[q] == digits[q - j];
    }
    assert Span(s, j, IsDigit) == |s|;
    assert s[j..|s|] == digits;
    DigitsOfNat(if n < 0 then -n else n);
  }

  // ---------------------------------------------------------------------------------------
  // JavaScript values as they appear in configuration and front matter

  /**
   * A JavaScript value read from YAML, JSON or the command line. An absent property
   * (`undefined`) is the absence of a key, or `None` where a value may be missing.
   */
  datatype Value =
    | Str(s: string)
    | Num(n: int)
    | NaN
    | Bool(b: bool)
    | Null
    | Arr(items: seq<Value>)
    | Obj(fields: map<string, Value>)

  /** JavaScript truthiness. */
  predicate Truthy(v: Value) {
    match v
    case Str(s) => s != ""
    case Num(n) => n != 0
    case NaN => false
    case Bool(b) => b
    case Null => false
    case Arr(_) => true
    case Obj(_) => true
  }

  /** Truthiness of a value that may be `undefined`. */
  predicate Present(v: Option<Value>) {
    v.Some? && Truthy(v.value)
  }

  /** Truthiness of `m[k]` for an object `m`. */
  predicate TruthyAt<K(==)>(m: map<K, Value>, k: K) {
    Present(Get(m, k))
  }

  /** `String(v)`. */
  function ValueToString(v: Value): string
    decreases v, 1, 0
  {
    match v
    case Str(s) => s
    case Num(n) => IntToString(n)
    case NaN => "NaN"
    case Bool(b) => if b then "true" else "false"
    case Null => "null"
    case Arr(items) => JoinItems(v, 0)
    case Obj(_) => "[object Object]"
  }

  /** `items.slice(k).join(',')`, where `null` items print as nothing. */
  function JoinItems(v: Value, k: nat): string
    requires v.Arr? && k <= |v.items|
    decreases v, 0, |v.items| - k
  {
    if k == |v.items| then ""
    else
      var item := v.items[k];
      var text := if item.Null? then "" else ValueToString(item);
      if k + 1 == |v.items| then text else text + "," + JoinItems(v, k + 1)
  }

  /** A canonical array index: decimal digits, with no leading zero unless it is `0`. */
  predicate IsIndexKey(k: string) {
    |k| >= 1 && (forall i :: 0 <= i < |k| ==> IsDigit(k[i])) && (k[0] != '0' || |k| == 1)
  }

  /**
   * `v[k]`: the own properties of an object; the items and `length` of an array; the
   * characters and `length` of a string. Properties inherited from a prototype are not
   * modelled and read as `undefined`.
   */
  function Property(v: Value, k: string): Option<Value> {
    match v
    case Obj(m) => if k in m then Some(m[k]) else None
    case Arr(items) =>
      if k == "length" then Some(Num(|items|))
      else if IsIndexKey(k) && DigitsValue(k) < |items| then Some(items[DigitsValue(k)])
      else None
    case Str(s) =>
      if k == "length" then Some(Num(|s|))
      else if IsIndexKey(k) && DigitsValue(k) < |s| then Some(Str([s[DigitsValue(k)]]))
      else None
    case _ => None
  }

  /** One step of the lookup: `obj && obj[k]`. */
  function LookupStep(acc: Option<Value>, k: string): Option<Value> {
    if !Present(acc) then acc else Property(acc.value, k)
  }

  /** `keys.reduce((obj, k) => obj && obj[k], root)`. */
  function Lookup(acc: Option<Value>, keys: seq<string>): Option<Value>
    decreases |keys|
  {
    if keys == [] then acc else Lookup(LookupStep(acc, keys[0]), keys[1..])
  }

  /** `m[k]` for an object `m`, `None` standing for `undefined`. */
  function Get<K(==)>(m: map<K, Value>, k: K): (r: Option<Value>)
    ensures r.Some? <==> k in m
    ensures r.Some? ==> r.value == m[k]
  {
    if k in m then Some(m[k]) else None
  }

  /** `${v}` in a template literal, where `undefined` prints as `undefined`. */
  function OptToString(v: Option<Value>): string {
    if v.None? then "undefined" else ValueToString(v.value)
  }

  /**
   * `path.join(dir, name)` for a non-empty `name`, without the normalisation of `.`,
   * `..` and repeated separators.
   */
  function PathJoin(dir: string, name: string): (r: string)
    ensures EndsWith(r, name)
    ensures dir != [] ==> StartsWith(r, dir)
  {
    if dir == [] then name else if EndsWith(dir, "/") then dir + name else dir + "/" + name
  }
}

=== FILE: preprocessor.dfy ===
/**
 * The technical-document preprocessor (`technicalPreprocessor.js`): a chain of passes,
 * each `content.replace(pattern, callback)` with a global pattern. Every pattern is
 * written out below as a `Scan.Matcher`, with the backtracking of the JavaScript engine
 * worked out by hand in its comment.
 */
module TechnicalPreprocessor {
  import opened JsText
  import opened Scan

  // ---------------------------------------------------------------------------------------
  // Lines at the start of a text

  /** Whether `t` starts with a `'\n'`-terminated line that satisfies `p`. */
  predicate StartsWithRow(t: string, p: string -> bool) {
    LineEnd(t, 0) < |t| && p(t[..LineEnd(t, 0)])
  }

  /** The text after the first line and its `'\n'`. */
  function AfterLine(t: string): (r: string)
    requires LineEnd(t, 0) < |t|
    ensures |r| < |t|
  {
    t[LineEnd(t, 0) + 1..]
  }

  /**
   * Length of the longest run of `'\n'`-terminated lines at the start of `t` that all
   * satisfy `p`: a greedy `(?:line\n)*` whose iterations each consume one whole line.
   */
  function RowsLen(t: string, p: string -> bool): (n: nat)
    ensures n <= |t|
    decreases |t|
  {
    if StartsWithRow(t, p) then |t| - |AfterLine(t)| + RowsLen(AfterLine(t), p) else 0
  }

  /** The first line of `l + "\n" + x` is `l`. */
  lemma FirstLine(l: string, x: string)
    requires '\n' !in l
    ensures LineEnd(l + "\n" + x, 0) == |l|
    ensures (l + "\n" + x)[..|l|] == l && AfterLine(l + "\n" + x) == x
  {
    var t := l + "\n" + x;
    SpanIs(t, 0, c => c != '\n', |l|);
    assert t[..|l|] == l;
    assert t[|l| + 1..] == x;
  }

  /** A run of lines that all satisfy `p`, followed by a line that does not. */
  lemma {:induction false} RowsLenLines(rows: seq<string>, c: string, p: string -> bool)
    requires forall i :: 0 <= i < |rows| ==> '\n' !in rows[i] && p(rows[i])
    requires !StartsWithRow(c, p)
    ensures RowsLen(LinesText(rows) + c, p) == |LinesText(rows)|
    decreases |rows|
  {
    if rows != [] {
      var x := LinesText(rows[1..]) + c;
      assert LinesText(rows) + c == rows[0] + "\n" + x;
      var t := rows[0] + "\n" + x;
      FirstLine(rows[0], x);
      assert StartsWithRow(t, p);
      assert RowsLen(t, p) == |rows[0]| + 1 + RowsLen(x, p);
      RowsLenLines(rows[1..], c, p);
    } else {
      assert LinesText(rows) + c == c;
    }
  }

  // ---------------------------------------------------------------------------------------
  // enhanceTables (lines 11-30)

  /** `\|[^\n]+\|` over a whole line: a bar, at least one character, a bar. */
  predicate IsTableRow(l: string) {
    |l| >= 3 && l[0] == '|' && l[|l| - 1] == '|'
  }

  /** `\|[-:| ]+\|` over a whole line. */
  predicate IsSeparatorRow(l: string) {
    IsTableRow(l) && forall k :: 0 <= k < |l| ==> l[k] in "-:| "
  }

  /**
   * `\n(\|[^\n]+\|\n\|[-:| ]+\|\n(?:\|[^\n]+\|\n)+)`: a `'\n'`, a header row, a separator
   * row and the longest run of further rows (at least one), each row ended by `'\n'`.
   * `[^\n]+` cannot leave its line, so each row is a whole line.
   */
  function TableMatch(t: string, bol: bool): nat {
    if t != [] && t[0] == '\n' && StartsWithRow(t[1..], IsTableRow)
      && StartsWithRow(AfterLine(t[1..]), IsSeparatorRow)
    then
      var body := AfterLine(AfterLine(t[1..]));
      var n := RowsLen(body, IsTableRow);
      if n > 0 then |t| - |body| + n else 0
    else 0
  }

  /** `lines[1]` of `match.split('\n')`: the header row. */
  function HeaderRow(m: string): string {
    var lines := Split(m, '\n');
    if |lines| > 1 then lines[1] else ""
  }

  /** The caption line, added when the text announces `Table: ` followed by the header row. */
  function Caption(content: string, header: string): string {
    if Includes(content, "\nTable: " + header) then "\n: Table caption\n" else ""
  }

  /** The callback of line 15: pads the table and adds its caption line. */
  function TableRewrite(content: string, m: string): string {
    "\n\n" + m + Caption(content, HeaderRow(m)) + "\n\n"
  }

  function TableRewriter(content: string): string -> string {
    m => TableRewrite(content, m)
  }

  function EnhanceTables(content: string): string {
    ReplaceAll(TableMatch, TableRewriter(content), content, true)
  }

  // ---------------------------------------------------------------------------------------
  // enhanceBlockquotes (lines 37-46)

  /** Two non-overlapping `**` in `s`. */
  predicate HasTwoBold(s: string) {
    var i := FindFrom(s, "**", 0);
    i.Some? && FindFrom(s, "**", i.value + 2).Some?
  }

  /**
   * `>[^\n]*?\*\*[^\n]*?\*\*[^\n]*?` over a whole line: the lazy runs cannot leave the
   * line, so the line qualifies when its text after `>` holds two `**` one after the other.
   */
  predicate IsBoldQuoteRow(l: string) {
    |l| >= 1 && l[0] == '>' && HasTwoBold(l[1..])
  }

  /** `>[^\n]*?` over a whole line. */
  predicate IsQuoteRow(l: string) {
    |l| >= 1 && l[0] == '>'
  }

  /**
   * `\n(>[^\n]*?\*\*[^\n]*?\*\*[^\n]*?\n(?:>[^\n]*?\n)*)`: a `'\n'`, a quote line with two
   * `**`, and the longest run of further quote lines, each ended by `'\n'`.
   */
  function QuoteMatch(t: string, bol: bool): nat {
    if t != [] && t[0] == '\n' && StartsWithRow(t[1..], IsBoldQuoteRow) then
      var body := AfterLine(t[1..]);
      |t| - |body| + RowsLen(body, IsQuoteRow)
    else 0
  }

  /** The callback of line 42: the quote without its leading `'\n'`, padded. */
  function QuoteRewrite(m: string): string {
    "\n\n" + (if m == [] then m else m[1..]) + "\n\n"
  }

  function EnhanceBlockquotes(content: string): string {
    ReplaceAll(QuoteMatch, QuoteRewrite, content, true)
  }

  // ---------------------------------------------------------------------------------------
  // enhanceBulletPoints (lines 53-75)

  /** Start of the run of characters satisfying `p` that ends at `hi`, going no lower than `lo`. */
  function SpanBack(t: string, lo: nat, hi: nat, p: char -> bool): (r: nat)
    requires lo <= hi <= |t|
    ensures lo <= r <= hi
    ensures forall k :: r <= k < hi ==> p(t[k])
    ensures r > lo ==> !p(t[r - 1])
    decreases hi
  {
    if hi > lo && p(t[hi - 1]) then SpanBack(t, lo, hi - 1, p) else hi
  }

  predicate NotStarOrNewline(c: char) {
    c != '*' && c != '\n'
  }

  /**
   * The positions that `(\*\*[^*\n]+\*\*:?)\s*\n([ ]*[-*+] )` finds at the start of `t`:
   * `p` ends the bold label (and its colon), `s` starts the list-marker line and `q` is
   * its marker. `[^*\n]+` can only stop where `**` follows, `:?` must take a colon that is
   * there, and `\s*\n[ ]*` backtracks to the last `'\n'` before the spaces ahead of the
   * marker, so the white space between the label and the marker must end in `'\n'`
   * followed only by spaces.
   */
  function LabelParts(t: string): (r: Option<(nat, nat, nat)>)
    ensures r.Some? ==> r.value.0 < r.value.1 <= r.value.2 < |t|
  {
    match LabelEnd(t)
    case None => None
    case Some(p) => MarkerLineAfter(t, p)
  }

  /** `\*\*[^*\n]+\*\*:?` at the start of `t`: where the label and its colon end. */
  function LabelEnd(t: string): (r: Option<nat>)
    ensures r.Some? ==> 4 < r.value <= |t|
  {
    if !StartsWith(t, "**") then None
    else
      var r := Span(t, 2, NotStarOrNewline);
      if r == 2 || !OccursAt(t, "**", r) then None
      else Some(if r + 2 < |t| && t[r + 2] == ':' then r + 3 else r + 2)
  }

  /**
   * `\s*\n([ ]*[-*+] )` from position `p` of `t`: the start of the marker line and the
   * position of its marker.
   */
  function MarkerLineAfter(t: string, p: nat): (r: Option<(nat, nat, nat)>)
    requires p <= |t|
    ensures r.Some? ==> p == r.value.0 < r.value.1 <= r.value.2 < |t|
  {
    var q := Span(t, p, IsJsSpace);
    var s := SpanBack(t, p, q, IsSpace);
    if s > p && t[s - 1] == '\n' && q + 1 < |t| && t[q] in "-*+" && t[q + 1] == ' '
    then Some((p, s, q))
    else None
  }

  function LabelMatch(t: string, bol: bool): nat {
    match LabelParts(t)
    case Some((_, _, q)) => q + 2
    case None => 0
  }

  /** `'$1\n\n$2'`: the label, a blank line, then the marker line. */
  function LabelRewrite(m: string): string {
    match LabelParts(m)
    case Some((p, s, q)) => m[..p] + "\n\n" + m[s..]
    case None => m
  }

  /** `[ ]*[-*+][^\n]+` over a whole line: spaces, a marker and at least one character. */
  predicate IsListItemRow(l: string) {
    var k := Span(l, 0, IsSpace);
    k + 1 < |l| && l[k] in "-*+"
  }

  /** `[ ]*[-*+][^\n]+|[ ]+[^\n]+` over a whole line. */
  predicate IsListBlockRow(l: string) {
    IsListItemRow(l) || (|l| >= 2 && l[0] == ' ')
  }

  /**
   * `\n((?:[ ]*[-*+][^\n]+\n(?:[ ]*[-*+][^\n]+\n|[ ]+[^\n]+\n)*))`: a `'\n'`, a list item
   * line, and the longest run of further item or indented lines, each ended by `'\n'`.
   */
  function ListBlockMatch(t: string, bol: bool): nat {
    if t != [] && t[0] == '\n' && StartsWithRow(t[1..], IsListItemRow) then
      var body := AfterLine(t[1..]);
      |t| - |body| + RowsLen(body, IsListBlockRow)
    else 0
  }

  /** `^([ ]*)([*+])` in multiline mode. */
  function BulletMatch(t: string, bol: bool): nat {
    var k := Span(t, 0, IsSpace);
    if bol && k < |t| && t[k] in "*+" then k + 1 else 0
  }

  /** `'$1-'`: the marker becomes `-`. */
  function BulletRewrite(m: string): string {
    if m == [] then m else m[..|m| - 1] + "-"
  }

  predicate NotColon(c: char) {
    c != ':'
  }

  /**
   * `^([ ]*- \*\*[^:]+):(.*)` in multiline mode: `[^:]+` runs, across lines if need be, to
   * the first colon, and `.*` to the end of that colon's line.
   */
  function ColonMatch(t: string, bol: bool): nat {
    var k := Span(t, 0, IsSpace);
    if bol && OccursAt(t, "- **", k) then
      var c := Span(t, k + 4, NotColon);
      if k + 4 < c < |t| then Span(t, c + 1, NotLineTerminator) else 0
    else 0
  }

  /** `'$1:$2'`: the text up to the first colon, a colon, and the text after it. */
  function ColonRewrite(m: string): string {
    var c := Span(m, 0, NotColon);
    if c < |m| then m[..c] + ":" + m[c + 1..] else m
  }

  /** `^([ ]+)([^-\s])` in multiline mode. */
  function IndentMatch(t: string, bol: bool): nat {
    var k := Span(t, 0, IsSpace);
    if bol && 1 <= k < |t| && t[k] != '-' && !IsJsSpace(t[k]) then k + 1 else 0
  }

  /** `'$1  $2'`: two more spaces before the first other character. */
  function IndentRewrite(m: string): string {
    if m == [] then m else m[..|m| - 1] + "  " + [m[|m| - 1]]
  }

  /** The three rewrites of lines 64, 67 and 70 over a matched list block. */
  function StandardizeList(list: string): string {
    var bullets := ReplaceAll(BulletMatch, BulletRewrite, list, true);
    var colons := ReplaceAll(ColonMatch, ColonRewrite, bullets, true);
    ReplaceAll(IndentMatch, IndentRewrite, colons, true)
  }

  /** The callback of line 62. */
  function ListRewrite(m: string): string {
    "\n\n" + StandardizeList(if m == [] then m else m[1..]) + "\n\n"
  }

  /** The replace of line 56. */
  function LabelPass(content: string): string {
    ReplaceAll(LabelMatch, LabelRewrite, content, true)
  }

  /** The replace of line 62. */
  function ListBlocksPass(content: string): string {
    ReplaceAll(ListBlockMatch, ListRewrite, content, true)
  }

  function EnhanceBulletPoints(content: string): string {
    ListBlocksPass(LabelPass(content))
  }

  // ---------------------------------------------------------------------------------------
  // enhanceDescriptionLists (lines 82-93)

  predicate IsBlankChar(c: char) {
    c == ' ' || c == '\t'
  }

  /**
   * `[^\n:]+:[ \t]+[^\n]+` over a whole line: a term without colons, the first colon,
   * then at least one blank and at least one more character (the blank run gives one
   * blank back when nothing else follows it).
   */
  predicate IsDescRow(l: string) {
    var c := Span(l, 0, NotColon);
    1 <= c && c + 2 < |l| && IsBlankChar(l[c + 1])
  }

  /**
   * `\n((?:[^\n:]+:[ \t]+[^\n]+\n)+)`: a `'\n'` and the longest run (at least one) of
   * `term: definition` lines, each ended by `'\n'`.
   */
  function DescMatch(t: string, bol: bool): nat {
    if t != [] && t[0] == '\n' then
      var n := RowsLen(t[1..], IsDescRow);
      if n > 0 then 1 + n else 0
    else 0
  }

  /**
   * `^([^:]+):[ \t]+([^\n]+)$` in multiline mode: `[^:]+` runs to the first colon (across
   * lines if need be), `[ \t]+` takes the blanks after it, and `([^\n]+)` the rest of the
   * line, which must not be empty: when the blanks reach the end of the line, they give
   * one back.
   */
  function DescLineMatch(t: string, bol: bool): nat {
    var c := Span(t, 0, NotColon);
    if bol && 1 <= c < |t| then
      var b := Span(t, c + 1, IsBlankChar);
      var e := LineEnd(t, b);
      if b > c + 1 && (e > b || b >= c + 3) then e else 0
    else 0
  }

  /** Where the definition (`$2`) starts in a matched line. */
  function DefinitionStart(m: string): (g: nat)
    requires Span(m, 0, NotColon) < |m|
    ensures g <= |m|
  {
    var c := Span(m, 0, NotColon);
    var b := Span(m, c + 1, IsBlankChar);
    if b < |m| || b == c + 1 then b else b - 1
  }

  /** `'$1\n: $2'`: the term, a line break, then `: ` and the definition. */
  function DescLineRewrite(m: string): string {
    var c := Span(m, 0, NotColon);
    if c < |m| then m[..c] + "\n: " + m[DefinitionStart(m)..] else m
  }

  /** The callback of line 86. */
  function DescRewrite(m: string): string {
    var list := if m == [] then m else m[1..];
    "\n\n" + ReplaceAll(DescLineMatch, DescLineRewrite, list, true) + "\n\n"
  }

  function EnhanceDescriptionLists(content: string): string {
    ReplaceAll(DescMatch, DescRewrite, content, true)
  }

  // ---------------------------------------------------------------------------------------
  // enhanceSectionHeadings (lines 100-105)

  predicate IsHash(c: char) {
    c == '#'
  }

  /** `#{1,6} .+` over a whole line: one to six `#`, a space and at least one character. */
  predicate IsHeadingRow(l: string) {
    var h := Span(l, 0, IsHash);
    1 <= h <= 6 && h + 1 < |l| && l[h] == ' '
    && Span(l, h + 1, NotLineTerminator) == |l|
  }

  /**
   * `\n(#{1,6} .+)\n`: `#{1,6}` cannot give back a `#` to the space, and `.+` stops at
   * the first line terminator, which must be `'\n'`.
   */
  function HeadingMatch(t: string, bol: bool): nat {
    if t != [] && t[0] == '\n' then
      var s := t[1..];
      var e := Span(s, 0, NotLineTerminator);
      if e < |s| && s[e] == '\n' && IsHeadingRow(s[..e]) then e + 2 else 0
    else 0
  }

  /** `'\n\n$1\n\n'`. */
  function HeadingRewrite(m: string): string {
    if |m| < 2 then m else "\n\n" + m[1..|m| - 1] + "\n\n"
  }

  function EnhanceSectionHeadings(content: string): string {
    ReplaceAll(HeadingMatch, HeadingRewrite, content, true)
  }

  // ---------------------------------------------------------------------------------------
  // enhanceCodeBlocks (lines 112-121)

  /**
   * ```` ```([a-z]*)\n([\s\S]*?)``` ````: the tag is the whole run of lower-case letters
   * and must be followed by `'\n'`; the lazy code run ends at the first ```` ``` ```` after.
   */
  function CodeMatch(t: string, bol: bool): nat {
    if StartsWith(t, "```") then
      var j := Span(t, 3, IsAsciiLower);
      if j < |t| && t[j] == '\n' then
        match FindFrom(t, "```", j + 1)
        case Some(f) => f + 3
        case None => 0
      else 0
    else 0
  }

  /** The callback of line 116: the tag, or `text` when there is none. */
  function CodeRewrite(m: string): string {
    if |m| >= 3 then
      var j := Span(m, 3, IsAsciiLower);
      if j + 4 <= |m| then
        var lang := m[3..j];
        "```" + (if lang == "" then "text" else lang) + "\n" + m[j + 1..|m| - 3] + "```"
      else m
    else m
  }

  function EnhanceCodeBlocks(content: string): string {
    ReplaceAll(CodeMatch, CodeRewrite, content, true)
  }

  // ---------------------------------------------------------------------------------------
  // processTechnicalDocument (lines 128-143)

  /** `\n{3,}`: a run of at least three `'\n'`, taken whole. */
  function NewlineRunMatch(t: string, bol: bool): nat {
    var r := Span(t, 0, IsNewline);
    if r >= 3 then r else 0
  }

  function TwoNewlines(m: string): string {
    "\n\n"
  }

  /**
   * `.replace(/\n{3,}/g, '\n\n')`: every run of three or more `'\n'` becomes two, so no
   * three remain, and nothing but `'\n'` is added or removed.
   */
  function CollapseNewlines(content: string): (r: string)
    ensures r == CollapsedRuns(content)
    ensures NoTripleNewline(r)
    ensures WithoutNewlines(r) == WithoutNewlines(content)
  {
    CollapseByRuns(content, true);
    CollapsedRunsNoTriple(content);
    CollapsedRunsKeepsText(content);
    ReplaceAll(NewlineRunMatch, TwoNewlines, content, true)
  }

  /** `processTechnicalDocument`: the passes in order, then the collapse of newline runs. */
  function ProcessTechnicalDocument(content: string): (r: string)
    ensures NoTripleNewline(r)
    ensures CollapseNewlines(r) == r
  {
    var tables := EnhanceTables(content);
    var quotes := EnhanceBlockquotes(tables);
    var bullets := EnhanceBulletPoints(quotes);
    var descriptions := EnhanceDescriptionLists(bullets);
    var headings := EnhanceSectionHeadings(descriptions);
    var processed := EnhanceCodeBlocks(headings);
    CollapseIdempotent(processed);
    CollapseNewlines(processed)
  }

  // ---------------------------------------------------------------------------------------
  // The collapse of newline runs

  /** Three `'\n'` in a row start at position `k` of `s`. */
  predicate TripleAt(s: string, k: nat)
    requires k + 3 <= |s|
  {
    s[k] == '\n' && s[k + 1] == '\n' && s[k + 2] == '\n'
  }

  /** No three `'\n'` in a row. */
  predicate NoTripleNewline(s: string) {
    forall k :: 0 <= k <= |s| - 3 ==> !TripleAt(s, k)
  }

  /** The collapse, run by run: a run of three or more `'\n'` becomes two, shorter runs stay. */
  function CollapsedRuns(t: string): string
    decreases |t|
  {
    if t == [] then []
    else
      var r := Span(t, 0, IsNewline);
      if r == 0 then [t[0]] + CollapsedRuns(t[1..])
      else (if r >= 3 then "\n\n" else t[..r]) + CollapsedRuns(t[r..])
  }

  /** The characters of `s` other than `'\n'`, in order. */
  function WithoutNewlines(s: string): string
    decreases |s|
  {
    if s == [] then [] else (if s[0] == '\n' then [] else [s[0]]) + WithoutNewlines(s[1..])
  }

  lemma SpanNewlineTail(t: string)
    requires Span(t, 0, IsNewline) >= 1
    ensures Span(t[1..], 0, IsNewline) == Span(t, 0, IsNewline) - 1
  {
    var r := Span(t, 0, IsNewline);
    forall k | 0 <= k < r - 1 ensures IsNewline(t[1..][k]) {
      assert t[1..][k] == t[k + 1];
    }
    if r < |t| {
      assert t[1..][r - 1] == t[r];
    }
    SpanIs(t[1..], 0, IsNewline, r - 1);
  }

  /** One step of the global replace of `\n{3,}`. */
  lemma CollapseStep(t: string, bol: bool)
    requires t != []
    ensures var r := Span(t, 0, IsNewline);
      ReplaceAll(NewlineRunMatch, TwoNewlines, t, bol)
      == if r >= 3 then "\n\n" + ReplaceAll(NewlineRunMatch, TwoNewlines, t[r..], true)
         else [t[0]] + ReplaceAll(NewlineRunMatch, TwoNewlines, t[1..], t[0] == '\n')
  {
    assert t[0..] == t;
  }

  /** The global replace of `\n{3,}` works run by run, from whatever position it starts at. */
  lemma {:induction false} CollapseByRuns(t: string, bol: bool)
    ensures ReplaceAll(NewlineRunMatch, TwoNewlines, t, bol) == CollapsedRuns(t)
    decreases |t|
  {
    if t != [] {
      var r := Span(t, 0, IsNewline);
      CollapseStep(t, bol);
      if r == 0 {
        CollapseByRuns(t[1..], false);
      } else if r >= 3 {
        CollapseByRuns(t[r..], true);
      } else {
        ShortRunKept(t, bol, r);
        CollapseByRuns(t[r..], true);
      }
    }
  }

  /** A run of one or two `'\n'` is copied as it is. */
  lemma ShortRunKept(t: string, bol: bool, r: nat)
    requires r == Span(t, 0, IsNewline) && 1 <= r <= 2
    ensures ReplaceAll(NewlineRunMatch, TwoNewlines, t, bol)
      == t[..r] + ReplaceAll(NewlineRunMatch, TwoNewlines, t[r..], true)
  {
    CollapseStep(t, bol);
    if r == 2 {
      var t1 := t[1..];
      SpanNewlineTail(t);
      CollapseStep(t1, true);
      DropDrop(t, 1, 1);
      AppendAssoc([t[0]], [t1[0]], ReplaceAll(NewlineRunMatch, TwoNewlines, t[2..], true));
      assert t[..2] == [t[0]] + [t1[0]];
    } else {
      assert t[..1] == [t[0]];
    }
  }

  /** No triple newline is formed by a run of at most two `'\n'` placed before `rest`. */
  lemma NoTripleAfterRun(run: string, rest: string)
    requires |run| <= 2 && forall k :: 0 <= k < |run| ==> run[k] == '\n'
    requires rest == [] || rest[0] != '\n'
    requires NoTripleNewline(rest)
    ensures NoTripleNewline(run + rest)
  {
    var s := run + rest;
    forall k | 0 <= k <= |s| - 3 ensures !TripleAt(s, k) {
      if k < |run| {
        assert s[|run|] == rest[0];
      } else {
        assert !TripleAt(rest, k - |run|);
        assert s[k] == rest[k - |run|] && s[k + 1] == rest[k + 1 - |run|] && s[k + 2] == rest[k + 2 - |run|];
      }
    }
  }

  lemma NoTripleAfterChar(c: char, rest: string)
    requires c != '\n'
    requires NoTripleNewline(rest)
    ensures NoTripleNewline([c] + rest)
  {
    var s := [c] + rest;
    forall k | 0 <= k <= |s| - 3 ensures !TripleAt(s, k) {
      if k > 0 {
        assert !TripleAt(rest, k - 1);
        assert s[k] == rest[k - 1] && s[k + 1] == rest[k] && s[k + 2] == rest[k + 1];
      }
    }
  }

  lemma {:induction false} CollapsedRunsNoTriple(t: string)
    ensures NoTripleNewline(CollapsedRuns(t))
    ensures t != [] && t[0] != '\n' ==> CollapsedRuns(t)[0] == t[0]
    decreases |t|
  {
    if t != [] {
      var r := Span(t, 0, IsNewline);
      if r == 0 {
        CollapsedRunsNoTriple(t[1..]);
        NoTripleAfterChar(t[0], CollapsedRuns(t[1..]));
      } else {
        CollapsedRunsNoTriple(t[r..]);
        NoTripleAfterRun(if r >= 3 then "\n\n" else t[..r], CollapsedRuns(t[r..]));
      }
    }
  }

  lemma {:induction false} WithoutNewlinesAppend(a: string, b: string)
    ensures WithoutNewlines(a + b) == WithoutNewlines(a) + WithoutNewlines(b)
    decreases |a|
  {
    if a != [] {
      assert (a + b)[0] == a[0];
      assert (a + b)[1..] == a[1..] + b;
      WithoutNewlinesAppend(a[1..], b);
    } else {
      assert a + b == b;
    }
  }

  lemma {:induction false} WithoutNewlinesOfRun(run: string)
    requires forall k :: 0 <= k < |run| ==> run[k] == '\n'
    ensures WithoutNewlines(run) == []
    decreases |run|
  {
    if run != [] {
      WithoutNewlinesOfRun(run[1..]);
    }
  }

  lemma {:induction false} CollapsedRunsKeepsText(t: string)
    ensures WithoutNewlines(CollapsedRuns(t)) == WithoutNewlines(t)
    decreases |t|
  {
    if t != [] {
      var r := Span(t, 0, IsNewline);
      if r == 0 {
        CollapsedRunsKeepsText(t[1..]);
        WithoutNewlinesAppend([t[0]], CollapsedRuns(t[1..]));
      } else {
        var run := if r >= 3 then "\n\n" else t[..r];
        CollapsedRunsKeepsText(t[r..]);
        WithoutNewlinesAppend(run, CollapsedRuns(t[r..]));
        WithoutNewlinesOfRun(run);
        assert t == t[..r] + t[r..];
        WithoutNewlinesAppend(t[..r], t[r..]);
        WithoutNewlinesOfRun(t[..r]);
      }
    }
  }

  /** A text without a triple newline has nothing to collapse. */
  lemma CollapseFixes(s: string)
    requires NoTripleNewline(s)
    ensures CollapseNewlines(s) == s
  {
    forall k | 0 <= k < |s| ensures KeptAt(NewlineRunMatch, TwoNewlines, s, true, k) {
      var t := s[k..];
      if k + 3 <= |s| {
        assert !TripleAt(s, k);
        assert t[0] == s[k] && t[1] == s[k + 1] && t[2] == s[k + 2];
      }
      assert Span(t, 0, IsNewline) < 3;
    }
    ReplaceAllKept(NewlineRunMatch, TwoNewlines, s, true);
  }

  /** Collapsing twice is collapsing once. */
  lemma CollapseIdempotent(t: string)
    ensures CollapseNewlines(CollapseNewlines(t)) == CollapseNewlines(t)
  {
    CollapseFixes(CollapseNewlines(t));
  }

  // ---------------------------------------------------------------------------------------
  // Code fences

  /** Where a fence opened with the tag `lang` and closed after `code` is found. */
  lemma CodeMatchOf(lang: string, code: string, rest: string, bol: bool)
    requires forall k :: 0 <= k < |lang| ==> IsAsciiLower(lang[k])
    requires forall k :: 0 <= k < |code| ==> !OccursAt(code + "```", "```", k)
    ensures CodeMatch("```" + lang + "\n" + code + "```" + rest, bol) == |lang| + |code| + 7
  {
    var p := "```" + lang + "\n";
    var b := "```" + lang + "\n" + code + "```" + rest;
    var j := 3 + |lang|;
    assert b[j] == '\n';
    forall k | 3 <= k < j ensures IsAsciiLower(b[k]) {
      assert b[k] == lang[k - 3];
    }
    SpanIs(b, 3, IsAsciiLower, j);
    AppendAssoc(p, code, "```");
    MiddleSlice(p, code + "```", rest);
    assert b[..3] == "```";
    CodeMatchFrom(b, bol, j, code);
  }

  /** `CodeMatch` once the end of the tag is known and the code after it holds no fence. */
  lemma CodeMatchFrom(t: string, bol: bool, j: nat, x: string)
    requires StartsWith(t, "```") && j == Span(t, 3, IsAsciiLower) && j < |t| && t[j] == '\n'
    requires j + 1 + |x| + 3 <= |t| && t[j + 1..j + 1 + |x| + 3] == x + "```"
    requires forall k :: 0 <= k < |x| ==> !OccursAt(x + "```", "```", k)
    ensures CodeMatch(t, bol) == j + |x| + 4
  {
    FenceAfter(t, j + 1, x);
  }

  /** The first fence from `i` on closes `x` when `x` holds none. */
  lemma FenceAfter(b: string, i: nat, x: string)
    requires i + |x| + 3 <= |b| && b[i..i + |x| + 3] == x + "```"
    requires forall k :: 0 <= k < |x| ==> !OccursAt(x + "```", "```", k)
    ensures FindFrom(b, "```", i) == Some(i + |x|)
  {
    var w := x + "```";
    forall j | i <= j < i + |w| ensures b[j] == w[j - i] {
      assert b[i..i + |w|][j - i] == b[j];
    }
    forall k | i <= k < i + |x| ensures !OccursAt(b, "```", k) {
      assert !OccursAt(w, "```", k - i);
      assert b[k..k + 3] == w[k - i..k - i + 3];
    }
    assert w[|x|..] == "```";
    assert b[i + |x|..i + |x| + 3] == w[|x|..];
    FindFromIs(b, "```", i, i + |x|);
  }

  /** What the callback makes of a matched fence. */
  lemma CodeRewriteOf(lang: string, code: string)
    requires forall k :: 0 <= k < |lang| ==> IsAsciiLower(lang[k])
    ensures CodeRewrite("```" + lang + "\n" + code + "```")
      == "```" + (if lang == [] then "text" else lang) + "\n" + code + "```"
  {
    var m := "```" + lang + "\n" + code + "```";
    var j := 3 + |lang|;
    assert m[j] == '\n';
    forall k | 3 <= k < j ensures IsAsciiLower(m[k]) {
      assert m[k] == lang[k - 3];
    }
    SpanIs(m, 3, IsAsciiLower, j);
    assert m[3..j] == lang && m[j + 1..|m| - 3] == code;
  }

  /**
   * An opening fence with a lower-case tag or none, the code, and the first closing fence
   * after it: the tag is kept, an empty one becomes `text`, and the code is unchanged.
   */
  lemma CodeFenceTagged(a: string, lang: string, code: string, rest: string)
    requires forall k :: 0 <= k < |lang| ==> IsAsciiLower(lang[k])
    requires forall k :: 0 <= k < |code| ==> !OccursAt(code + "```", "```", k)
    requires NoMatchBefore(CodeMatch, a + ("```" + lang + "\n" + code + "```") + rest, true, |a|)
    ensures EnhanceCodeBlocks(a + ("```" + lang + "\n" + code + "```") + rest)
      == a + ("```" + (if lang == [] then "text" else lang) + "\n" + code + "```")
         + ReplaceAll(CodeMatch, CodeRewrite, rest, false)
  {
    var m := "```" + lang + "\n" + code + "```";
    assert m + rest == "```" + lang + "\n" + code + "```" + rest;
    CodeMatchOf(lang, code, rest, BolAt(a + m + rest, |a|, true));
    ReplaceAllFirst(CodeMatch, CodeRewrite, a, m, rest, true);
    CodeRewriteOf(lang, code);
  }

  // ---------------------------------------------------------------------------------------
  // Headings

  lemma HeadingRowHasNoTerminator(h: string)
    requires IsHeadingRow(h)
    ensures NoLineTerminator(h)
  {
    var n := Span(h, 0, IsHash);
    forall k | 0 <= k < |h| ensures !IsLineTerminator(h[k]) {
      if k < n {
        assert IsHash(h[k]);
      } else if k > n {
        assert NotLineTerminator(h[k]);
      }
    }
  }

  lemma HeadingMatchOf(h: string, rest: string, bol: bool)
    requires IsHeadingRow(h)
    ensures HeadingMatch("\n" + h + "\n" + rest, bol) == |h| + 2
  {
    HeadingRowHasNoTerminator(h);
    var s := ("\n" + h + "\n" + rest)[1..];
    assert s == h + "\n" + rest;
    assert s[|h|] == '\n';
    SpanIs(s, 0, NotLineTerminator, |h|);
    assert s[..|h|] == h;
  }

  /** A heading line between two `'\n'` gets a blank line on each side. */
  lemma HeadingPadded(a: string, h: string, rest: string)
    requires IsHeadingRow(h)
    requires NoMatchBefore(HeadingMatch, a + ("\n" + h + "\n") + rest, true, |a|)
    ensures EnhanceSectionHeadings(a + ("\n" + h + "\n") + rest)
      == a + ("\n\n" + h + "\n\n") + ReplaceAll(HeadingMatch, HeadingRewrite, rest, true)
  {
    var m := "\n" + h + "\n";
    assert m + rest == "\n" + h + "\n" + rest;
    HeadingMatchOf(h, rest, BolAt(a + m + rest, |a|, true));
    ReplaceAllFirst(HeadingMatch, HeadingRewrite, a, m, rest, true);
    assert m[1..|m| - 1] == h;
  }

  /** A heading on the first line has no `'\n'` before it and is left as it is. */
  lemma FirstLineHeadingKept(h: string, rest: string)
    requires IsHeadingRow(h)
    ensures EnhanceSectionHeadings(h + rest)
      == h + ReplaceAll(HeadingMatch, HeadingRewrite, rest, BolAt(h + rest, |h|, true))
  {
    HeadingRowHasNoTerminator(h);
    forall k | 0 <= k < |h| ensures MatchAt(HeadingMatch, h + rest, true, k) == 0 {
      assert (h + rest)[k..][0] == h[k];
    }
    ReplaceAllCopy(HeadingMatch, HeadingRewrite, h, rest, true);
  }

  // ---------------------------------------------------------------------------------------
  // Tables and block quotes

  /** The text after the leading `'\n'` of a run of lines, split after its first line. */
  lemma AfterLeadingNewline(l: string, ls: seq<string>, c: string)
    ensures ("\n" + LinesText([l] + ls) + c)[1..] == l + "\n" + (LinesText(ls) + c)
  {
    LinesTextCons(l, ls);
    var rows := LinesText([l] + ls);
    AppendAssoc("\n", rows, c);
    AppendParts("\n", rows + c);
    AppendAssoc(l + "\n", LinesText(ls), c);
  }

  /** The text of a table after its leading `'\n'`, split after each of its first two rows. */
  lemma TableLines(header: string, sep: string, rows: seq<string>, c: string)
    ensures ("\n" + LinesText([header, sep] + rows) + c)[1..] == header + "\n" + (LinesText([sep] + rows) + c)
    ensures LinesText([sep] + rows) + c == sep + "\n" + (LinesText(rows) + c)
  {
    assert [header, sep] + rows == [header] + ([sep] + rows);
    AfterLeadingNewline(header, [sep] + rows, c);
    LinesTextCons(sep, rows);
    AppendAssoc(sep + "\n", LinesText(rows), c);
  }

  /** `TableMatch` with its intermediate values given. */
  lemma TableMatchIs(t: string, bol: bool, body: string, n: nat)
    requires t != [] && t[0] == '\n' && StartsWithRow(t[1..], IsTableRow)
    requires StartsWithRow(AfterLine(t[1..]), IsSeparatorRow)
    requires body == AfterLine(AfterLine(t[1..])) && n == RowsLen(body, IsTableRow) && n > 0
    ensures TableMatch(t, bol) == |t| - |body| + n
  {
  }

  lemma TableMatchOf(header: string, sep: string, rows: seq<string>, c: string, bol: bool)
    requires IsTableRow(header) && '\n' !in header
    requires IsSeparatorRow(sep) && '\n' !in sep
    requires |rows| >= 1 && forall i :: 0 <= i < |rows| ==> '\n' !in rows[i] && IsTableRow(rows[i])
    requires !StartsWithRow(c, IsTableRow)
    ensures TableMatch("\n" + LinesText([header, sep] + rows) + c, bol)
      == 1 + |LinesText([header, sep] + rows)|
  {
    var t := "\n" + LinesText([header, sep] + rows) + c;
    var x1 := LinesText([sep] + rows) + c;
    var x2 := LinesText(rows) + c;
    TableLines(header, sep, rows, c);
    FirstLine(header, x1);
    FirstLine(sep, x2);
    RowsLenLines(rows, c, IsTableRow);
    LinesTextEndsWithNewline(rows);
    TableMatchIs(t, bol, x2, |LinesText(rows)|);
  }

  lemma HeaderRowOf(header: string, sep: string, rows: seq<string>)
    requires '\n' !in header
    ensures HeaderRow("\n" + LinesText([header, sep] + rows)) == header
  {
    var more := [sep] + rows;
    assert [header, sep] + rows == [header] + more;
    var x := LinesText(more);
    LinesTextCons(header, more);
    assert "\n" + LinesText([header] + more) == [] + ['\n'] + (header + ['\n'] + x);
    SplitFirst([], '\n', header + ['\n'] + x);
    SplitFirst(header, '\n', x);
  }

  /**
   * A table (header row, separator row and at least one more row, after a `'\n'`) gets a
   * blank line on each side, its rows unchanged; the caption line is added only when the
   * text announces `Table: ` followed by the header row.
   */
  lemma TableWrapped(a: string, header: string, sep: string, rows: seq<string>, c: string)
    requires IsTableRow(header) && '\n' !in header
    requires IsSeparatorRow(sep) && '\n' !in sep
    requires |rows| >= 1 && forall i :: 0 <= i < |rows| ==> '\n' !in rows[i] && IsTableRow(rows[i])
    requires !StartsWithRow(c, IsTableRow)
    requires NoMatchBefore(TableMatch, a + ("\n" + LinesText([header, sep] + rows)) + c, true, |a|)
    ensures var content := a + ("\n" + LinesText([header, sep] + rows)) + c;
      EnhanceTables(content)
      == a + ("\n\n" + ("\n" + LinesText([header, sep] + rows)) + Caption(content, header) + "\n\n")
         + ReplaceAll(TableMatch, TableRewriter(content), c, true)
  {
    var content := a + ("\n" + LinesText([header, sep] + rows)) + c;
    var m := "\n" + LinesText([header, sep] + rows);
    TableMatchOf(header, sep, rows, c, BolAt(content, |a|, true));
    LinesTextEndsWithNewline([header, sep] + rows);
    TableStep(content, a, m, c);
    HeaderRowOf(header, sep, rows);
    TableRewriteOf(content, m, header);
  }

  lemma TableRewriteOf(content: string, m: string, header: string)
    requires HeaderRow(m) == header
    ensures TableRewrite(content, m) == "\n\n" + m + Caption(content, header) + "\n\n"
  {
  }

  lemma TableStep(content: string, a: string, m: string, c: string)
    requires content == a + m + c
    requires NoMatchBefore(TableMatch, content, true, |a|)
    requires m != [] && m[|m| - 1] == '\n' && TableMatch(m + c, BolAt(content, |a|, true)) == |m|
    ensures EnhanceTables(content)
      == a + TableRewrite(content, m) + ReplaceAll(TableMatch, TableRewriter(content), c, true)
  {
    ReplaceAllFirst(TableMatch, TableRewriter(content), a, m, c, true);
  }

  /** `QuoteMatch` with the text after its first line given. */
  lemma QuoteMatchIs(t: string, bol: bool, body: string)
    requires t != [] && t[0] == '\n' && StartsWithRow(t[1..], IsBoldQuoteRow)
    requires body == AfterLine(t[1..])
    ensures QuoteMatch(t, bol) == |t| - |body| + RowsLen(body, IsQuoteRow)
  {
  }

  lemma QuoteMatchOf(first: string, more: seq<string>, c: string, bol: bool)
    requires IsBoldQuoteRow(first) && '\n' !in first
    requires forall i :: 0 <= i < |more| ==> '\n' !in more[i] && IsQuoteRow(more[i])
    requires !StartsWithRow(c, IsQuoteRow)
    ensures QuoteMatch("\n" + LinesText([first] + more) + c, bol) == 1 + |LinesText([first] + more)|
  {
    var x := LinesText(more) + c;
    AfterLeadingNewline(first, more, c);
    FirstLine(first, x);
    RowsLenLines(more, c, IsQuoteRow);
    QuoteMatchIs("\n" + LinesText([first] + more) + c, bol, x);
  }

  /**
   * A block quote whose first line holds two `**`, after a `'\n'`, gets a blank line on
   * each side; its lines are unchanged.
   */
  lemma QuoteWrapped(a: string, first: string, more: seq<string>, c: string)
    requires IsBoldQuoteRow(first) && '\n' !in first
    requires forall i :: 0 <= i < |more| ==> '\n' !in more[i] && IsQuoteRow(more[i])
    requires !StartsWithRow(c, IsQuoteRow)
    requires NoMatchBefore(QuoteMatch, a + ("\n" + LinesText([first] + more)) + c, true, |a|)
    ensures EnhanceBlockquotes(a + ("\n" + LinesText([first] + more)) + c)
      == a + ("\n\n" + LinesText([first] + more) + "\n\n") + ReplaceAll(QuoteMatch, QuoteRewrite, c, true)
  {
    var m := "\n" + LinesText([first] + more);
    QuoteMatchOf(first, more, c, BolAt(a + m + c, |a|, true));
    LinesTextEndsWithNewline([first] + more);
    assert m[|m| - 1] == '\n';
    ReplaceAllFirst(QuoteMatch, QuoteRewrite, a, m, c, true);
    assert m[1..] == LinesText([first] + more);
  }

  // ---------------------------------------------------------------------------------------
  // Bold labels and list blocks

  lemma NoTerminatorNoNewline(l: string)
    requires NoLineTerminator(l)
    ensures '\n' !in l
  {
    forall k | 0 <= k < |l| ensures l[k] != '\n' {
      assert !IsLineTerminator(l[k]);
    }
  }

  lemma LabelPartsAt(t: string, r: nat, p: nat, q: nat)
    requires r > 2 && (p == r + 2 || p == r + 3) && p < q && q + 1 < |t|
    requires t[..2] == "**" && t[r] == '*' && t[r + 1] == '*'
    requires forall k :: 2 <= k < r ==> NotStarOrNewline(t[k])
    requires p == r + 3 ==> t[r + 2] == ':'
    requires t[p] == '\n' && forall k :: p < k < q ==> t[k] == ' '
    requires t[q] in "-*+" && t[q + 1] == ' '
    ensures LabelParts(t) == Some((p, p + 1, q))
  {
    LabelEndAt(t, r, p);
    MarkerLineAt(t, p, q);
  }

  lemma LabelEndAt(t: string, r: nat, p: nat)
    requires r > 2 && (p == r + 2 || p == r + 3) && p < |t|
    requires t[..2] == "**" && t[r] == '*' && t[r + 1] == '*'
    requires forall k :: 2 <= k < r ==> NotStarOrNewline(t[k])
    requires p == r + 3 ==> t[r + 2] == ':'
    requires t[p] == '\n'
    ensures LabelEnd(t) == Some(p)
  {
    SpanIs(t, 2, NotStarOrNewline, r);
    assert t[r..r + 2] == "**";
  }

  lemma MarkerLineAt(t: string, p: nat, q: nat)
    requires p < q && q + 1 < |t|
    requires t[p] == '\n' && forall k :: p < k < q ==> t[k] == ' '
    requires t[q] in "-*+" && t[q + 1] == ' '
    ensures MarkerLineAfter(t, p) == Some((p, p + 1, q))
  {
    SpanIs(t, p, IsJsSpace, q);
    SpanBackIs(t, p, q, IsSpace, p + 1);
  }

  /** `SpanBack` is determined by its postconditions. */
  lemma {:induction false} SpanBackIs(t: string, lo: nat, hi: nat, p: char -> bool, j: nat)
    requires lo <= j <= hi <= |t|
    requires forall k :: j <= k < hi ==> p(t[k])
    requires j > lo ==> !p(t[j - 1])
    ensures SpanBack(t, lo, hi, p) == j
    decreases hi
  {
    if hi > j {
      SpanBackIs(t, lo, hi - 1, p, j);
    }
  }

  /** Where `LabelParts` finds a bold label followed directly by a list-marker line. */
  lemma LabelPartsOf(name: string, colon: string, sp: string, mk: char, rest: string, t: string, p: nat, q: nat)
    requires |name| >= 1 && forall k :: 0 <= k < |name| ==> NotStarOrNewline(name[k])
    requires colon == "" || colon == ":"
    requires forall k :: 0 <= k < |sp| ==> sp[k] == ' '
    requires mk in "-*+"
    requires t == ("**" + name + "**" + colon) + "\n" + (sp + [mk, ' ']) + rest
    requires p == |"**" + name + "**" + colon| && q == p + 1 + |sp|
    ensures LabelParts(t) == Some((p, p + 1, q))
  {
    LabelLayout(name, colon, sp, mk, rest, t, 2 + |name|, p, q);
    LabelPartsAt(t, 2 + |name|, p, q);
  }

  /**
   * Every match of the label pattern has that shape: `**`, a name of at least one
   * character other than `*` and `'\n'`, `**`, the colon when there is one, white space
   * ending in `'\n'` and spaces only after it, then a list marker and a space.
   */
  lemma LabelPartsShape(t: string)
    requires LabelParts(t).Some?
    ensures var (p, s, q) := LabelParts(t).value;
      exists r :: 2 < r && r + 2 <= p && StartsWith(t, "**") && OccursAt(t, "**", r)
        && (forall k :: 2 <= k < r ==> NotStarOrNewline(t[k]))
        && ((p == r + 3 && t[r + 2] == ':') || (p == r + 2 && !(p < |t| && t[p] == ':')))
    ensures var (p, s, q) := LabelParts(t).value;
      (forall k :: p <= k < s ==> IsJsSpace(t[k])) && t[s - 1] == '\n'
      && (forall k :: s <= k < q ==> t[k] == ' ') && q + 1 < |t| && t[q] in "-*+" && t[q + 1] == ' '
  {
    var r := Span(t, 2, NotStarOrNewline);
    var p := LabelEnd(t).value;
    assert p == (if r + 2 < |t| && t[r + 2] == ':' then r + 3 else r + 2);
    var q := Span(t, p, IsJsSpace);
    var s := SpanBack(t, p, q, IsSpace);
    assert LabelParts(t).value == (p, s, q);
  }

  /** Where the pieces of a label followed by a marker line sit in the text. */
  lemma LabelLayout(name: string, colon: string, sp: string, mk: char, rest: string, t: string, r: nat, p: nat, q: nat)
    requires |name| >= 1 && forall k :: 0 <= k < |name| ==> NotStarOrNewline(name[k])
    requires colon == "" || colon == ":"
    requires forall k :: 0 <= k < |sp| ==> sp[k] == ' '
    requires mk in "-*+"
    requires t == ("**" + name + "**" + colon) + "\n" + (sp + [mk, ' ']) + rest
    requires r == 2 + |name| && p == |"**" + name + "**" + colon| && q == p + 1 + |sp|
    ensures r > 2 && (p == r + 2 || p == r + 3) && p < q && q + 1 < |t|
    ensures t[..2] == "**" && t[r] == '*' && t[r + 1] == '*'
    ensures forall k :: 2 <= k < r ==> NotStarOrNewline(t[k])
    ensures p == r + 3 ==> t[r + 2] == ':'
    ensures t[p] == '\n' && forall k :: p < k < q ==> t[k] == ' '
    ensures t[q] in "-*+" && t[q + 1] == ' '
  {
    var head := "**" + name + "**" + colon;
    var tl := sp + [mk, ' '];
    assert t[..2] == "**";
    forall k | 2 <= k < r ensures NotStarOrNewline(t[k]) {
      assert t[k] == name[k - 2];
    }
    assert t[r] == '*' && t[r + 1] == '*';
    assert colon == ":" ==> t[r + 2] == ':';
    assert t[p] == '\n';
    forall k | p < k < q ensures t[k] == ' ' {
      assert t[k] == tl[k - p - 1] == sp[k - p - 1];
    }
    assert t[q] == tl[|sp|] == mk;
    assert t[q + 1] == tl[|sp| + 1] == ' ';
  }

  lemma LabelRewriteAt(m: string, p: nat, s: nat, q: nat)
    requires LabelParts(m) == Some((p, s, q))
    ensures p <= s <= |m| && LabelRewrite(m) == m[..p] + "\n\n" + m[s..]
  {
  }

  lemma ThreeParts(x: string, y: string, z: string)
    ensures (x + y + z)[..|x|] == x && (x + y + z)[|x| + |y|..] == z
  {
  }

  lemma LabelRewriteSplit(head: string, tail: string, m: string, p: nat, q: nat)
    requires m == head + "\n" + tail && p == |head| && LabelParts(m) == Some((p, p + 1, q))
    ensures LabelRewrite(m) == head + "\n\n" + tail
  {
    LabelRewriteAt(m, p, p + 1, q);
    ThreeParts(head, "\n", tail);
  }

  lemma LabelRewriteOf(name: string, colon: string, sp: string, mk: char)
    requires |name| >= 1 && forall k :: 0 <= k < |name| ==> NotStarOrNewline(name[k])
    requires colon == "" || colon == ":"
    requires forall k :: 0 <= k < |sp| ==> sp[k] == ' '
    requires mk in "-*+"
    ensures LabelRewrite(("**" + name + "**" + colon) + "\n" + (sp + [mk, ' ']))
      == ("**" + name + "**" + colon) + "\n\n" + (sp + [mk, ' '])
  {
    var head := "**" + name + "**" + colon;
    LabelRewriteOfLine(name, colon, sp, mk, head, head + "\n" + (sp + [mk, ' ']), |head|, |head| + 1 + |sp|);
  }

  lemma LabelRewriteOfLine(name: string, colon: string, sp: string, mk: char, head: string, m: string, p: nat, q: nat)
    requires |name| >= 1 && forall k :: 0 <= k < |name| ==> NotStarOrNewline(name[k])
    requires colon == "" || colon == ":"
    requires forall k :: 0 <= k < |sp| ==> sp[k] == ' '
    requires mk in "-*+"
    requires head == "**" + name + "**" + colon && m == head + "\n" + (sp + [mk, ' '])
    requires p == |head| && q == p + 1 + |sp|
    ensures LabelRewrite(m) == head + "\n\n" + (sp + [mk, ' '])
  {
    LabelPartsOfLine(name, colon, sp, mk, m, p, q);
    LabelRewriteSplit(head, sp + [mk, ' '], m, p, q);
  }

  lemma LabelPartsOfLine(name: string, colon: string, sp: string, mk: char, m: string, p: nat, q: nat)
    requires |name| >= 1 && forall k :: 0 <= k < |name| ==> NotStarOrNewline(name[k])
    requires colon == "" || colon == ":"
    requires forall k :: 0 <= k < |sp| ==> sp[k] == ' '
    requires mk in "-*+"
    requires m == ("**" + name + "**" + colon) + "\n" + (sp + [mk, ' '])
    requires p == |"**" + name + "**" + colon| && q == p + 1 + |sp|
    ensures LabelParts(m) == Some((p, p + 1, q))
  {
    assert m + [] == m;
    LabelPartsOf(name, colon, sp, mk, [], m, p, q);
  }

  /**
   * A bold label, with or without a colon, directly followed by a line that starts with a
   * list marker: a blank line is put between the two.
   */
  lemma LabelSpaced(a: string, name: string, colon: string, sp: string, mk: char, rest: string)
    requires |name| >= 1 && forall k :: 0 <= k < |name| ==> NotStarOrNewline(name[k])
    requires colon == "" || colon == ":"
    requires forall k :: 0 <= k < |sp| ==> sp[k] == ' '
    requires mk in "-*+"
    requires NoMatchBefore(LabelMatch, a + (("**" + name + "**" + colon) + "\n" + (sp + [mk, ' '])) + rest, true, |a|)
    ensures LabelPass(a + (("**" + name + "**" + colon) + "\n" + (sp + [mk, ' '])) + rest)
      == a + (("**" + name + "**" + colon) + "\n\n" + (sp + [mk, ' ']))
         + ReplaceAll(LabelMatch, LabelRewrite, rest, false)
  {
    var m := ("**" + name + "**" + colon) + "\n" + (sp + [mk, ' ']);
    LabelPartsOf(name, colon, sp, mk, rest, m + rest, |m| - |sp| - 3, |m| - 2);
    LabelRewriteOf(name, colon, sp, mk);
    assert m[|m| - 1] == ' ';
    LabelPassFirst(a, m, rest, ("**" + name + "**" + colon) + "\n\n" + (sp + [mk, ' ']));
  }

  /** The first label of the text, `m` after a stretch `a` without one, is rewritten to `r`. */
  lemma LabelPassFirst(a: string, m: string, rest: string, r: string)
    requires NoMatchBefore(LabelMatch, a + m + rest, true, |a|)
    requires m != [] && m[|m| - 1] == ' ' && LabelMatch(m + rest, BolAt(a + m + rest, |a|, true)) == |m|
    requires LabelRewrite(m) == r
    ensures LabelPass(a + m + rest) == a + r + ReplaceAll(LabelMatch, LabelRewrite, rest, false)
  {
    ReplaceAllFirst(LabelMatch, LabelRewrite, a, m, rest, true);
  }

  /** Line 64 on one line: a `*` or `+` marker after the leading spaces becomes `-`. */
  function StdLine(l: string): string {
    var k := Span(l, 0, IsSpace);
    if k < |l| && l[k] in "*+" then l[..k] + "-" + l[k + 1..] else l
  }

  /** Line 70 on one line: an indented line not starting with `-` gains two spaces. */
  function IndentLine(l: string): string {
    var k := Span(l, 0, IsSpace);
    if 1 <= k < |l| && l[k] != '-' && !IsJsSpace(l[k]) then l[..k] + "  " + l[k..] else l
  }

  lemma SpacesThen(sp: string, x: string)
    requires forall k :: 0 <= k < |sp| ==> sp[k] == ' '
    requires x != [] && x[0] != ' '
    ensures Span(sp + x, 0, IsSpace) == |sp| && (sp + x)[..|sp|] == sp && (sp + x)[|sp|..] == x
  {
    SpanIs(sp + x, 0, IsSpace, |sp|);
  }

  /** A `*` or `+` marker after leading spaces becomes `-`; the spaces are kept. */
  lemma StdLineMarker(sp: string, mk: char, x: string)
    requires forall k :: 0 <= k < |sp| ==> sp[k] == ' '
    requires mk == '*' || mk == '+'
    ensures StdLine(sp + [mk] + x) == sp + "-" + x
  {
    SpacesThen(sp, [mk] + x);
    assert sp + [mk] + x == sp + ([mk] + x);
    assert (sp + [mk] + x)[|sp| + 1..] == x;
  }

  /** An indented line whose first other character is not `-` gains exactly two spaces. */
  lemma IndentLineAddsTwo(sp: string, x: string)
    requires |sp| >= 1 && forall k :: 0 <= k < |sp| ==> sp[k] == ' '
    requires x != [] && x[0] != '-' && !IsJsSpace(x[0])
    ensures IndentLine(sp + x) == sp + "  " + x
  {
    SpacesThen(sp, x);
  }

  /** A nested `-` item, and any line without leading spaces, is left as it is. */
  lemma IndentLineKeepsItems(sp: string, x: string)
    requires forall k :: 0 <= k < |sp| ==> sp[k] == ' '
    requires x != [] && x[0] != ' '
    requires x[0] == '-' || sp == []
    ensures IndentLine(sp + x) == sp + x
  {
    SpacesThen(sp, x);
  }

  /** Re-indenting a continuation line again indents it further: the pass is not idempotent. */
  lemma IndentLineNotIdempotent()
    ensures IndentLine(IndentLine(" x")) != IndentLine(" x")
  {
    SpacesThen(" ", "x");
    assert IndentLine(" x") == "   x";
    SpacesThen("   ", "x");
    assert IndentLine("   x") == "     x";
  }

  lemma StdLineNoTerminator(l: string)
    requires NoLineTerminator(l)
    ensures NoLineTerminator(StdLine(l))
  {
    var k := Span(l, 0, IsSpace);
    if k < |l| && l[k] in "*+" {
      var r := StdLine(l);
      forall j | 0 <= j < |r| ensures !IsLineTerminator(r[j]) {
        if j < k {
          assert r[j] == l[j];
        } else if j > k {
          assert r[j] == l[j];
        }
      }
    }
  }

  lemma BulletLine(l: string, rest: string)
    requires NoLineTerminator(l)
    ensures LineRewritesTo(BulletMatch, BulletRewrite, l, rest, StdLine(l))
  {
    var t := l + "\n" + rest;
    assert t == l + ("\n" + rest);
    SpanAppend(l, "\n" + rest, 0, IsSpace);
    var k := Span(l, 0, IsSpace);
    assert t[0..] == t;
    if k == |l| {
      assert t[k] == '\n';
    } else {
      assert t[k] == l[k];
      assert l[..k + 1][..k] == l[..k];
    }
  }

  lemma IndentLineRewrite(l: string, rest: string)
    requires NoLineTerminator(l)
    ensures LineRewritesTo(IndentMatch, IndentRewrite, l, rest, IndentLine(l))
  {
    var t := l + "\n" + rest;
    assert t == l + ("\n" + rest);
    SpanAppend(l, "\n" + rest, 0, IsSpace);
    var k := Span(l, 0, IsSpace);
    assert t[0..] == t;
    if k == |l| {
      assert t[k] == '\n';
    } else {
      assert t[k] == l[k];
      assert l[..k + 1][..k] == l[..k] && l[..k + 1][k] == l[k];
      assert [l[k]] + l[k + 1..] == l[k..];
    }
  }

  /** `ColonRewrite` gives back the text it is given: `'$1:$2'` rebuilds the match. */
  lemma ColonRewriteKeeps(m: string)
    ensures ColonRewrite(m) == m
  {
    var c := Span(m, 0, NotColon);
    if c < |m| {
      assert m == m[..c] + [m[c]] + m[c + 1..];
    }
  }

  /** The replace of line 67 changes nothing. */
  lemma ColonPassKeeps(t: string)
    ensures ReplaceAll(ColonMatch, ColonRewrite, t, true) == t
  {
    forall k | 0 <= k < |t| ensures KeptAt(ColonMatch, ColonRewrite, t, true, k) {
      ColonRewriteKeeps(t[k..k + MatchAt(ColonMatch, t, true, k)]);
    }
    ReplaceAllKept(ColonMatch, ColonRewrite, t, true);
  }

  /**
   * Over a list block made of lines free of line terminators, the three rewrites act line
   * by line: markers are standardised, then continuation lines are re-indented.
   */
  lemma StandardizeListLines(ls: seq<string>)
    requires forall i :: 0 <= i < |ls| ==> NoLineTerminator(ls[i])
    ensures StandardizeList(LinesText(ls)) == LinesText(MapLines(IndentLine, MapLines(StdLine, ls)))
  {
    forall i, rest | 0 <= i < |ls| ensures LineRewritesTo(BulletMatch, BulletRewrite, ls[i], rest, StdLine(ls[i])) {
      BulletLine(ls[i], rest);
    }
    ReplaceAllLines(BulletMatch, BulletRewrite, StdLine, ls);
    var std := MapLines(StdLine, ls);
    ColonPassKeeps(LinesText(std));
    forall i | 0 <= i < |std| ensures NoLineTerminator(std[i]) {
      StdLineNoTerminator(ls[i]);
    }
    forall i, rest | 0 <= i < |std| ensures LineRewritesTo(IndentMatch, IndentRewrite, std[i], rest, IndentLine(std[i])) {
      IndentLineRewrite(std[i], rest);
    }
    ReplaceAllLines(IndentMatch, IndentRewrite, IndentLine, std);
  }

  /** `ListBlockMatch` with the text after its first line given. */
  lemma ListBlockMatchIs(t: string, bol: bool, body: string)
    requires t != [] && t[0] == '\n' && StartsWithRow(t[1..], IsListItemRow)
    requires body == AfterLine(t[1..])
    ensures ListBlockMatch(t, bol) == |t| - |body| + RowsLen(body, IsListBlockRow)
  {
  }

  lemma ListBlockMatchOf(ls: seq<string>, c: string, bol: bool)
    requires |ls| >= 1 && IsListItemRow(ls[0])
    requires forall i :: 0 <= i < |ls| ==> '\n' !in ls[i] && IsListBlockRow(ls[i])
    requires !StartsWithRow(c, IsListBlockRow)
    ensures ListBlockMatch("\n" + LinesText(ls) + c, bol) == 1 + |LinesText(ls)|
  {
    var x := LinesText(ls[1..]) + c;
    HeadTail(ls);
    AfterLeadingNewline(ls[0], ls[1..], c);
    FirstLine(ls[0], x);
    RowsLenLines(ls[1..], c, IsListBlockRow);
    ListBlockMatchIs("\n" + LinesText(ls) + c, bol, x);
  }

  /**
   * A list block (an item line, then item or indented lines, after a `'\n'`) is rewritten
   * line by line and gets a blank line on each side.
   */
  lemma ListBlockPadded(a: string, ls: seq<string>, c: string)
    requires |ls| >= 1 && IsListItemRow(ls[0])
    requires forall i :: 0 <= i < |ls| ==> NoLineTerminator(ls[i]) && IsListBlockRow(ls[i])
    requires !StartsWithRow(c, IsListBlockRow)
    requires NoMatchBefore(ListBlockMatch, a + ("\n" + LinesText(ls)) + c, true, |a|)
    ensures ListBlocksPass(a + ("\n" + LinesText(ls)) + c)
      == a + ("\n\n" + LinesText(MapLines(IndentLine, MapLines(StdLine, ls))) + "\n\n")
         + ReplaceAll(ListBlockMatch, ListRewrite, c, true)
  {
    var m := "\n" + LinesText(ls);
    forall i | 0 <= i < |ls| ensures '\n' !in ls[i] {
      NoTerminatorNoNewline(ls[i]);
    }
    ListBlockMatchOf(ls, c, BolAt(a + m + c, |a|, true));
    LinesTextEndsWithNewline(ls);
    assert m[|m| - 1] == '\n';
    ReplaceAllFirst(ListBlockMatch, ListRewrite, a, m, c, true);
    assert m[1..] == LinesText(ls);
    StandardizeListLines(ls);
  }

  // ---------------------------------------------------------------------------------------
  // Description lists

  /** The term of a `term: definition` line: the text before its first colon. */
  function Term(l: string): string {
    l[..Span(l, 0, NotColon)]
  }

  /** The blanks between the colon and the definition. */
  function Blanks(l: string): string
    requires Span(l, 0, NotColon) < |l|
  {
    l[Span(l, 0, NotColon) + 1..DefinitionStart(l)]
  }

  /** The definition of a `term: definition` line. */
  function Definition(l: string): string
    requires Span(l, 0, NotColon) < |l|
  {
    l[DefinitionStart(l)..]
  }

  /**
   * A `term: definition` line is the term (no colon in it), a colon, at least one blank
   * and a non-empty definition; the rewrite of line 88 turns it into the term, a line
   * break and `: ` followed by the definition.
   */
  lemma DescLineShape(l: string)
    requires IsDescRow(l)
    ensures |Term(l)| >= 1 && ':' !in Term(l)
    ensures |Blanks(l)| >= 1 && forall k :: 0 <= k < |Blanks(l)| ==> IsBlankChar(Blanks(l)[k])
    ensures |Definition(l)| >= 1
    ensures l == Term(l) + ":" + Blanks(l) + Definition(l)
    ensures DescLineRewrite(l) == Term(l) + "\n: " + Definition(l)
  {
    var c := Span(l, 0, NotColon);
    var g := DefinitionStart(l);
    var b := Span(l, c + 1, IsBlankChar);
    assert c + 1 < g;
    forall k | 0 <= k < |Blanks(l)| ensures IsBlankChar(Blanks(l)[k]) {
      assert Blanks(l)[k] == l[c + 1 + k];
    }
    forall k | 0 <= k < c ensures Term(l)[k] != ':' {
      assert Term(l)[k] == l[k];
    }
    assert l[..c + 1] == l[..c] + [l[c]];
    assert l[..g] == l[..c + 1] + l[c + 1..g];
    assert l == l[..g] + l[g..];
  }

  /** `DescLineMatch` with its intermediate positions given. */
  lemma DescLineMatchIs(t: string, c: nat, b: nat, e: nat)
    requires c == Span(t, 0, NotColon) && 1 <= c < |t|
    requires b == Span(t, c + 1, IsBlankChar) && e == LineEnd(t, b)
    requires b > c + 1 && (e > b || b >= c + 3)
    ensures DescLineMatch(t, true) == e
  {
  }

  lemma DescLineMatchOf(l: string, rest: string)
    requires IsDescRow(l) && '\n' !in l
    ensures DescLineMatch(l + "\n" + rest, true) == |l|
  {
    var t := l + ("\n" + rest);
    AppendAssoc(l, "\n", rest);
    var c := Span(l, 0, NotColon);
    SpanAppend(l, "\n" + rest, 0, NotColon);
    SpanAppend(l, "\n" + rest, c + 1, IsBlankChar);
    var b := Span(l, c + 1, IsBlankChar);
    forall k | b <= k < |l| ensures t[k] != '\n' {
      assert t[k] == l[k];
    }
    assert t[|l|] == '\n';
    SpanIs(t, b, c => c != '\n', |l|);
    DescLineMatchIs(t, c, b, |l|);
  }

  lemma DescLineRewritten(l: string, rest: string)
    requires IsDescRow(l) && NoLineTerminator(l)
    ensures LineRewritesTo(DescLineMatch, DescLineRewrite, l, rest, DescLineRewrite(l))
  {
    var t := l + "\n" + rest;
    NoTerminatorNoNewline(l);
    DescLineMatchOf(l, rest);
    assert t[0..] == t;
    assert l[..|l|] == l;
  }

  /** `DescMatch` with the length of its run of rows given. */
  lemma DescMatchIs(t: string, bol: bool, n: nat)
    requires t != [] && t[0] == '\n' && n == RowsLen(t[1..], IsDescRow) && n > 0
    ensures DescMatch(t, bol) == 1 + n
  {
  }

  lemma DescMatchOf(ls: seq<string>, c: string, bol: bool)
    requires |ls| >= 1
    requires forall i :: 0 <= i < |ls| ==> '\n' !in ls[i] && IsDescRow(ls[i])
    requires !StartsWithRow(c, IsDescRow)
    ensures DescMatch("\n" + LinesText(ls) + c, bol) == 1 + |LinesText(ls)|
  {
    var rows := LinesText(ls);
    AppendAssoc("\n", rows, c);
    AppendParts("\n", rows + c);
    RowsLenLines(ls, c, IsDescRow);
    LinesTextEndsWithNewline(ls);
    DescMatchIs("\n" + rows + c, bol, |rows|);
  }

  /**
   * A run of `term: definition` lines after a `'\n'` is rewritten line by line into
   * definition-list form and gets a blank line on each side.
   */
  lemma DescListPadded(a: string, ls: seq<string>, c: string)
    requires |ls| >= 1
    requires forall i :: 0 <= i < |ls| ==> NoLineTerminator(ls[i]) && IsDescRow(ls[i])
    requires !StartsWithRow(c, IsDescRow)
    requires NoMatchBefore(DescMatch, a + ("\n" + LinesText(ls)) + c, true, |a|)
    ensures EnhanceDescriptionLists(a + ("\n" + LinesText(ls)) + c)
      == a + ("\n\n" + LinesText(MapLines(DescLineRewrite, ls)) + "\n\n")
         + ReplaceAll(DescMatch, DescRewrite, c, true)
  {
    var m := "\n" + LinesText(ls);
    forall i | 0 <= i < |ls| ensures '\n' !in ls[i] {
      NoTerminatorNoNewline(ls[i]);
    }
    DescMatchOf(ls, c, BolAt(a + m + c, |a|, true));
    LinesTextEndsWithNewline(ls);
    assert m[|m| - 1] == '\n';
    ReplaceAllFirst(DescMatch, DescRewrite, a, m, c, true);
    assert m[1..] == LinesText(ls);
    forall i, rest | 0 <= i < |ls| ensures LineRewritesTo(DescLineMatch, DescLineRewrite, ls[i], rest, DescLineRewrite(ls[i])) {
      DescLineRewritten(ls[i], rest);
    }
    ReplaceAllLines(DescLineMatch, DescLineRewrite, DescLineRewrite, ls);
  }
}

=== FILE: scan.dfy ===
/**
 * `String.prototype.replace` and `String.prototype.match` with a global regular
 * expression. The regular expression itself is given as a `Matcher`, written out by hand
 * for each pattern of the converter; this module only fixes how a global search walks
 * the text: leftmost match first, the search resuming where the last match ended.
 */
module Scan {
  import opened JsText

  /**
   * A compiled global pattern. Applied to the text from the current search position on,
   * and told whether that position is at the start of a line (where `^` matches in
   * multiline mode), it gives the length of the match that starts there, or 0 when none
   * does. None of the patterns of the converter can match the empty string.
   */
  type Matcher = (string, bool) -> nat

  /** Whether position `k` of `t` is at the start of a line; `bol` says it for position 0. */
  function BolAt(t: string, k: nat, bol: bool): bool
    requires k <= |t|
  {
    if k == 0 then bol else IsLineTerminator(t[k - 1])
  }

  /** Length of the match that starts at position `k` of `t`, 0 when there is none. */
  function MatchAt(m: Matcher, t: string, bol: bool, k: nat): (n: nat)
    requires k <= |t|
    ensures n <= |t| - k
  {
    var n := m(t[k..], BolAt(t, k, bol));
    if n <= |t| - k then n else 0
  }

  /**
   * `t.replace(regex, rw)`: each match, leftmost first and never overlapping another,
   * is replaced by `rw` of the matched text; the text between matches is copied.
   */
  function ReplaceAll(m: Matcher, rw: string -> string, t: string, bol: bool): string
    decreases |t|
  {
    if t == [] then []
    else
      var n := MatchAt(m, t, bol, 0);
      if n > 0 then rw(t[..n]) + ReplaceAll(m, rw, t[n..], IsLineTerminator(t[n - 1]))
      else [t[0]] + ReplaceAll(m, rw, t[1..], IsLineTerminator(t[0]))
  }

  /** Position and length of the first match at or after position `i`. */
  function NextMatch(m: Matcher, t: string, bol: bool, i: nat): (r: Option<(nat, nat)>)
    requires i <= |t|
    ensures r.Some? ==> i <= r.value.0 < |t| && r.value.1 == MatchAt(m, t, bol, r.value.0) > 0
    ensures r.Some? ==> forall k :: i <= k < r.value.0 ==> MatchAt(m, t, bol, k) == 0
    ensures r.None? ==> forall k :: i <= k < |t| ==> MatchAt(m, t, bol, k) == 0
    decreases |t| - i
  {
    if i == |t| then None
    else if MatchAt(m, t, bol, i) > 0 then Some((i, MatchAt(m, t, bol, i)))
    else NextMatch(m, t, bol, i + 1)
  }

  /**
   * `t.match(regex)` from position `i` on: the matched texts in order, the empty sequence
   * standing for `null`.
   */
  function Matches(m: Matcher, t: string, bol: bool, i: nat): (r: seq<string>)
    requires i <= |t|
    ensures r == [] <==> forall k :: i <= k < |t| ==> MatchAt(m, t, bol, k) == 0
    decreases |t| - i
  {
    match NextMatch(m, t, bol, i)
    case None => []
    case Some((k, n)) => [t[k..k + n]] + Matches(m, t, bol, k + n)
  }

  /** No match starts before position `j` of `t`. */
  predicate NoMatchBefore(m: Matcher, t: string, bol: bool, j: nat)
    requires j <= |t|
  {
    forall k :: 0 <= k < j ==> MatchAt(m, t, bol, k) == 0
  }

  /** Searching a suffix gives what searching the whole text gives further on. */
  lemma MatchAtShift(m: Matcher, t: string, bol: bool, d: nat, k: nat)
    requires 1 <= d <= |t| && k <= |t| - d
    ensures MatchAt(m, t[d..], IsLineTerminator(t[d - 1]), k) == MatchAt(m, t, bol, d + k)
  {
    DropDrop(t, d, k);
  }

  /** Where no match starts at position 0, the first character is copied. */
  lemma ReplaceAllCopyFirst(m: Matcher, rw: string -> string, t: string, bol: bool)
    requires t != [] && MatchAt(m, t, bol, 0) == 0
    ensures ReplaceAll(m, rw, t, bol) == [t[0]] + ReplaceAll(m, rw, t[1..], IsLineTerminator(t[0]))
  {
  }

  /** Dropping the first character of `a` keeps whether the end of `a` starts a line. */
  lemma BolAtTail(a: string, b: string, bol: bool)
    requires a != []
    ensures BolAt(a[1..] + b, |a| - 1, IsLineTerminator(a[0])) == BolAt(a + b, |a|, bol)
  {
    if |a| > 1 {
      assert (a[1..] + b)[|a| - 2] == (a + b)[|a| - 1];
    }
  }

  /** Where no match starts inside `a`, none starts inside `a` without its first character. */
  lemma NoMatchInTail(m: Matcher, a: string, b: string, bol: bool)
    requires a != []
    requires forall k :: 0 <= k < |a| ==> MatchAt(m, a + b, bol, k) == 0
    ensures forall k :: 0 <= k < |a| - 1 ==> MatchAt(m, a[1..] + b, IsLineTerminator(a[0]), k) == 0
  {
    var t := a + b;
    AppendTail(a, b);
    forall k | 0 <= k < |a| - 1 ensures MatchAt(m, a[1..] + b, IsLineTerminator(a[0]), k) == 0 {
      MatchAtShift(m, t, bol, 1, k);
    }
  }

  /** Where no match starts inside `a`, `a` is copied unchanged. */
  lemma {:induction false} ReplaceAllCopy(m: Matcher, rw: string -> string, a: string, b: string, bol: bool)
    requires forall k :: 0 <= k < |a| ==> MatchAt(m, a + b, bol, k) == 0
    ensures ReplaceAll(m, rw, a + b, bol) == a + ReplaceAll(m, rw, b, BolAt(a + b, |a|, bol))
    decreases |a|
  {
    if a != [] {
      var t := a + b;
      var bol' := IsLineTerminator(a[0]);
      AppendTail(a, b);
      ReplaceAllCopyFirst(m, rw, t, bol);
      NoMatchInTail(m, a, b, bol);
      ReplaceAllCopy(m, rw, a[1..], b, bol');
      BolAtTail(a, b, bol);
      AppendAssoc([a[0]], a[1..], ReplaceAll(m, rw, b, BolAt(t, |a|, bol)));
      HeadTail(a);
    }
  }

  /** The search at the end of `a` is the search at the start of `b`. */
  lemma MatchAtFront(m: Matcher, a: string, b: string, bol: bool)
    ensures MatchAt(m, b, BolAt(a + b, |a|, bol), 0) == MatchAt(m, a + b, bol, |a|)
  {
    AppendParts(a, b);
  }

  /** A match of length `n` at the start of `t` is replaced and the search resumes after it. */
  lemma ReplaceAllMatchFirst(m: Matcher, rw: string -> string, t: string, bol: bool, n: nat)
    requires t != [] && n == MatchAt(m, t, bol, 0) && n > 0
    ensures ReplaceAll(m, rw, t, bol) == rw(t[..n]) + ReplaceAll(m, rw, t[n..], IsLineTerminator(t[n - 1]))
  {
  }

  /** The first match of `t = a + b`, at position `|a|`, is replaced and the search resumes after it. */
  lemma ReplaceAllAt(m: Matcher, rw: string -> string, t: string, a: string, b: string, bol: bool)
    requires t == a + b
    requires forall k :: 0 <= k < |a| ==> MatchAt(m, t, bol, k) == 0
    requires MatchAt(m, t, bol, |a|) > 0
    ensures var n := MatchAt(m, t, bol, |a|);
      ReplaceAll(m, rw, t, bol) == a + rw(b[..n]) + ReplaceAll(m, rw, b[n..], IsLineTerminator(b[n - 1]))
  {
    var n := MatchAt(m, t, bol, |a|);
    var bol' := BolAt(t, |a|, bol);
    ReplaceAllCopy(m, rw, a, b, bol);
    MatchAtFront(m, a, b, bol);
    ReplaceAllMatchFirst(m, rw, b, bol', n);
    AppendAssoc(a, rw(b[..n]), ReplaceAll(m, rw, b[n..], IsLineTerminator(b[n - 1])));
  }

  /**
   * The first match is the text `mt`, right after `a`: the result is `a`, the replacement
   * of `mt`, and the replace carried on over what follows.
   */
  lemma ReplaceAllFirst(m: Matcher, rw: string -> string, a: string, mt: string, rest: string, bol: bool)
    requires NoMatchBefore(m, a + mt + rest, bol, |a|)
    requires mt != [] && m(mt + rest, BolAt(a + mt + rest, |a|, bol)) == |mt|
    ensures ReplaceAll(m, rw, a + mt + rest, bol)
      == a + rw(mt) + ReplaceAll(m, rw, rest, IsLineTerminator(mt[|mt| - 1]))
  {
    var b := mt + rest;
    var t := a + mt + rest;
    AppendAssoc(a, mt, rest);
    AppendParts(a, b);
    assert MatchAt(m, t, bol, |a|) == |mt|;
    AppendParts(mt, rest);
    assert b[|mt| - 1] == mt[|mt| - 1];
    ReplaceAllAt(m, rw, t, a, b, bol);
  }

  /** Whether the match at `k`, if any, is replaced by exactly the text it matched. */
  predicate KeptAt(m: Matcher, rw: string -> string, t: string, bol: bool, k: nat)
    requires k <= |t|
  {
    var n := MatchAt(m, t, bol, k);
    n == 0 || rw(t[k..k + n]) == t[k..k + n]
  }

  /**
   * One step of the replace: the match at position 0, of length `n`, is replaced, or the
   * first character is copied when there is none; the search resumes `d` characters on.
   */
  lemma ReplaceAllStep(m: Matcher, rw: string -> string, t: string, bol: bool, n: nat, d: nat)
    requires t != [] && n == MatchAt(m, t, bol, 0) && d == if n > 0 then n else 1
    ensures d <= |t|
    ensures ReplaceAll(m, rw, t, bol)
      == (if n > 0 then rw(t[..n]) else [t[0]]) + ReplaceAll(m, rw, t[d..], IsLineTerminator(t[d - 1]))
  {
  }

  /** Every match of `t` kept as it is means every match of a suffix kept as it is. */
  lemma KeptShift(m: Matcher, rw: string -> string, t: string, bol: bool, d: nat, t': string, bol': bool)
    requires 1 <= d <= |t| && t' == t[d..] && bol' == IsLineTerminator(t[d - 1])
    requires forall k :: 0 <= k < |t| ==> KeptAt(m, rw, t, bol, k)
    ensures forall k :: 0 <= k < |t'| ==> KeptAt(m, rw, t', bol', k)
  {
    forall k | 0 <= k < |t'| ensures KeptAt(m, rw, t', bol', k) {
      MatchAtShift(m, t, bol, d, k);
      assert KeptAt(m, rw, t, bol, d + k);
      SliceOfDrop(t, d, k, k + MatchAt(m, t, bol, d + k));
    }
  }

  /** When every match is replaced by itself, the text comes back unchanged. */
  lemma {:induction false} ReplaceAllKept(m: Matcher, rw: string -> string, t: string, bol: bool)
    requires forall k :: 0 <= k < |t| ==> KeptAt(m, rw, t, bol, k)
    ensures ReplaceAll(m, rw, t, bol) == t
    decreases |t|
  {
    if t != [] {
      var n := MatchAt(m, t, bol, 0);
      var d := if n > 0 then n else 1;
      var t', bol' := t[d..], IsLineTerminator(t[d - 1]);
      ReplaceAllStep(m, rw, t, bol, n, d);
      KeptShift(m, rw, t, bol, d, t', bol');
      ReplaceAllKept(m, rw, t', bol');
      assert KeptAt(m, rw, t, bol, 0);
      TakeDrop(t, d);
    }
  }

  /** A replacement that gives back every text it is handed changes nothing. */
  lemma ReplaceAllIdentity(m: Matcher, rw: string -> string, t: string, bol: bool)
    requires forall u :: rw(u) == u
    ensures ReplaceAll(m, rw, t, bol) == t
  {
    forall k | 0 <= k < |t| ensures KeptAt(m, rw, t, bol, k) {
      var n := MatchAt(m, t, bol, k);
      assert rw(t[k..k + n]) == t[k..k + n];
    }
    ReplaceAllKept(m, rw, t, bol);
  }

  // ---------------------------------------------------------------------------------------
  // Patterns anchored with `^` in multiline mode, applied to '\n'-terminated lines

  /** The pattern can only match where `^` does. */
  ghost predicate Anchored(m: Matcher) {
    forall t :: m(t, false) == 0
  }

  predicate NoLineTerminator(l: string) {
    forall k :: 0 <= k < |l| ==> !IsLineTerminator(l[k])
  }

  /** The lines, each followed by `'\n'`. */
  function LinesText(ls: seq<string>): string
    decreases |ls|
  {
    if ls == [] then [] else ls[0] + "\n" + LinesText(ls[1..])
  }

  /**
   * The match at the start of line `l` ends inside `l` whatever text follows the line, and
   * replacing it while copying the rest of the line gives `r`.
   */
  ghost predicate LineRewritesTo(m: Matcher, rw: string -> string, l: string, rest: string, r: string) {
    var n := MatchAt(m, l + "\n" + rest, true, 0);
    n <= |l| && r == (if n > 0 then rw(l[..n]) + l[n..] else l)
  }

  lemma LinesTextCons(l: string, ls: seq<string>)
    ensures LinesText([l] + ls) == l + "\n" + LinesText(ls)
  {
    AppendParts([l], ls);
  }

  lemma {:induction false} LinesTextEndsWithNewline(ls: seq<string>)
    requires ls != []
    ensures |LinesText(ls)| > |ls[0]| && LinesText(ls)[|LinesText(ls)| - 1] == '\n'
    decreases |ls|
  {
    if |ls| > 1 {
      LinesTextEndsWithNewline(ls[1..]);
    }
  }

  function MapLines(f: string -> string, ls: seq<string>): (r: seq<string>)
    ensures |r| == |ls|
    ensures forall i :: 0 <= i < |ls| ==> r[i] == f(ls[i])
    decreases |ls|
  {
    if ls == [] then [] else [f(ls[0])] + MapLines(f, ls[1..])
  }

  /** A `'\n'` where nothing matches is copied, and the next line starts after it. */
  lemma ReplaceAllNewline(m: Matcher, rw: string -> string, rest: string, bol: bool)
    requires MatchAt(m, "\n" + rest, bol, 0) == 0
    ensures ReplaceAll(m, rw, "\n" + rest, bol) == "\n" + ReplaceAll(m, rw, rest, true)
  {
    AppendParts("\n", rest);
  }

  /** Past the first character of a line, an anchored pattern finds nothing in the line. */
  lemma NoMatchInLine(m: Matcher, a: string, b: string, bol: bool, k: nat)
    requires Anchored(m)
    requires NoLineTerminator(a)
    requires 0 < k <= |a| && k <= |a + b|
    ensures MatchAt(m, a + b, bol, k) == 0
  {
    assert (a + b)[k - 1] == a[k - 1];
    assert !IsLineTerminator(a[k - 1]);
    assert m((a + b)[k..], false) == 0;
  }

  /** Inside a line, after its first character, an anchored pattern never matches. */
  lemma ReplaceAllLineTail(m: Matcher, rw: string -> string, a: string, rest: string, bol: bool)
    requires Anchored(m)
    requires NoLineTerminator(a)
    requires MatchAt(m, a + "\n" + rest, bol, 0) == 0
    ensures ReplaceAll(m, rw, a + "\n" + rest, bol) == a + "\n" + ReplaceAll(m, rw, rest, true)
  {
    var b := "\n" + rest;
    var bol' := BolAt(a + b, |a|, bol);
    AppendAssoc(a, "\n", rest);
    forall k | 0 <= k < |a| ensures MatchAt(m, a + b, bol, k) == 0 {
      if k > 0 {
        NoMatchInLine(m, a, b, bol, k);
      }
    }
    ReplaceAllCopy(m, rw, a, b, bol);
    if a != [] {
      NoMatchInLine(m, a, b, bol, |a|);
    }
    MatchAtFront(m, a, b, bol);
    ReplaceAllNewline(m, rw, rest, bol');
    AppendAssoc(a, "\n", ReplaceAll(m, rw, rest, true));
  }

  /** An anchored pattern rewrites one line free of line terminators on its own. */
  lemma ReplaceAllLine(m: Matcher, rw: string -> string, l: string, rest: string, r: string)
    requires Anchored(m)
    requires NoLineTerminator(l)
    requires LineRewritesTo(m, rw, l, rest, r)
    ensures ReplaceAll(m, rw, l + "\n" + rest, true) == r + "\n" + ReplaceAll(m, rw, rest, true)
  {
    var t := l + "\n" + rest;
    var n := MatchAt(m, t, true, 0);
    if n > 0 {
      var a := l[n..];
      var x := rw(l[..n]);
      AppendAssoc(l, "\n", rest);
      PrefixParts(l, "\n" + rest, n);
      AppendAssoc(a, "\n", rest);
      assert t[n - 1] == l[n - 1];
      assert m(a + "\n" + rest, false) == 0;
      ReplaceAllMatchFirst(m, rw, t, true, n);
      ReplaceAllLineTail(m, rw, a, rest, false);
      var tail := ReplaceAll(m, rw, rest, true);
      AppendAssoc(x, a + "\n", tail);
      AppendAssoc(x, a, "\n");
    } else {
      ReplaceAllLineTail(m, rw, l, rest, true);
    }
  }

  /**
   * An anchored pattern applied to lines free of line terminators rewrites each line on
   * its own, as `f` does.
   */
  lemma {:induction false} ReplaceAllLines(m: Matcher, rw: string -> string, f: string -> string, ls: seq<string>)
    requires Anchored(m)
    requires forall i :: 0 <= i < |ls| ==> NoLineTerminator(ls[i])
    requires forall i, rest :: 0 <= i < |ls| ==> LineRewritesTo(m, rw, ls[i], rest, f(ls[i]))
    ensures ReplaceAll(m, rw, LinesText(ls), true) == LinesText(MapLines(f, ls))
    decreases |ls|
  {
    if ls != [] {
      var rest := LinesText(ls[1..]);
      assert LineRewritesTo(m, rw, ls[0], rest, f(ls[0]));
      ReplaceAllLine(m, rw, ls[0], rest, f(ls[0]));
      ReplaceAllLines(m, rw, f, ls[1..]);
    }
  }
}

=== FILE: validator.dfy ===
/**
 * The style rules of the Markdown validator. Each rule reads the text of a document and
 * either passes it or fails it; the rules that work line by line also report the 1-based
 * numbers of the lines they complain about. Console output is not modelled: a rule
 * returns its problems instead of printing them.
 */
module MarkdownValidator {
  import opened JsText
  import opened Scan

  /** `content.replace(/\r\n/g, '\n')`. */
  function NormalizeLineEndings(s: string): (r: string)
    ensures '\r' !in s ==> r == s
    decreases |s|
  {
    if s == [] then []
    else if |s| >= 2 && s[0] == '\r' && s[1] == '\n' then "\n" + NormalizeLineEndings(s[2..])
    else [s[0]] + NormalizeLineEndings(s[1..])
  }

  /** `content.replace(/\r\n/g, '\n').split('\n')`. */
  function NormalizedLines(content: string): seq<string> {
    Split(NormalizeLineEndings(content), '\n')
  }

  /** Line numbers reported in increasing order, each once. */
  predicate Increasing(ns: seq<nat>) {
    forall a, b :: 0 <= a < b < |ns| ==> ns[a] < ns[b]
  }

  /** Appending a line number larger than all reported ones keeps the order. */
  lemma Push(ns: seq<nat>, x: nat)
    requires Increasing(ns) && forall n :: n in ns ==> n < x
    ensures Increasing(ns + [x])
    ensures forall n :: n in ns + [x] <==> n in ns || n == x
  {
    var r := ns + [x];
    forall a, b | 0 <= a < b < |r| ensures r[a] < r[b] {
      assert r[a] == ns[a] && ns[a] in ns;
      if b < |ns| {
        assert r[b] == ns[b];
      }
    }
  }

  /** The kinds of problem the line-by-line rules report, each under a 1-based line number. */
  datatype Finding = ListStart | BadNesting | ListEnd | QuoteStart | QuoteEnd | TableStart | TableEnd

  /** Whether a problem of kind `f` belongs under line number `n`. */
  predicate ReportedAt(f: Finding, lines: seq<string>, n: nat) {
    match f
    case ListStart => 2 <= n <= |lines| && ListStartAt(lines, n - 1)
    case BadNesting => 1 <= n <= |lines| && BadNestingAt(lines, n - 1)
    case ListEnd => 1 <= n < |lines| && ListEndAt(lines, n)
    case QuoteStart => 2 <= n <= |lines| && QuoteStartAt(lines, n - 1)
    case QuoteEnd => 1 <= n < |lines| && QuoteEndAt(lines, n)
    case TableStart => 1 <= n <= |lines| && TableStartAt(lines, n - 1)
    case TableEnd => 1 <= n <= |lines| && TableEndAt(lines, n - 1)
  }

  /** The line numbers up to `upTo` under which a problem of kind `f` belongs, in order. */
  function Reports(f: Finding, lines: seq<string>, upTo: nat): (r: seq<nat>)
    ensures Increasing(r)
    ensures forall n :: n in r <==> 1 <= n <= upTo && ReportedAt(f, lines, n)
    decreases upTo
  {
    if upTo == 0 then []
    else
      var before := Reports(f, lines, upTo - 1);
      if ReportedAt(f, lines, upTo) then Push(before, upTo); before + [upTo] else before
  }

  /** One line number further: it is appended exactly when a problem belongs under it. */
  lemma ReportsNext(f: Finding, lines: seq<string>, n: nat)
    requires n >= 1
    ensures ReportedAt(f, lines, n) ==> Reports(f, lines, n) == Reports(f, lines, n - 1) + [n]
    ensures !ReportedAt(f, lines, n) ==> Reports(f, lines, n) == Reports(f, lines, n - 1)
  {
  }

  /** `line.match(/^(\s*)/)[1].length`. */
  function Indent(l: string): nat {
    Span(l, 0, IsJsSpace)
  }

  /** `/^(\s*)(- |\* |\+ |\d+\. )/.test(l)`. */
  predicate IsListItem(l: string) {
    var k := Indent(l);
    (k + 1 < |l| && l[k] in "-*+" && l[k + 1] == ' ')
    || (var d := Span(l, k, IsDigit); d > k && d + 1 < |l| && l[d] == '.' && l[d + 1] == ' ')
  }

  /** `l.trimStart().startsWith('>')`. */
  predicate IsQuoteLine(l: string) {
    StartsWith(TrimStart(l), ">")
  }

  /** `l.trimStart().startsWith('|')`. */
  predicate IsTableLine(l: string) {
    StartsWith(TrimStart(l), "|")
  }

  /** `l.trim().endsWith(':')`. */
  predicate EndsWithColon(l: string) {
    EndsWith(Trim(l), ":")
  }

  // ---------------------------------------------------------------------------------------
  // checkManualSectionNumbers

  predicate IsHash(c: char) {
    c == '#'
  }

  /** End of the greedy `\d+(\.\d+)*` that starts with the digit at `i`. */
  function DottedNumberEnd(t: string, i: nat): (r: nat)
    requires i <= |t|
    ensures i <= r <= |t|
    decreases |t| - i
  {
    var d := Span(t, i, IsDigit);
    if d + 1 < |t| && t[d] == '.' && IsDigit(t[d + 1]) then DottedNumberEnd(t, d + 1) else d
  }

  /**
   * `/^#{1,6}\s+\d+(\.\d+)*\s+/m` at the start of `t`. Backtracking never helps: giving
   * back a `#`, a white space or a digit leaves that same character where the next part
   * of the pattern needs something else, so the match exists exactly when the greedy
   * reading ends in white space.
   */
  function ManualNumberMatch(t: string, bol: bool): nat {
    var h := Span(t, 0, IsHash);
    var w := Span(t, h, IsJsSpace);
    if bol && 1 <= h <= 6 && w > h && w < |t| && IsDigit(t[w]) then
      var e := DottedNumberEnd(t, w);
      var s := Span(t, e, IsJsSpace);
      if s > e then s else 0
    else 0
  }

  /** `checkManualSectionNumbers`: fails when `content.match` finds the pattern anywhere. */
  function CheckManualSectionNumbers(content: string): (ok: bool)
    ensures ok <==> forall k :: 0 <= k < |content| ==> MatchAt(ManualNumberMatch, content, true, k) == 0
  {
    Matches(ManualNumberMatch, content, true, 0) == []
  }

  /**
   * Where the pattern matches, a line starts with one to six `#`, white space and a
   * digit.
   */
  lemma NumberedHeadingShape(t: string, k: nat)
    requires k < |t| && MatchAt(ManualNumberMatch, t, true, k) > 0
    ensures k == 0 || IsLineTerminator(t[k - 1])
    ensures var h := Span(t, k, IsHash);
      var w := Span(t, h, IsJsSpace);
      1 <= h - k <= 6 && h < w < |t| && IsDigit(t[w])
  {
    var u := t[k..];
    var h := Span(u, 0, IsHash);
    var w := Span(u, h, IsJsSpace);
    SpanIs(t, k, IsHash, k + h);
    SpanIs(t, k + h, IsJsSpace, k + w);
  }

  predicate IsDottedNumber(num: string) {
    && num != [] && IsDigit(num[0]) && IsDigit(num[|num| - 1])
    && (forall k :: 0 <= k < |num| ==> IsDigit(num[k]) || num[k] == '.')
    && (forall k :: 0 <= k < |num| - 1 && num[k] == '.' ==> num[k + 1] != '.')
  }

  lemma {:induction false} DottedNumberEndOf(t: string, i: nat, num: string)
    requires IsDottedNumber(num)
    requires i + |num| < |t| && t[i..i + |num|] == num && !IsDigit(t[i + |num|]) && t[i + |num|] != '.'
    ensures DottedNumberEnd(t, i) == i + |num|
    decreases |num|
  {
    var d := Span(t, i, IsDigit);
    if d < i + |num| {
      DottedNumberDot(t, i, num, d);
      assert DottedNumberEnd(t, i) == DottedNumberEnd(t, d + 1);
      DottedNumberEndOf(t, d + 1, num[d - i + 1..]);
    } else {
      assert DottedNumberEnd(t, i) == d;
    }
  }

  /**
   * When the digits starting at `i` stop inside `num`, they stop at one of its dots, and
   * the rest of `num` after that dot is again a dotted number.
   */
  lemma DottedNumberDot(t: string, i: nat, num: string, d: nat)
    requires IsDottedNumber(num)
    requires i + |num| < |t| && t[i..i + |num|] == num
    requires d == Span(t, i, IsDigit) && d < i + |num|
    ensures t[d] == '.' && d + 1 < i + |num| && IsDigit(t[d + 1])
    ensures IsDottedNumber(num[d - i + 1..]) && t[d + 1..d + 1 + |num[d - i + 1..]|] == num[d - i + 1..]
  {
    var j := i + |num|;
    assert forall k :: i <= k < j ==> t[k] == num[k - i];
    assert t[d] == '.';
    assert d + 1 < j by {
      assert t[j - 1] == num[|num| - 1];
    }
    assert IsDigit(t[d + 1]) by {
      assert num[d - i + 1] != '.';
    }
    var rest := num[d - i + 1..];
    assert t[d + 1..d + 1 + |rest|] == rest;
    forall k | 0 <= k < |rest| - 1 && rest[k] == '.' ensures rest[k + 1] != '.' {
      assert rest[k] == num[d - i + 1 + k];
    }
  }

  /**
   * A line made of one to six `#`, white space, a dotted section number such as `2` or
   * `2.3`, and white space fails the rule, wherever the line is in the document.
   */
  lemma ManualNumberDetected(a: string, hashes: string, sp: string, num: string, sp2: string, rest: string)
    requires a == [] || a[|a| - 1] == '\n'
    requires 1 <= |hashes| <= 6 && forall k :: 0 <= k < |hashes| ==> hashes[k] == '#'
    requires sp != [] && AllJsSpace(sp) && sp2 != [] && AllJsSpace(sp2)
    requires IsDottedNumber(num)
    ensures !CheckManualSectionNumbers(a + (hashes + sp + num + sp2 + rest))
  {
    var l := hashes + sp + num + sp2 + rest;
    var t := a + l;
    assert t[|a|..] == l;
    ManualNumberMatchOf(hashes, sp, num, sp2, rest);
    assert MatchAt(ManualNumberMatch, t, true, |a|) > 0;
  }

  lemma ManualNumberMatchOf(hashes: string, sp: string, num: string, sp2: string, rest: string)
    requires 1 <= |hashes| <= 6 && forall k :: 0 <= k < |hashes| ==> hashes[k] == '#'
    requires sp != [] && AllJsSpace(sp) && sp2 != [] && AllJsSpace(sp2)
    requires IsDottedNumber(num)
    ensures ManualNumberMatch(hashes + sp + num + sp2 + rest, true) > 0
  {
    var l := hashes + sp + num + sp2 + rest;
    var h := |hashes|;
    var w := h + |sp|;
    var e := w + |num|;
    SpanIs(l, 0, IsHash, h);
    SpanIs(l, h, IsJsSpace, w);
    assert l[w..e] == num;
    DottedNumberEndOf(l, w, num);
    assert IsJsSpace(l[e]);
  }

  /**
   * A number followed by a dot, as in `## 1. Introduction`, is not caught: after `1` the
   * pattern needs white space or `.` and a digit.
   */
  lemma TrailingDotNumberPasses()
    ensures CheckManualSectionNumbers("## 1. Introduction")
  {
    var t := "## 1. Introduction";
    forall k | 0 <= k < |t| ensures MatchAt(ManualNumberMatch, t, true, k) == 0 {
      if k == 0 {
        TrailingDotNoMatch(t, 2, 3, 4);
        assert t[0..] == t;
      } else {
        assert !IsLineTerminator(t[k - 1]);
      }
    }
  }

  /**
   * A heading whose number is followed by a dot and then no digit is never matched: the
   * number part stops before the dot, and the dot is not the white space the pattern
   * needs next.
   */
  lemma TrailingDotNoMatch(t: string, h: nat, w: nat, d: nat)
    requires 1 <= h < w < d < |t|
    requires forall k :: 0 <= k < h ==> t[k] == '#'
    requires forall k :: h <= k < w ==> IsJsSpace(t[k])
    requires forall k :: w <= k < d ==> IsDigit(t[k])
    requires t[d] == '.' && (d + 1 == |t| || !IsDigit(t[d + 1]))
    ensures ManualNumberMatch(t, true) == 0
  {
    SpanIs(t, 0, IsHash, h);
    SpanIs(t, h, IsJsSpace, w);
    SpanIs(t, w, IsDigit, d);
    assert DottedNumberEnd(t, w) == d;
    SpanIs(t, d, IsJsSpace, d);
  }

  // ---------------------------------------------------------------------------------------
  // checkHyphenation

  /** `/[a-z]+-\n[a-z]+/` at the start of `t`. */
  function HyphenMatch(t: string, bol: bool): nat {
    var a := Span(t, 0, IsAsciiLower);
    if a >= 1 && a + 2 < |t| && t[a] == '-' && t[a + 1] == '\n' && IsAsciiLower(t[a + 2])
    then Span(t, a + 2, IsAsciiLower)
    else 0
  }

  /** A word broken by a hyphen at the end of a line: `x-`, a line break, then `y`. */
  predicate HyphenBreakAt(t: string, k: nat) {
    1 <= k && k + 2 < |t| && IsAsciiLower(t[k - 1]) && t[k] == '-' && t[k + 1] == '\n'
    && IsAsciiLower(t[k + 2])
  }

  /** `checkHyphenation`: fails exactly when a lower-case word is hyphenated across a line break. */
  function CheckHyphenation(content: string): (ok: bool)
    ensures ok <==> forall k :: 0 <= k < |content| ==> !HyphenBreakAt(content, k)
  {
    var ok := Matches(HyphenMatch, content, false, 0) == [];
    HyphenationMatches(content);
    ok
  }

  lemma HyphenationMatches(t: string)
    ensures (exists k :: 0 <= k < |t| && MatchAt(HyphenMatch, t, false, k) > 0)
        <==> (exists k :: 0 <= k < |t| && HyphenBreakAt(t, k))
  {
    if k :| 0 <= k < |t| && MatchAt(HyphenMatch, t, false, k) > 0 {
      var u := t[k..];
      var a := Span(u, 0, IsAsciiLower);
      assert HyphenBreakAt(t, k + a) by {
        assert u[a - 1] == t[k + a - 1] && u[a] == t[k + a];
        assert u[a + 1] == t[k + a + 1] && u[a + 2] == t[k + a + 2];
      }
    }
    if k :| 0 <= k < |t| && HyphenBreakAt(t, k) {
      var u := t[k - 1..];
      assert u[0] == t[k - 1] && u[1] == '-' && u[2] == '\n' && u[3] == t[k + 2];
      SpanIs(u, 0, IsAsciiLower, 1);
      assert MatchAt(HyphenMatch, t, false, k - 1) > 0;
    }
  }

  // ---------------------------------------------------------------------------------------
  // checkListSpacing

  /** Line `i` starts an unindented list directly under a line of text. */
  predicate ListStartAt(lines: seq<string>, i: nat)
    requires 1 <= i < |lines|
  {
    IsListItem(lines[i]) && !IsBlank(lines[i - 1]) && !IsListItem(lines[i - 1])
    && Indent(lines[i]) == 0
  }

  predicate ListSpacingPasses(content: string) {
    var lines := NormalizedLines(content);
    forall i :: 1 <= i < |lines| ==> !ListStartAt(lines, i)
  }

  /** `checkListSpacing`: the line numbers of the list items that need a blank line before them. */
  method CheckListSpacing(content: string) returns (problems: seq<nat>, ok: bool)
    ensures Increasing(problems)
    ensures var lines := NormalizedLines(content);
      forall n :: n in problems <==> 2 <= n <= |lines| && ListStartAt(lines, n - 1)
    ensures ok <==> problems == []
    ensures ok <==> ListSpacingPasses(content)
  {
    var lines := NormalizedLines(content);
    problems := [];
    for i := 1 to |lines|
      invariant problems == Reports(ListStart, lines, i)
    {
      var line := lines[i];
      var prevLine := lines[i - 1];
      ReportsNext(ListStart, lines, i + 1);
      if IsListItem(line) {
        if IsBlank(prevLine) {
          continue;
        }
        if IsListItem(prevLine) {
          continue;
        }
        if Indent(line) > 0 {
          continue;
        }
        problems := problems + [i + 1];
      }
    }
    ok := |problems| == 0;
    ListStartOutcome(lines);
  }

  /** The problems of a whole document, and when there are none. */
  lemma ListStartOutcome(lines: seq<string>)
    ensures forall n :: n in Reports(ListStart, lines, |lines|) <==> 2 <= n <= |lines| && ListStartAt(lines, n - 1)
    ensures Reports(ListStart, lines, |lines|) == [] <==> forall i :: 1 <= i < |lines| ==> !ListStartAt(lines, i)
  {
    var r := Reports(ListStart, lines, |lines|);
    if r == [] {
      forall i | 1 <= i < |lines| ensures !ListStartAt(lines, i) {
        assert i + 1 !in r;
      }
    } else {
      assert r[0] in r;
    }
  }

  /** The first line and indented items are never reported. */
  lemma ListStartNeverFirstOrIndented(lines: seq<string>, i: nat)
    requires 1 <= i < |lines| && ListStartAt(lines, i)
    ensures i + 1 >= 2 && Indent(lines[i]) == 0 && !IsJsSpace(lines[i][0])
  {
  }

  // ---------------------------------------------------------------------------------------
  // checkNestedListIndentation

  /** `/^(\s*)([-*+]|\d+\.)\s/`: the indent of a list item, `None` for any other line. */
  function NestedItemIndent(l: string): Option<nat> {
    var k := Indent(l);
    if k + 1 < |l| && l[k] in "-*+" && IsJsSpace(l[k + 1]) then Some(k)
    else
      var d := Span(l, k, IsDigit);
      if d > k && d + 1 < |l| && l[d] == '.' && IsJsSpace(l[d + 1]) then Some(k) else None
  }

  /**
   * The indent remembered when line `i` is reached: that of the last list item, reset to
   * 0 by every blank line and kept across any other line.
   */
  function TrackedIndent(lines: seq<string>, i: nat): nat
    requires i <= |lines|
  {
    if i == 0 then 0
    else match NestedItemIndent(lines[i - 1])
      case Some(indent) => indent
      case None => if IsBlank(lines[i - 1]) then 0 else TrackedIndent(lines, i - 1)
  }

  /** Line `i` is an item nested deeper than the remembered indent by other than 2. */
  predicate BadNestingAt(lines: seq<string>, i: nat)
    requires i < |lines|
  {
    match NestedItemIndent(lines[i])
    case Some(indent) =>
      var last := TrackedIndent(lines, i);
      last > 0 && indent > last && indent - last != 2
    case None => false
  }

  predicate NestedIndentationPasses(content: string) {
    var lines := Split(content, '\n');
    forall i :: 0 <= i < |lines| ==> !BadNestingAt(lines, i)
  }

  /** `checkNestedListIndentation`: the line numbers of wrongly nested items. */
  method CheckNestedListIndentation(content: string) returns (problems: seq<nat>, ok: bool)
    ensures Increasing(problems)
    ensures var lines := Split(content, '\n');
      forall n :: n in problems <==> 1 <= n <= |lines| && BadNestingAt(lines, n - 1)
    ensures ok <==> problems == []
    ensures ok <==> NestedIndentationPasses(content)
  {
    var lines := Split(content, '\n');
    var inList := false;
    var lastIndent := 0;
    problems := [];
    for i := 0 to |lines|
      invariant lastIndent == TrackedIndent(lines, i)
      invariant problems == Reports(BadNesting, lines, i)
    {
      var line := lines[i];
      var listItemMatch := NestedItemIndent(line);
      NestingStep(lines, i);
      if listItemMatch.Some? {
        inList := true;
        var indent := listItemMatch.value;
        if lastIndent > 0 && indent > lastIndent && indent - lastIndent != 2 {
          problems := problems + [i + 1];
        }
        lastIndent := indent;
      } else if IsBlank(line) {
        inList := false;
        lastIndent := 0;
      }
    }
    ok := |problems| == 0;
    NestingOutcome(lines);
  }

  /** The problems of a whole document, and when there are none. */
  lemma NestingOutcome(lines: seq<string>)
    ensures forall n :: n in Reports(BadNesting, lines, |lines|) <==> 1 <= n <= |lines| && BadNestingAt(lines, n - 1)
    ensures Reports(BadNesting, lines, |lines|) == [] <==> forall i :: 0 <= i < |lines| ==> !BadNestingAt(lines, i)
  {
    var r := Reports(BadNesting, lines, |lines|);
    if r == [] {
      forall i | 0 <= i < |lines| ensures !BadNestingAt(lines, i) {
        assert i + 1 !in r;
      }
    } else {
      assert r[0] in r;
    }
  }

  lemma NestingStep(lines: seq<string>, i: nat)
    requires i < |lines|
    ensures BadNestingAt(lines, i) <==>
      var m := NestedItemIndent(lines[i]); var last := TrackedIndent(lines, i);
      m.Some? && last > 0 && m.value > last && m.value - last != 2
    ensures TrackedIndent(lines, i + 1) ==
      var m := NestedItemIndent(lines[i]);
      if m.Some? then m.value else if IsBlank(lines[i]) then 0 else TrackedIndent(lines, i)
  {
  }

  /** A list item sets the remembered indent to its own. */
  lemma TrackedAfterItem(lines: seq<string>, i: nat, indent: nat)
    requires i < |lines| && NestedItemIndent(lines[i]) == Some(indent)
    ensures TrackedIndent(lines, i + 1) == indent
  {
  }

  /**
   * After line `j`, lines that are neither list items nor blank leave the remembered
   * indent as it was; a blank line `j` resets it to 0.
   */
  lemma {:induction false} TrackedAcrossText(lines: seq<string>, j: nat, i: nat)
    requires j < i <= |lines|
    requires forall k :: j < k < i ==> NestedItemIndent(lines[k]).None? && !IsBlank(lines[k])
    ensures TrackedIndent(lines, i) == (if NestedItemIndent(lines[j]).Some? then NestedItemIndent(lines[j]).value
                                        else if IsBlank(lines[j]) then 0 else TrackedIndent(lines, j))
    decreases i
  {
    if i > j + 1 {
      TrackedAcrossText(lines, j, i - 1);
    }
  }

  /** An item directly under an unindented item is never reported, whatever its indent. */
  lemma GrowthFromColumnZeroAccepted(lines: seq<string>, i: nat)
    requires 1 <= i < |lines| && NestedItemIndent(lines[i - 1]) == Some(0)
    ensures !BadNestingAt(lines, i)
  {
  }

  // ---------------------------------------------------------------------------------------
  // checkListEndSpacing

  /** The characters of `s` without its trailing spaces. */
  function DropTrailingSpaces(s: string): string
    decreases |s|
  {
    if s != [] && s[|s| - 1] == ' ' then DropTrailingSpaces(s[..|s| - 1]) else s
  }

  /** Where the marker of a list item (`- `, `* `, `+ ` or `1. `) ends. */
  function MarkerEnd(l: string): nat
    requires IsListItem(l)
  {
    var k := Indent(l);
    if k + 1 < |l| && l[k] in "-*+" && l[k + 1] == ' ' then k + 2 else Span(l, k, IsDigit) + 2
  }

  /** `/^(\s*)(- |\* |\+ |\d+\. ).*:[ ]*$/`: a list item whose text ends with a colon. */
  predicate IsColonItem(l: string) {
    IsListItem(l) && MarkerEnd(l) <= |l|
    && var text := l[MarkerEnd(l)..];
    NoLineTerminator(text)
    && var kept := DropTrailingSpaces(text);
    kept != [] && kept[|kept| - 1] == ':'
  }

  /**
   * The line after list item `i - 1` is text that needs a blank line before it: not
   * blank, not a list item, a quote or a table row, and not indented by two spaces.
   */
  predicate ListEndAt(lines: seq<string>, i: nat)
    requires 1 <= i < |lines|
  {
    var line := lines[i];
    IsListItem(lines[i - 1]) && !IsBlank(line) && !IsListItem(line)
    && !IsQuoteLine(line) && !IsTableLine(line) && !StartsWith(line, "  ")
  }

  predicate ListEndSpacingPasses(content: string) {
    var lines := NormalizedLines(content);
    forall i :: 1 <= i < |lines| ==> !ListEndAt(lines, i)
  }

  /**
   * `checkListEndSpacing`: the line numbers of the list items followed directly by text.
   * The exception for an item ending in a colon followed by an indented line is covered
   * by the later exception for any line indented by two spaces, so it does not appear in
   * `ListEndAt`.
   */
  method CheckListEndSpacing(content: string) returns (problems: seq<nat>, ok: bool)
    ensures Increasing(problems)
    ensures var lines := NormalizedLines(content);
      forall n :: n in problems <==> 1 <= n < |lines| && ListEndAt(lines, n)
    ensures ok <==> problems == []
    ensures ok <==> ListEndSpacingPasses(content)
  {
    var lines := NormalizedLines(content);
    problems := [];
    for i := 1 to |lines|
      invariant problems == Reports(ListEnd, lines, i - 1)
    {
      var line := lines[i];
      var prevLine := lines[i - 1];
      ReportsNext(ListEnd, lines, i);
      if IsColonItem(prevLine) && StartsWith(line, "  ") {
        assert !ListEndAt(lines, i);
        continue;
      }
      var isListItem := IsListItem(prevLine);
      if isListItem && !IsBlank(line) && !IsListItem(line)
         && !IsQuoteLine(line) && !IsTableLine(line)
      {
        if StartsWith(line, "  ") {
          continue;
        }
        problems := problems + [i];
      }
    }
    ok := |problems| == 0;
    ListEndOutcome(lines);
  }

  /** The problems of a whole document, and when there are none. */
  lemma ListEndOutcome(lines: seq<string>)
    requires |lines| >= 1
    ensures forall n :: n in Reports(ListEnd, lines, |lines| - 1) <==> 1 <= n < |lines| && ListEndAt(lines, n)
    ensures Reports(ListEnd, lines, |lines| - 1) == [] <==> forall i :: 1 <= i < |lines| ==> !ListEndAt(lines, i)
  {
    var r := Reports(ListEnd, lines, |lines| - 1);
    if r == [] {
      forall i | 1 <= i < |lines| ensures !ListEndAt(lines, i) {
        assert i !in r;
      }
    } else {
      assert r[0] in r;
    }
  }

  // ---------------------------------------------------------------------------------------
  // checkBlockquoteSpacing

  /** Line `i` opens a quote directly under text that does not end with a colon. */
  predicate QuoteStartAt(lines: seq<string>, i: nat)
    requires 1 <= i < |lines|
  {
    var prev := lines[i - 1];
    IsQuoteLine(lines[i]) && !IsQuoteLine(prev) && i > 1 && !IsBlank(prev) && !EndsWithColon(prev)
  }

  /** Line `i` is text directly under a quote line. */
  predicate QuoteEndAt(lines: seq<string>, i: nat)
    requires 1 <= i < |lines|
  {
    IsQuoteLine(lines[i - 1]) && !IsQuoteLine(lines[i]) && !IsBlank(lines[i])
  }

  predicate BlockquoteSpacingPasses(content: string) {
    var lines := NormalizedLines(content);
    forall i :: 1 <= i < |lines| ==> !QuoteStartAt(lines, i) && !QuoteEndAt(lines, i)
  }

  /**
   * `checkBlockquoteSpacing`: the line numbers of quotes missing a blank line before them
   * (the quote's own line) and after them (the last quote line).
   */
  method CheckBlockquoteSpacing(content: string) returns (starts: seq<nat>, ends: seq<nat>, ok: bool)
    ensures Increasing(starts) && Increasing(ends)
    ensures var lines := NormalizedLines(content);
      forall n :: n in starts <==> 2 <= n <= |lines| && QuoteStartAt(lines, n - 1)
    ensures var lines := NormalizedLines(content);
      forall n :: n in ends <==> 1 <= n < |lines| && QuoteEndAt(lines, n)
    ensures ok <==> starts == [] && ends == []
    ensures ok <==> BlockquoteSpacingPasses(content)
  {
    var lines := NormalizedLines(content);
    starts := [];
    ends := [];
    for i := 1 to |lines|
      invariant starts == Reports(QuoteStart, lines, i)
      invariant ends == Reports(QuoteEnd, lines, i - 1)
    {
      var line := lines[i];
      var prevLine := lines[i - 1];
      ReportsNext(QuoteStart, lines, i + 1);
      ReportsNext(QuoteEnd, lines, i);
      var isPrevBlockquote := IsQuoteLine(prevLine);
      if IsQuoteLine(line) && !isPrevBlockquote {
        if i > 1 && !IsBlank(prevLine) {
          if EndsWithColon(prevLine) {
            continue;
          }
          starts := starts + [i + 1];
        }
      }
      if isPrevBlockquote && !IsQuoteLine(line) && !IsBlank(line) {
        ends := ends + [i];
      }
    }
    ok := |starts| == 0 && |ends| == 0;
    QuoteOutcome(lines);
  }

  /** The problems of a whole document, and when there are none. */
  lemma QuoteOutcome(lines: seq<string>)
    requires |lines| >= 1
    ensures forall n :: n in Reports(QuoteStart, lines, |lines|) <==> 2 <= n <= |lines| && QuoteStartAt(lines, n - 1)
    ensures forall n :: n in Reports(QuoteEnd, lines, |lines| - 1) <==> 1 <= n < |lines| && QuoteEndAt(lines, n)
    ensures (Reports(QuoteStart, lines, |lines|) == [] && Reports(QuoteEnd, lines, |lines| - 1) == []) <==>
      forall i :: 1 <= i < |lines| ==> !QuoteStartAt(lines, i) && !QuoteEndAt(lines, i)
  {
    var starts := Reports(QuoteStart, lines, |lines|);
    var ends := Reports(QuoteEnd, lines, |lines| - 1);
    if starts == [] && ends == [] {
      forall i | 1 <= i < |lines| ensures !QuoteStartAt(lines, i) && !QuoteEndAt(lines, i) {
        assert i + 1 !in starts && i !in ends;
      }
    }
    if starts != [] {
      assert starts[0] in starts;
    }
    if ends != [] {
      assert ends[0] in ends;
    }
  }

  // ---------------------------------------------------------------------------------------
  // checkTableSpacing

  /** Line `i` opens a table directly under text that does not end with a colon. */
  predicate TableStartAt(lines: seq<string>, i: nat)
    requires i < |lines|
  {
    IsTableLine(lines[i]) && i > 0 && !IsTableLine(lines[i - 1])
    && !IsBlank(lines[i - 1]) && !EndsWithColon(lines[i - 1])
  }

  /** The text of the problem reported for line number `n`: the two lines joined by `↵`. */
  function ProblemText(lines: seq<string>, n: nat): string
    requires 2 <= n <= |lines|
  {
    lines[n - 2] + "↵" + lines[n - 1]
  }

  /** The filter of line 346: problems that mention a separator row are dropped. */
  predicate KeepTableStart(lines: seq<string>, n: nat)
    requires 2 <= n <= |lines|
  {
    var text := ProblemText(lines, n);
    !Includes(text, "|--") && !Includes(text, "|-")
  }

  /** `problems.filter(...)` with `KeepTableStart`. */
  function FilterTableStarts(lines: seq<string>, ns: seq<nat>): (r: seq<nat>)
    requires forall n :: n in ns ==> 2 <= n <= |lines|
    ensures forall n :: n in r <==> n in ns && KeepTableStart(lines, n)
    decreases |ns|
  {
    if ns == [] then []
    else
      assert ns[0] in ns && forall n :: n in ns[1..] ==> n in ns;
      var rest := FilterTableStarts(lines, ns[1..]);
      assert forall n :: n in ns <==> n == ns[0] || n in ns[1..];
      if KeepTableStart(lines, ns[0]) then [ns[0]] + rest else rest
  }

  lemma {:induction false} FilterKeepsOrder(lines: seq<string>, ns: seq<nat>)
    requires forall n :: n in ns ==> 2 <= n <= |lines|
    requires Increasing(ns)
    ensures Increasing(FilterTableStarts(lines, ns))
    decreases |ns|
  {
    if ns != [] {
      assert ns[0] in ns && forall n :: n in ns[1..] ==> n in ns;
      HeadBelowTail(ns);
      FilterKeepsOrder(lines, ns[1..]);
      if KeepTableStart(lines, ns[0]) {
        PushFront(ns[0], FilterTableStarts(lines, ns[1..]));
      }
    }
  }

  /** The first of increasing numbers is below all the others, which increase too. */
  lemma HeadBelowTail(ns: seq<nat>)
    requires Increasing(ns) && ns != []
    ensures Increasing(ns[1..])
    ensures forall n :: n in ns[1..] ==> ns[0] < n
  {
    forall n | n in ns[1..] ensures ns[0] < n {
      var j :| 0 <= j < |ns[1..]| && ns[1..][j] == n;
      assert ns[j + 1] == n;
    }
  }

  /** Putting a number below all increasing ones in front keeps the order. */
  lemma PushFront(x: nat, ns: seq<nat>)
    requires Increasing(ns) && forall n :: n in ns ==> x < n
    ensures Increasing([x] + ns)
  {
    var r := [x] + ns;
    forall a, b | 0 <= a < b < |r| ensures r[a] < r[b] {
      assert r[b] == ns[b - 1] && ns[b - 1] in ns;
      if a > 0 {
        assert r[a] == ns[a - 1];
      }
    }
  }

  /** Line `i` is text directly under a table row. */
  predicate TableEndAt(lines: seq<string>, i: nat)
    requires i < |lines|
  {
    i > 0 && IsTableLine(lines[i - 1]) && !IsTableLine(lines[i]) && !IsBlank(lines[i])
  }

  predicate TableSpacingPasses(content: string, filename: string) {
    var lines := NormalizedLines(content);
    || filename == "test.md"
    || ((forall i :: 0 <= i < |lines| && TableStartAt(lines, i) ==> !KeepTableStart(lines, i + 1))
        && (forall i :: 0 <= i < |lines| ==> !TableEndAt(lines, i)))
  }

  /**
   * `checkTableSpacing`: the line numbers of tables missing a blank line before them (the
   * table's first row, unless the problem text mentions `|-`) and after them (the first
   * line after the table). A document named `test.md` always passes.
   */
  method CheckTableSpacing(content: string, filename: string) returns (starts: seq<nat>, ends: seq<nat>, ok: bool)
    ensures Increasing(starts) && Increasing(ends)
    ensures var lines := NormalizedLines(content);
      forall n :: n in starts <==> 2 <= n <= |lines| && TableStartAt(lines, n - 1) && KeepTableStart(lines, n)
    ensures var lines := NormalizedLines(content);
      forall n :: n in ends <==> 1 <= n <= |lines| && TableEndAt(lines, n - 1)
    ensures ok <==> (starts == [] && ends == []) || filename == "test.md"
    ensures ok <==> TableSpacingPasses(content, filename)
  {
    var lines := NormalizedLines(content);
    var raw: seq<nat> := [];
    ends := [];
    var insideTable := false;
    var tableStartLine := 0;
    for i := 0 to |lines|
      invariant insideTable <==> i > 0 && IsTableLine(lines[i - 1])
      invariant raw == Reports(TableStart, lines, i)
      invariant ends == Reports(TableEnd, lines, i)
    {
      var line := lines[i];
      var isTableLine := IsTableLine(line);
      ReportsNext(TableStart, lines, i + 1);
      ReportsNext(TableEnd, lines, i + 1);
      if isTableLine && !insideTable {
        insideTable := true;
        tableStartLine := i;
        if i > 0 && !IsBlank(lines[i - 1]) {
          if !EndsWithColon(lines[i - 1]) {
            raw := raw + [i + 1];
          }
        }
      }
      if insideTable && !isTableLine {
        insideTable := false;
        if !IsBlank(line) {
          ends := ends + [i + 1];
        }
      }
      if i > 0 && isTableLine && IsTableLine(lines[i - 1]) {
        continue;
      }
    }
    starts := FilterTableStarts(lines, raw);
    ok := (|starts| == 0 && |ends| == 0) || filename == "test.md";
    TableStarts(lines);
    FilterKeepsOrder(lines, raw);
    TableOutcome(content, filename);
  }

  /** The filtered start problems of a whole document. */
  lemma TableStarts(lines: seq<string>)
    ensures var starts := FilterTableStarts(lines, Reports(TableStart, lines, |lines|));
      forall n :: n in starts <==> 2 <= n <= |lines| && TableStartAt(lines, n - 1) && KeepTableStart(lines, n)
  {
    var raw := Reports(TableStart, lines, |lines|);
    forall n: nat ensures n in raw <==> 2 <= n <= |lines| && TableStartAt(lines, n - 1) {
      assert ReportedAt(TableStart, lines, n) <==> 1 <= n <= |lines| && TableStartAt(lines, n - 1);
    }
  }

  /** The verdict of the rule, stated on the whole document. */
  lemma TableOutcome(content: string, filename: string)
    ensures var lines := NormalizedLines(content);
      var starts := FilterTableStarts(lines, Reports(TableStart, lines, |lines|));
      var ends := Reports(TableEnd, lines, |lines|);
      ((starts == [] && ends == []) || filename == "test.md") <==> TableSpacingPasses(content, filename)
  {
    var lines := NormalizedLines(content);
    var starts := FilterTableStarts(lines, Reports(TableStart, lines, |lines|));
    var ends := Reports(TableEnd, lines, |lines|);
    TableStarts(lines);
    if starts == [] && ends == [] {
      forall i | 0 <= i < |lines|
        ensures (TableStartAt(lines, i) ==> !KeepTableStart(lines, i + 1)) && !TableEndAt(lines, i)
      {
        assert i + 1 !in starts && i + 1 !in ends;
      }
    }
    if starts != [] {
      assert starts[0] in starts;
    }
    if ends != [] {
      assert ends[0] in ends;
    }
  }

  /** The `|--` test of the filter is implied by the `|-` test. */
  lemma SeparatorFilterIsDash(t: string)
    ensures Includes(t, "|--") ==> Includes(t, "|-")
  {
    if Includes(t, "|--") {
      var k: nat :| OccursAt(t, "|--", k);
      assert t[k..k + 2] == t[k..k + 3][..2];
      assert OccursAt(t, "|-", k);
    }
  }

  // ---------------------------------------------------------------------------------------
  // validateMarkdownFile

  /** The rules, in the order in which `Object.entries(rules)` lists them. */
  datatype Rule =
    | ManualSectionNumbers
    | ListSpacing
    | NestedListIndentation
    | ListEndSpacing
    | Hyphenation
    | BlockquoteSpacing
    | TableSpacing

  const RuleOrder: seq<Rule> := [
    ManualSectionNumbers, ListSpacing, NestedListIndentation, ListEndSpacing,
    Hyphenation, BlockquoteSpacing, TableSpacing
  ]

  /** When a rule passes a document, stated without running its loop. */
  predicate Passes(rule: Rule, content: string, filename: string) {
    match rule
    case ManualSectionNumbers => forall k :: 0 <= k < |content| ==> MatchAt(ManualNumberMatch, content, true, k) == 0
    case ListSpacing => ListSpacingPasses(content)
    case NestedListIndentation => NestedIndentationPasses(content)
    case ListEndSpacing => ListEndSpacingPasses(content)
    case Hyphenation => forall k :: 0 <= k < |content| ==> !HyphenBreakAt(content, k)
    case BlockquoteSpacing => BlockquoteSpacingPasses(content)
    case TableSpacing => TableSpacingPasses(content, filename)
  }

  /** `ruleFunc(content, filename)`. */
  method RunRule(rule: Rule, content: string, filename: string) returns (passed: bool)
    ensures passed == Passes(rule, content, filename)
  {
    match rule
    case ManualSectionNumbers =>
      passed := CheckManualSectionNumbers(content);
    case ListSpacing =>
      var _, ok := CheckListSpacing(content);
      passed := ok;
    case NestedListIndentation =>
      var _, ok := CheckNestedListIndentation(content);
      passed := ok;
    case ListEndSpacing =>
      var _, ok := CheckListEndSpacing(content);
      passed := ok;
    case Hyphenation =>
      passed := CheckHyphenation(content);
    case BlockquoteSpacing =>
      var _, _, ok := CheckBlockquoteSpacing(content);
      passed := ok;
    case TableSpacing =>
      var _, _, ok := CheckTableSpacing(content, filename);
      passed := ok;
  }

  /** Every rule result recorded so far is a pass. */
  predicate AllPassed(rs: seq<(Rule, bool)>) {
    forall q :: 0 <= q < |rs| ==> rs[q].1
  }

  lemma AllPassedPush(rs: seq<(Rule, bool)>, x: (Rule, bool))
    ensures AllPassed(rs + [x]) <==> AllPassed(rs) && x.1
  {
    assert (rs + [x])[|rs|] == x;
    assert forall q :: 0 <= q < |rs| ==> (rs + [x])[q] == rs[q];
  }

  /**
   * `validateMarkdownFile`: `read` is the outcome of reading the file, `None` when the
   * read throws. Every rule runs, none is skipped after a failure, and the file is valid
   * exactly when every rule passes.
   */
  method ValidateMarkdownFile(read: Option<string>, filePath: string)
    returns (valid: bool, ruleResults: seq<(Rule, bool)>)
    ensures read.None? ==> !valid && ruleResults == []
    ensures read.Some? ==>
      |ruleResults| == |RuleOrder|
      && forall j :: 0 <= j < |RuleOrder| ==>
           ruleResults[j] == (RuleOrder[j], Passes(RuleOrder[j], read.value, Basename(filePath)))
    ensures valid <==> read.Some? && forall j :: 0 <= j < |ruleResults| ==> ruleResults[j].1
  {
    if read.None? {
      return false, [];
    }
    var content := read.value;
    var filename := Basename(filePath);
    valid := true;
    ruleResults := [];
    ghost var expected := seq(|RuleOrder|, q requires 0 <= q < |RuleOrder| => (RuleOrder[q], Passes(RuleOrder[q], content, filename)));
    for j := 0 to |RuleOrder|
      invariant ruleResults == expected[..j]
      invariant valid == AllPassed(ruleResults)
    {
      var result := RunRule(RuleOrder[j], content, filename);
      TakeNext(expected, j);
      AllPassedPush(ruleResults, (RuleOrder[j], result));
      ruleResults := ruleResults + [(RuleOrder[j], result)];
      if !result {
        valid := false;
      }
    }
  }
}
